=== FILE: README.md ===
# TextModel in Dafny

A verified model of the text-storage engine of the Kotlin TextModel library.
It covers three layers:

- `TextRow`: one line of text held in a growable array of nullable character
  slots (`text_row.dfy`, module `TextRows`).
- `AbstractTextModel`: the buffer, a list of rows with a cached total length
  that counts one virtual line feed between neighbouring rows
  (`buffer.dfy`, module `Buffers`, over the flat-text vocabulary of
  `lines.dfy`, module `Lines`).
- `CachedIndexer`: the conversion between positions and flat indices,
  walking row sizes from the nearest of the zero position, a recency cache of
  at most 100 anchors, and an end anchor. It is also the observer that shifts
  or evicts anchors after every edit (`indexer.dfy`, module `Indexers`).

`text_model.dfy` (module `TextModels`) composes a buffer with its indexer:
every edit runs the buffer operation and hands the event to the indexer.
Every flat-index read goes through the indexer first. `scenarios.dfy` holds
concrete runs on the document `"aa\nbcc\na"` that the repository's driver
builds. `wrappers.dfy` holds `Option`, `Result` and the error kinds.

Naming. The Kotlin code calls the 1-based line number a `column` and the
0-based offset inside a line a `row`. The model renames them:

- code `column` is model `line` (1-based);
- code `row` is model `off` (0-based);
- code `ColumnRowPosition` is model `Anchor(line, off, index)`.

The three bounds exceptions of the code become the `ModelError` values
`LineOutOfBounds`, `OffsetOutOfBounds` and `IndexOutOfBounds`.
`TouchedGapError` becomes `TouchedGap`; it is unreachable because every slot
below a row's length holds a character.

Abstraction. A row is specified by its contents (`TextRow.Contents()`). The
row methods loop over the slot array as the Kotlin does, and prove that
each one is the corresponding sequence splice. The buffer is a non-empty
`seq<seq<char>>` of row contents. Its flat text `Text(rows)` is the rows
joined with line feeds. `Offset(rows, line, off)` is the flat index of a
position. The indexer invariant `Coherent` says three things:

- every cached anchor names a valid position and carries that position's
  flat index;
- the cache holds at most 100 anchors;
- the end anchor is the buffer's end.

Behaviours of the code that the model keeps as written. The model follows
the code in each case below, and the coherence results carry the hypotheses
under which the code is right.

- A multi-line insert does not split the row it starts in. Each line feed
  opens a new empty row right after the current one, and writing continues
  there. The tail of the starting row stays on the starting row. So an
  insert is a flat splice only when the text has no line feed or the offset
  is the row's end (`Buffers.InsertRows`).
- `afterInsert` gives an anchor on the start line, at or after the start
  offset, the new offset `endRow - row + startRow`. That is right only for an
  anchor exactly at the start offset of an insert that is a flat splice. `Indexers.InsertMisplacesLaterAnchor`
  shows an anchor that ends up at offset −1.
- `afterDelete` evicts an anchor on the start line when its offset is at
  least the start *line* number. `Indexers.DeleteKeepsStaleAnchor` shows an
  anchor that should go but stays, with the wrong index.
- `deleteCharAt` at a row's end merges the next row into it, but reports
  the span `(line, off, line, off + 1)`. Anchors on the row merged in
  therefore keep their old line number, as `Indexers.MergeKeepsStaleAnchor` shows.
- `clear()` notifies no observer, so the indexer's end anchor goes stale
  (`TextModels.ClearLeavesStaleEnd`).
- `delete` checks only that both lines exist. A start line after the end
  line is accepted: the end row is removed and the start row becomes its head
  joined with the end row's tail (`Buffers.DeleteRows`).

The backward index walk's sentinel is the one place where the model uses the
evidently intended code; see "## Findings".

## Model

| member | source | states |
|---|---|---|
| TextRows.Empty | src/main/kotlin/com/mucheng/text/model/standard/TextRow.kt:44-51 | a new row is empty and valid, and its capacity is the hint raised to at least 16 |
| TextRows.CheckIndex | src/main/kotlin/com/mucheng/text/model/standard/TextRow.kt:252-265 | passes exactly when `0 <= index < length`, or `<= length` when the end is allowed; otherwise reports the index |
| TextRows.CheckRangeIndex | src/main/kotlin/com/mucheng/text/model/standard/TextRow.kt:276-282 | passes exactly when `0 <= start <= end <= length`; reports the start, then the end, then `end - start`, in the code's order |
| TextRows.FromChars | src/main/kotlin/com/mucheng/text/model/standard/TextRow.kt:15-23 | the row built from a sequence holds exactly that sequence, with capacity `max(16, length)` |
| TextRows.Get | src/main/kotlin/com/mucheng/text/model/standard/TextRow.kt:60-63 | succeeds exactly for `0 <= index < length` and returns that character of the contents; never touches an empty slot |
| TextRows.Set | src/main/kotlin/com/mucheng/text/model/standard/TextRow.kt:65-69 | succeeds exactly for `0 <= index < length`; only character `index` changes and the capacity is kept |
| TextRows.SubSequence | src/main/kotlin/com/mucheng/text/model/standard/TextRow.kt:71-85 | succeeds exactly for `0 <= start <= end <= length` and returns `contents[start..end]`; errors as the range check reports them |
| TextRows.SubSequenceBefore | src/main/kotlin/com/mucheng/text/model/standard/TextRow.kt:208-210 | the contents before `index` |
| TextRows.SubSequenceAfter | src/main/kotlin/com/mucheng/text/model/standard/TextRow.kt:212-214 | the contents from `index` on |
| TextRows.EnsureCapacity | src/main/kotlin/com/mucheng/text/model/standard/TextRow.kt:87-97 | contents unchanged; capacity becomes the minimum asked for when that is larger, else grows by 16 |
| TextRows.ShiftTailRight | src/main/kotlin/com/mucheng/text/model/standard/TextRow.kt:115-119 | the slots `index..length-1` move right by `n`; slots before `index` are kept |
| TextRows.WriteChars | src/main/kotlin/com/mucheng/text/model/standard/TextRow.kt:122-127 | the characters land in the slots from `index` on, one per character; every other slot is kept |
| TextRows.Insert | src/main/kotlin/com/mucheng/text/model/standard/TextRow.kt:103-130 | succeeds exactly for `0 <= index <= length`; contents become `old[..index] + cs + old[index..]`; an overflowing insert grows the capacity by twice the inserted length |
| TextRows.InsertChar | src/main/kotlin/com/mucheng/text/model/standard/TextRow.kt:132-152 | the one-character insert: same splice with `[c]`, and an overflow grows the capacity by 1 |
| TextRows.Append | src/main/kotlin/com/mucheng/text/model/standard/TextRow.kt:99-101 | contents become `old + cs` |
| TextRows.Delete | src/main/kotlin/com/mucheng/text/model/standard/TextRow.kt:154-176 | succeeds exactly for `0 <= start <= end <= length`; contents become `old[..start] + old[end..]`; an empty range returns the row unchanged |
| TextRows.ClearSlots | src/main/kotlin/com/mucheng/text/model/standard/TextRow.kt:161-165 | slots in `[start, end)` are emptied; all others are kept |
| TextRows.ShiftSlotsLeft | src/main/kotlin/com/mucheng/text/model/standard/TextRow.kt:167-172 | the tail from `end` moves left to `start`; slots before `start` and after the moved tail are kept |
| TextRows.DeleteCharAt | src/main/kotlin/com/mucheng/text/model/standard/TextRow.kt:178-194 | succeeds exactly for `0 <= index < length`; contents become `old[..index] + old[index+1..]` |
| TextRows.DeleteBefore | src/main/kotlin/com/mucheng/text/model/standard/TextRow.kt:196-200 | leaves `old[index..]` |
| TextRows.DeleteAfter | src/main/kotlin/com/mucheng/text/model/standard/TextRow.kt:202-206 | leaves `old[..index]` |
| TextRows.Clear | src/main/kotlin/com/mucheng/text/model/standard/TextRow.kt:216-224 | contents become empty, the used slots are emptied, and the capacity is kept |
| TextRows.Copy | src/main/kotlin/com/mucheng/text/model/standard/TextRow.kt:226-228 | the copy has the same contents, with capacity `max(16, length)` |
| TextRows.ToString | src/main/kotlin/com/mucheng/text/model/standard/TextRow.kt:230-238 | the string is the contents |
| Lines.TextLength | src/main/kotlin/com/mucheng/text/model/base/AbstractTextModel.kt:344-359 | the joined text is as long as the characters plus one separator per row boundary, so the string is as long as the cached length |
| Lines.JoinSplit | src/main/kotlin/com/mucheng/text/model/base/AbstractTextModel.kt:237-259 | splitting a text at its line feeds and joining the pieces again gives the text back |
| Lines.SplitJoin | src/main/kotlin/com/mucheng/text/model/base/AbstractTextModel.kt:344-359 | rows without line feeds, joined and split again, give the rows back |
| Lines.SplitCount | src/main/kotlin/com/mucheng/text/model/base/AbstractTextModel.kt:245-256 | a text has one piece more than it has line feeds |
| Lines.CharAt | src/main/kotlin/com/mucheng/text/model/base/AbstractTextModel.kt:154-161 | the flat character at a position is the row's character, or a line feed at the end of a non-last row |
| Lines.PositionUnique | src/main/kotlin/com/mucheng/text/model/indexer/CachedIndexer.kt:62-72 | two valid positions with the same flat index are the same position |
| Lines.PositionOrder | src/main/kotlin/com/mucheng/text/model/indexer/CachedIndexer.kt:65-71 | flat indices order positions exactly as line-then-offset does, so comparing indices picks the walking direction |
| Lines.LineStartNext | src/main/kotlin/com/mucheng/text/model/indexer/CachedIndexer.kt:155-158 | the next line starts one row length plus one separator later |
| Lines.EndOffset | src/main/kotlin/com/mucheng/text/model/indexer/CachedIndexer.kt:29-33 | the end of the last row has flat index equal to the buffer size |
| Lines.JoinIsReplace | src/main/kotlin/com/mucheng/text/model/base/AbstractTextModel.kt:361-393 | joining rows with any separator equals the line-feed join with each line feed replaced by that separator |
| Buffers.Init | src/main/kotlin/com/mucheng/text/model/base/AbstractTextModel.kt:66-82 | a new buffer has one empty row, length 0 and empty text |
| Buffers.Clear | src/main/kotlin/com/mucheng/text/model/base/AbstractTextModel.kt:405-411 | a cleared buffer has one empty row, length 0 and empty text |
| Buffers.CheckLine | src/main/kotlin/com/mucheng/text/model/base/AbstractTextModel.kt:485-492 | passes exactly for `1 <= line <= rows`; otherwise reports the line |
| Buffers.CheckLineOffset | src/main/kotlin/com/mucheng/text/model/base/AbstractTextModel.kt:503-518 | passes exactly for an existing line and an offset from 0 up to the row length (inclusive or exclusive); a bad line is reported before a bad offset |
| Buffers.CheckIndex | src/main/kotlin/com/mucheng/text/model/base/AbstractTextModel.kt:445-458 | passes exactly for `0 <= index <= length`, or `< length`; otherwise reports the index |
| Buffers.CheckRangeIndex | src/main/kotlin/com/mucheng/text/model/base/AbstractTextModel.kt:469-475 | passes exactly for `0 <= start < length` and `start <= end <= length`; reports the start, then the end, then `end - start` |
| Buffers.CheckRangeLineOffset | src/main/kotlin/com/mucheng/text/model/base/AbstractTextModel.kt:532-538 | passes exactly for two valid positions in line order; out of order reports `endLine - startLine` |
| Buffers.CheckCharPosition | src/main/kotlin/com/mucheng/text/model/base/AbstractTextModel.kt:143-152 | passes exactly for a valid position that has a character after it: inside the row, or at the end of a non-last row |
| Buffers.GetAt | src/main/kotlin/com/mucheng/text/model/base/AbstractTextModel.kt:143-161 | succeeds exactly where the position check passes, and returns the flat text's character at that position's index |
| Buffers.SubSequenceInternal | src/main/kotlin/com/mucheng/text/model/base/AbstractTextModel.kt:190-216 | for positions in order, the result is the flat text between their indices; failures are the row range errors |
| Buffers.SubSequenceAcross | src/main/kotlin/com/mucheng/text/model/base/AbstractTextModel.kt:199-214 | across lines: start row tail, a line feed, the whole middle rows, end row head; in order, that is the flat slice |
| Buffers.SliceAcross | src/main/kotlin/com/mucheng/text/model/base/AbstractTextModel.kt:203-213 | the flat slice between two positions on different lines is the start tail, a line feed, the middle rows each followed by a line feed, and the end head |
| Buffers.SubSequenceLines | src/main/kotlin/com/mucheng/text/model/base/AbstractTextModel.kt:177-216 | checks both lines first, then behaves as `Buffers.SubSequenceInternal` (its offset errors, same-line reversed-range failure and out-of-order shape); every in-order pair of valid positions succeeds with the flat slice |
| Buffers.InsertInternal | src/main/kotlin/com/mucheng/text/model/base/AbstractTextModel.kt:237-265 | the character loop leaves `InsertRows` of the text's line-feed pieces; length grows by the text's length, rows by the number of line feeds; the event reports where writing stopped |
| Buffers.WrittenChar | src/main/kotlin/com/mucheng/text/model/base/AbstractTextModel.kt:245-247 | writing one more ordinary character keeps the loop invariant: the rows are the pieces of the longer prefix |
| Buffers.WrittenLF | src/main/kotlin/com/mucheng/text/model/base/AbstractTextModel.kt:248-256 | opening an empty row after the current one on a line feed keeps the loop invariant |
| Buffers.Insert | src/main/kotlin/com/mucheng/text/model/base/AbstractTextModel.kt:230-235 | succeeds exactly at a valid position, with the `insertInternal` result; otherwise the line or offset error |
| Buffers.InsertRowsShape | src/main/kotlin/com/mucheng/text/model/base/AbstractTextModel.kt:237-260 | the insert adds one row per line feed, adds the text's length to the size, and keeps rows free of line feeds |
| Buffers.InsertSpliceNoLF | src/main/kotlin/com/mucheng/text/model/base/AbstractTextModel.kt:243-247 | a text without line feeds lands as a flat splice at the position's index |
| Buffers.InsertSpliceAtEnd | src/main/kotlin/com/mucheng/text/model/base/AbstractTextModel.kt:243-257 | any text inserted at a row's end lands as a flat splice at that index |
| Buffers.InsertKeepsEarlier | src/main/kotlin/com/mucheng/text/model/base/AbstractTextModel.kt:237-259 | positions before the insertion point keep their line, offset and flat index |
| Buffers.InsertShiftsLater | src/main/kotlin/com/mucheng/text/model/base/AbstractTextModel.kt:237-259 | positions on later lines move down by the number of line feeds and their flat index grows by the text's length |
| Buffers.InsertEndOffset | src/main/kotlin/com/mucheng/text/model/base/AbstractTextModel.kt:262-264 | for a splice insert, the reported end position is valid and lies the text's length after the start |
| Buffers.InsertThenDelete | src/main/kotlin/com/mucheng/text/model/base/AbstractTextModel.kt:237-305 | for a splice insert, deleting the reported span restores the old rows |
| Buffers.Append | src/main/kotlin/com/mucheng/text/model/base/AbstractTextModel.kt:218-223 | appending inserts at the end of the last row: the text becomes `old + text`, and the length and row count grow accordingly |
| Buffers.AppendEnd | src/main/kotlin/com/mucheng/text/model/base/AbstractTextModel.kt:218-223 | an append's reported end is the end of the new last row |
| Buffers.AppendText | src/main/kotlin/com/mucheng/text/model/base/AbstractTextModel.kt:218-223 | inserting at the end of the last row adds the text at the end of the flat text |
| Buffers.DeleteRowsShape | src/main/kotlin/com/mucheng/text/model/base/AbstractTextModel.kt:275-301 | a delete removes `endLine - startLine` rows (one row when out of order) and shrinks the size by the deleted amount |
| Buffers.DeleteSplice | src/main/kotlin/com/mucheng/text/model/base/AbstractTextModel.kt:275-300 | an in-order delete removes exactly the flat text between the two indices |
| Buffers.DeleteKeepsEarlier | src/main/kotlin/com/mucheng/text/model/base/AbstractTextModel.kt:277-299 | positions before the delete start keep their line, offset and index |
| Buffers.DeleteShiftsLater | src/main/kotlin/com/mucheng/text/model/base/AbstractTextModel.kt:277-299 | positions after the end line move up by the removed lines and lose the deleted amount of index |
| Buffers.Delete | src/main/kotlin/com/mucheng/text/model/base/AbstractTextModel.kt:267-305 | line errors first, then the deleted-text computation's offset errors; on success the rows lose the span, the length drops by the reported text, and in order that text is the flat slice |
| Buffers.DeleteCharAt | src/main/kotlin/com/mucheng/text/model/base/AbstractTextModel.kt:307-342 | succeeds where the character check passes; removes the one flat character there (a row merge at a row's end); length drops by 1; reports `(line, off, line, off + 1)` |
| Buffers.DeleteOneInRow | src/main/kotlin/com/mucheng/text/model/base/AbstractTextModel.kt:330-332 | deleting inside a row removes one flat character and keeps the rows free of line feeds |
| Buffers.DeleteOneMerge | src/main/kotlin/com/mucheng/text/model/base/AbstractTextModel.kt:333-337 | merging the next row removes the one separating line feed |
| Buffers.Render | src/main/kotlin/com/mucheng/text/model/base/AbstractTextModel.kt:344-393 | the row loop produces the rows joined by the separator, with no trailing separator |
| Buffers.ToString | src/main/kotlin/com/mucheng/text/model/base/AbstractTextModel.kt:344-359 | the string is the flat text, its length is the cached length, and splitting it gives the rows back |
| Buffers.ToCRString | src/main/kotlin/com/mucheng/text/model/base/AbstractTextModel.kt:361-376 | the flat text with every line feed replaced by CR, of the cached length |
| Buffers.ToCRLFString | src/main/kotlin/com/mucheng/text/model/base/AbstractTextModel.kt:378-393 | the flat text with every line feed replaced by CR LF, one character longer per row boundary |
| Indexers.NewIndexer | src/main/kotlin/com/mucheng/text/model/indexer/CachedIndexer.kt:17-23 | a new indexer has an empty cache, caching on, and the zero end anchor, and is coherent with a new buffer |
| Indexers.EndAnchor | src/main/kotlin/com/mucheng/text/model/indexer/CachedIndexer.kt:29-33 | the end anchor is the last line's end and carries the buffer length as its correct index |
| Indexers.RowSize | src/main/kotlin/com/mucheng/text/model/base/AbstractTextModel.kt:113-126 | the row length for an existing line; otherwise the line error |
| Indexers.DropOldest | src/main/kotlin/com/mucheng/text/model/indexer/CachedIndexer.kt:290-292 | keeps the newest entries, at most 100 of them |
| Indexers.Push | src/main/kotlin/com/mucheng/text/model/indexer/CachedIndexer.kt:286-294 | with caching on, the anchor becomes the newest entry and the oldest go beyond 100; with caching off nothing changes |
| Indexers.PushMembers | src/main/kotlin/com/mucheng/text/model/indexer/CachedIndexer.kt:286-294 | a push adds the pushed anchor when caching is on, and no other anchor |
| Indexers.PushKeepsCoherent | src/main/kotlin/com/mucheng/text/model/indexer/CachedIndexer.kt:286-294 | pushing a correct anchor keeps the indexer coherent |
| Indexers.Swap | src/main/kotlin/com/mucheng/text/model/indexer/CachedIndexer.kt:113-115 | exchanges two entries and keeps the multiset of entries |
| Indexers.Nearest | src/main/kotlin/com/mucheng/text/model/indexer/CachedIndexer.kt:89-117 | picks the first cached anchor with the strictly smallest distance below the target, else zero; switches to the end anchor when that is strictly closer; moves a chosen cache entry to the front |
| Indexers.NearestIsCorrect | src/main/kotlin/com/mucheng/text/model/indexer/CachedIndexer.kt:193-221 | whatever the search returns is a correct anchor of a coherent indexer |
| Indexers.ReorderKeepsCoherent | src/main/kotlin/com/mucheng/text/model/indexer/CachedIndexer.kt:217-219 | reordering the cache keeps the indexer coherent |
| Indexers.LineStartForward | src/main/kotlin/com/mucheng/text/model/indexer/CachedIndexer.kt:149-158 | adding row length plus one per line from a line start reaches the target line's flat start |
| Indexers.LineStartBackward | src/main/kotlin/com/mucheng/text/model/indexer/CachedIndexer.kt:176-185 | subtracting the previous row length plus one per line reaches the target line's flat start |
| Indexers.InColumnCorrect | src/main/kotlin/com/mucheng/text/model/indexer/CachedIndexer.kt:126-134 | `index - off + newOff` from a correct anchor is the flat index of the new offset on that line |
| Indexers.LineWalk | src/main/kotlin/com/mucheng/text/model/indexer/CachedIndexer.kt:144-190 | from a correct anchor, the forward or backward line walk reaches the target line's flat start |
| Indexers.ForwardToIndex | src/main/kotlin/com/mucheng/text/model/indexer/CachedIndexer.kt:242-246 | the forward loop stops on a line whose start is at or before the index and whose end is at or after it |
| Indexers.IndexWalkForward | src/main/kotlin/com/mucheng/text/model/indexer/CachedIndexer.kt:230-254 | from a correct anchor at or before the index, the forward walk returns the correct anchor for that index |
| Indexers.BackToIndex | src/main/kotlin/com/mucheng/text/model/indexer/CachedIndexer.kt:263-271 | the backward loop stops at a line start at or before the index, within reach of the next line; with guard 0 it never fails |
| Indexers.IndexWalkBackwardAsWritten | src/main/kotlin/com/mucheng/text/model/indexer/CachedIndexer.kt:256-280 | the backward walk with the `-1` sentinel: when it succeeds its anchor is correct; otherwise it fails on line 0 |
| Indexers.IndexWalkBackward | src/main/kotlin/com/mucheng/text/model/indexer/CachedIndexer.kt:256-280 | the backward walk with the intended guard always returns the correct anchor for the index |
| Indexers.BackwardResult | src/main/kotlin/com/mucheng/text/model/indexer/CachedIndexer.kt:263-279 | for either guard, a successful backward walk is correct, and the line-0 guard always succeeds |
| Indexers.BackwardAgreement | src/main/kotlin/com/mucheng/text/model/indexer/CachedIndexer.kt:266-270 | whenever the written walk succeeds, it agrees with the corrected walk |
| Indexers.BackwardWalkFailsOnLineOne | src/main/kotlin/com/mucheng/text/model/indexer/CachedIndexer.kt:266 | on the one-row buffer `"abcdef"` from anchor `(1, 5, 5)` to index 3, the written walk fails on line 0 and the corrected walk returns `(1, 3, 3)` |
| Indexers.LineOffsetToPosition | src/main/kotlin/com/mucheng/text/model/indexer/CachedIndexer.kt:43-56 | checks the position first; from a coherent indexer it returns the position with its flat index and stays coherent; with caching on the result is the zero position, the end anchor or in the cache afterwards, and the cache gains no other anchor |
| Indexers.ResolvedInLine | src/main/kotlin/com/mucheng/text/model/indexer/CachedIndexer.kt:126-134 | resolving inside an anchor's line gives the exact anchor, and pushing it keeps coherence |
| Indexers.IndexToPosition | src/main/kotlin/com/mucheng/text/model/indexer/CachedIndexer.kt:62-72 | checks the index first; from a coherent indexer it returns the correct anchor for every index up to the length and stays coherent; with caching on the result is the zero position, the end anchor or in the cache afterwards, and the cache gains no other anchor |
| Indexers.AnchorUnique | src/main/kotlin/com/mucheng/text/model/indexer/CachedIndexer.kt:64-66 | two correct anchors with the same index are equal, so an anchor at the exact index can be returned as is |
| Indexers.OnInsert | src/main/kotlin/com/mucheng/text/model/indexer/CachedIndexer.kt:296-312 | anchors before the insertion point are kept; anchors on later lines move down by the added lines and grow by the text's length; the end anchor is re-read |
| Indexers.InsertKeepsCoherent | src/main/kotlin/com/mucheng/text/model/indexer/CachedIndexer.kt:296-312 | an insert leaves the indexer coherent with the new rows when every cached anchor on its start line lies before the point, or at the point of a splice insert |
| Indexers.InsertBeforeAnchorsKeepsCoherent | src/main/kotlin/com/mucheng/text/model/indexer/CachedIndexer.kt:296-312 | any insert, including a multi-line one in the middle of a row, keeps the indexer coherent when every cached anchor on the start line lies strictly before the point |
| Indexers.ShiftedAnchorOk | src/main/kotlin/com/mucheng/text/model/indexer/CachedIndexer.kt:299-310 | one anchor through `afterInsert` stays correct when it lies before the point, on a later line, or at the point of a splice insert |
| Indexers.LaterAnchorOk | src/main/kotlin/com/mucheng/text/model/indexer/CachedIndexer.kt:306-309 | an anchor on a later line stays correct after the shift |
| Indexers.PointAnchorOk | src/main/kotlin/com/mucheng/text/model/indexer/CachedIndexer.kt:300-305 | an anchor exactly at the insertion point moves to the insert's end and stays correct |
| Indexers.InsertMisplacesLaterAnchor | src/main/kotlin/com/mucheng/text/model/indexer/CachedIndexer.kt:303 | an anchor after the insertion point on its line gets offset −1 and is no longer correct |
| Indexers.RemoveAll | src/main/kotlin/com/mucheng/text/model/indexer/CachedIndexer.kt:332 | exactly the entries not equal to a removed value remain |
| Indexers.OnDelete | src/main/kotlin/com/mucheng/text/model/indexer/CachedIndexer.kt:314-334 | every remaining anchor is a shifted kept one; every kept anchor whose shifted value equals no evicted one remains; no evicted value remains in the cache; the end anchor is re-read |
| Indexers.DeletedAnchorOk | src/main/kotlin/com/mucheng/text/model/indexer/CachedIndexer.kt:318-331 | a kept anchor before the delete start, or after the end line, is correct after the shift |
| Indexers.DeletedLaterOk | src/main/kotlin/com/mucheng/text/model/indexer/CachedIndexer.kt:326-329 | an anchor after the end line, moved up and lowered by the deleted amount, stays correct |
| Indexers.KeptAnchorOk | src/main/kotlin/com/mucheng/text/model/indexer/CachedIndexer.kt:318-332 | every anchor left in the cache after an in-order delete is correct for the new rows |
| Indexers.DeleteKeepsCoherent | src/main/kotlin/com/mucheng/text/model/indexer/CachedIndexer.kt:314-334 | an in-order delete keeps the indexer coherent when no kept anchor on the start line lies after the start offset |
| Indexers.MergeKeepsCoherent | src/main/kotlin/com/mucheng/text/model/indexer/CachedIndexer.kt:314-334 | the merge event of `deleteCharAt` keeps the indexer coherent when no anchor lies after the merged line |
| Indexers.DeleteKeepsStaleAnchor | src/main/kotlin/com/mucheng/text/model/indexer/CachedIndexer.kt:320 | an anchor inside the deleted span on the start line is kept, and is wrong afterwards |
| Indexers.MergeKeepsStaleAnchor | src/main/kotlin/com/mucheng/text/model/base/AbstractTextModel.kt:340 | after a merge, an anchor on the merged line keeps its old line number and is wrong |
| TextModels.New | src/main/kotlin/com/mucheng/text/model/base/AbstractTextModel.kt:66-82 | a new model is sound and empty |
| TextModels.FromText | src/main/kotlin/com/mucheng/text/model/standard/TextModel.kt:14-16 | building from a text by one append gives a sound model whose text and rows are that text and its line-feed pieces, with caching on and an empty cache |
| TextModels.Insert | src/main/kotlin/com/mucheng/text/model/base/AbstractTextModel.kt:230-265 | succeeds exactly at a valid position; a splice insert changes the text by that splice; any insert whose start-line anchors lie before the point (or at it, for a splice) keeps the model sound; the new indexer is the old one after `afterInsert` with the insert's end position |
| TextModels.InsertIntoLoaded | src/main/kotlin/com/mucheng/text/model/standard/TextModel.kt:14-16 | inserting into a freshly loaded model succeeds exactly at a valid position of the text's line-feed pieces, grows the length by the inserted length and keeps the model sound |
| TextModels.Append | src/main/kotlin/com/mucheng/text/model/base/AbstractTextModel.kt:218-223 | the text becomes `old + text` and soundness is kept; the new indexer is the old one after `afterInsert` from the old end of the last row to the new one |
| TextModels.Delete | src/main/kotlin/com/mucheng/text/model/base/AbstractTextModel.kt:267-305 | line errors as the code reports them; an in-order delete removes the flat slice and keeps soundness when no kept anchor lies after the start on its line |
| TextModels.DeleteCharAt | src/main/kotlin/com/mucheng/text/model/base/AbstractTextModel.kt:307-342 | removes exactly one flat character, and keeps soundness under the anchor conditions above |
| TextModels.Get | src/main/kotlin/com/mucheng/text/model/base/AbstractTextModel.kt:128-141 | checks the index first; in a sound model returns the flat text's character at the index and stays sound, and every anchor it adds to the cache carries that index |
| TextModels.SubSequence | src/main/kotlin/com/mucheng/text/model/base/AbstractTextModel.kt:163-175 | checks the range first; in a sound model returns the flat slice between the indices and stays sound, and every anchor it adds to the cache carries the start or the end index |
| TextModels.Clear | src/main/kotlin/com/mucheng/text/model/base/AbstractTextModel.kt:405-411 | the text becomes empty and the indexer is left as it was |
| TextModels.ClearLeavesStaleEnd | src/main/kotlin/com/mucheng/text/model/base/AbstractTextModel.kt:405-411 | clearing a non-empty sound model leaves it unsound: the end anchor still names the old end |
| Scenarios.DocumentRows | src/main/kotlin/com/mucheng/text/model/test/Test.kt:24 | `"aa\nbcc\na"` gives three rows, length 8 and a second row of length 3 |
| Scenarios.DeleteAcrossLines | src/main/kotlin/com/mucheng/text/model/base/AbstractTextModel.kt:275-305 | deleting from `(2, 1)` to `(3, 1)` removes `"cc\na"` and leaves `"aa\nb"`, two rows and length 4 |
| Scenarios.LineFeedAtEnd | src/main/kotlin/com/mucheng/text/model/base/AbstractTextModel.kt:248-256 | a line feed at the end of line 1 adds exactly one empty row after it |
| Scenarios.MergeAtLineEnd | src/main/kotlin/com/mucheng/text/model/base/AbstractTextModel.kt:333-337 | deleting at the end of line 1 merges line 2 into it: one row fewer, length 7 |

## Left out

- Integer width: Kotlin `Int` is 32-bit and the model's `int` is unbounded. Every size, capacity, length and index is assumed to stay below 2^31. Past that, `capacity + len * 2` in `TextRow.insert` wraps negative, `ensureCapacity` grows by only 16 and the shift loop throws. The cached `_length` of a row and of the buffer, and `ColumnRowPosition.index`, wrap in the same way.
- TextRows.Insert: the capacity growth `capacity + 2 * length` is stated with unbounded integers only; see the integer-width line above.
- Locking (`withLock`, `useLock`, `setThreadSafe`, `@Synchronized`): every operation is treated as atomic and sequential.
- The `*Unsafe` entry points (`appendUnsafe`, `deleteCharAtUnsafe`, `clearUnsafe`): they repeat the locked operations without the lock, so the same members model them.
- Observers other than the indexer, and `addEvent`/`removeEvent`: the composed model delivers each event to the indexer only.
- `setIndexer`/`getIndexer`: the model always uses the cached indexer.
- `setCacheUse`, `isCacheUse` and `clearCache`: plain field writes and reads. The `doCache` flag is modelled and `Push` honours it.
- `columnRowToIndex`, `indexToColumn` and `indexToRow`: each is a field of the result of `Indexers.LineOffsetToPosition` or `Indexers.IndexToPosition`.
- Converter.kt is not part of this model. `columnToIndex` is taken to be `column - 1`, which is how every caller uses it.
- Buffer-level capacity (`capacity`, `ensureTextRowModelListCapacity`, the initial list size): the backing list's capacity is not observable. Row capacity is modelled in `TextRows`.
- Object identity. The backward index walk returns the object it has just pushed into the cache, rather than a copy as the forward walk does (`CachedIndexer.kt:277-279` against `CachedIndexer.kt:253`). The model returns values, so that sharing is not modelled.
- `TextModelWorker`, the iterators, the exception classes and the Android sample: I/O, thin wrappers and UI. `TextModels.FromText` models loading as one append.
- The buffer stores row contents (`seq<char>`) rather than `TextRow` values. The row layer is specified on its own, and the buffer uses each row operation only through its proved contents.
- TextModels.SubSequence: when the indexer is stale it can name a line beyond the rows, where the code would fail with a list index error. The model reports `LineOutOfBounds` instead. Both indices are resolved with the corrected backward walk of "## Findings", so a range inside line 1 that the code as written would fail on succeeds here.
- Indexers.InsertKeepsCoherent: proved only when every cached anchor on the start line lies before the insertion point, or at it when the insert is a splice (no line feed, or at the row's end). An anchor after the point, or at the point of a multi-line insert into the middle of a row, gets a wrong position from `afterInsert` (see the introduction).
- Indexers.DeleteKeepsCoherent: proved only for deletes in line order with no kept anchor after the start offset on the start line. The code's eviction test compares an offset with a line number.
- Indexers.MergeKeepsCoherent: proved only when no anchor lies after the merged line. The merge event reports the wrong end line.
- TextModels.Insert: soundness is stated under the conditions of `Indexers.InsertKeepsCoherent`. The flat-text splice is stated only for a text without a line feed or an insert at the row's end, because the code does not split the row otherwise.
- TextModels.Delete: soundness is stated only under the conditions of `Indexers.DeleteKeepsCoherent`. An out-of-order delete is modelled but carries no flat-text property.
- TextModels.DeleteCharAt: soundness is stated only under the conditions of `Indexers.DeleteKeepsCoherent` and `Indexers.MergeKeepsCoherent`.
- TextModels.Clear: no soundness claim, because `clear()` notifies no observer.
- TextModels.Get: the result is stated for a sound model only. A stale indexer makes the code read the wrong character. The index is resolved with the corrected backward walk of "## Findings". As written, the code fails on a sound model: `TextModel("abcdef").get(4)` starts from the end anchor `(1, 6, 6)`, walks back to line 0 and throws.
- Indexers.IndexToPosition: correctness is stated for a coherent indexer only. It uses the corrected backward walk of "## Findings" (`Indexers.IndexWalkBackward`). The walk as written throws on a coherent indexer whenever the target lies inside line 1 and is reached backward.
- Indexers.LineOffsetToPosition: correctness is stated for a coherent indexer only.

## Findings

| source | as written | input that shows it | evidently intended | confidence | as-written member | corrected member |
|---|---|---|---|---|---|---|
| src/main/kotlin/com/mucheng/text/model/indexer/CachedIndexer.kt:266 | the backward index walk restarts from the zero position only when the line counter reaches −1, so on reaching line 0 it asks for the size of line 0, which fails the line check | one-row buffer `"abcdef"`, nearest anchor `(1, 5, 5)`, index 3: the walk subtracts 6, steps to line 0 and fails | restart the forward walk from `(1, 0, 0)` as soon as the counter leaves line 1 (guard 0) | not executed; proved on the model | Indexers.IndexWalkBackwardAsWritten (counterexample: Indexers.BackwardWalkFailsOnLineOne) | Indexers.IndexWalkBackward |

=== FILE: buffer.dfy ===
/** The text buffer: a non-empty ordered list of rows addressed by 1-based
    line numbers and 0-based offsets, with a cached total length that counts
    one virtual line feed between adjacent rows. Rows are represented by their
    contents; each row operation used here is the contents-level effect proved
    for it in module TextRows. Every mutation also yields the event that the
    buffer hands to each registered observer, in registration order. */
module Buffers {
  import opened Wrappers
  import opened Lines
  import TextRows

  /** Initial size of the row list; the list's capacity is not observable. */
  const DEFAULT_CAPACITY: int := 50

  datatype Buffer = Buffer(rows: seq<seq<char>>, length: int)

  /** At least one row, no row stores a line feed, and the cached length is
      the stored characters plus one separator per row boundary. */
  predicate Valid(b: Buffer)
  {
    |b.rows| >= 1 && RowsNoLF(b.rows) && b.length == Size(b.rows)
  }

  /** The two observer callbacks, with the affected span and the text. */
  datatype Event =
    | AfterInsert(startLine: int, startOff: int, endLine: int, endOff: int, text: seq<char>)
    | AfterDelete(startLine: int, startOff: int, endLine: int, endOff: int, text: seq<char>)

  /** A new buffer: a single empty row and length zero. */
  function Init(): (b: Buffer)
    ensures Valid(b) && |b.rows| == 1 && b.length == 0 && Text(b.rows) == []
  {
    Buffer([[]], 0)
  }

  /** Drops every row and puts back one empty row; no event is raised. */
  function Clear(b: Buffer): (b': Buffer)
    ensures Valid(b') && |b'.rows| == 1 && b'.length == 0 && Text(b'.rows) == []
  {
    Buffer([[]], 0)
  }

  function LastLine(b: Buffer): int
  {
    |b.rows|
  }

  // ---------------------------------------------------------------- validators

  /** `checkColumn`: a line number must lie in `[1, lastLine]`. */
  function CheckLine(b: Buffer, line: int): (r: Option<ModelError>)
    ensures r.None? <==> 1 <= line <= |b.rows|
    ensures r.Some? ==> r.value == LineOutOfBounds(line)
  {
    if line < 1 || line > LastLine(b) then Some(LineOutOfBounds(line)) else None
  }

  /** `checkColumnRow`: the line is checked first, then the offset against
      the row's length (inclusive when `allowEnd`). */
  function CheckLineOffset(b: Buffer, line: int, off: int, allowEnd: bool): (r: Option<ModelError>)
    ensures r.None? <==> (1 <= line <= |b.rows| && 0 <= off &&
      (if allowEnd then off <= |b.rows[line - 1]| else off < |b.rows[line - 1]|))
    ensures !(1 <= line <= |b.rows|) ==> r == Some(LineOutOfBounds(line))
    ensures 1 <= line <= |b.rows| && r.Some? ==> r.value == OffsetOutOfBounds(off)
  {
    if CheckLine(b, line).Some? then CheckLine(b, line)
    else if off < 0 then Some(OffsetOutOfBounds(off))
    else if allowEnd && off > |b.rows[line - 1]| then Some(OffsetOutOfBounds(off))
    else if !allowEnd && off > |b.rows[line - 1]| - 1 then Some(OffsetOutOfBounds(off))
    else None
  }

  /** `checkIndex` on flat indices. */
  function CheckIndex(b: Buffer, index: int, allowEnd: bool): (r: Option<ModelError>)
    ensures r.None? <==> 0 <= index && (if allowEnd then index <= b.length else index < b.length)
    ensures r.Some? ==> r.value == IndexOutOfBounds(index)
  {
    TextRows.CheckIndex(b.length, index, allowEnd)
  }

  /** `checkRangeIndex` on flat indices: unlike the row-level check, the
      start must be strictly below the length. */
  function CheckRangeIndex(b: Buffer, start: int, end: int): (r: Option<ModelError>)
    ensures r.None? <==> 0 <= start < b.length && start <= end <= b.length
    ensures !(0 <= start < b.length) ==> r == Some(IndexOutOfBounds(start))
    ensures 0 <= start < b.length && !(0 <= end <= b.length) ==> r == Some(IndexOutOfBounds(end))
    ensures 0 <= start < b.length && 0 <= end <= b.length && start > end ==> r == Some(IndexOutOfBounds(end - start))
  {
    if CheckIndex(b, start, false).Some? then CheckIndex(b, start, false)
    else if CheckIndex(b, end, true).Some? then CheckIndex(b, end, true)
    else if start > end then Some(IndexOutOfBounds(end - start))
    else None
  }

  /** `checkRangeColumnRow`: both ends must be valid positions and the start
      line must not follow the end line. */
  function CheckRangeLineOffset(b: Buffer, startLine: int, startOff: int, endLine: int, endOff: int): (r: Option<ModelError>)
    ensures r.None? <==> ValidPos(b.rows, startLine, startOff) && ValidPos(b.rows, endLine, endOff) && startLine <= endLine
    ensures ValidPos(b.rows, startLine, startOff) && ValidPos(b.rows, endLine, endOff) && startLine > endLine ==>
      r == Some(LineOutOfBounds(endLine - startLine))
  {
    if CheckLineOffset(b, startLine, startOff, true).Some? then CheckLineOffset(b, startLine, startOff, true)
    else if CheckLineOffset(b, endLine, endOff, true).Some? then CheckLineOffset(b, endLine, endOff, true)
    else if startLine > endLine then Some(LineOutOfBounds(endLine - startLine))
    else None
  }

  /** The position check used by reads and single-character deletes: the
      offset may equal the row length (the virtual line feed) except on the
      last line. */
  function CheckCharPosition(b: Buffer, line: int, off: int): (r: Option<ModelError>)
    ensures r.None? <==> ValidPos(b.rows, line, off) && (off < |b.rows[line - 1]| || line < |b.rows|)
    ensures !(1 <= line <= |b.rows|) ==> r == Some(LineOutOfBounds(line))
    ensures 1 <= line <= |b.rows| && r.Some? ==> r.value == OffsetOutOfBounds(off)
  {
    if line < LastLine(b) then CheckLineOffset(b, line, off, true)
    else CheckLineOffset(b, line, off, false)
  }

  // ---------------------------------------------------------------- reads

  /** `get(column, row)`: the character at a position, where the end of a
      non-last line reads as a line feed. */
  function GetAt(b: Buffer, line: int, off: int): (r: Result<char, ModelError>)
    requires Valid(b)
    ensures r.Success? <==> ValidPos(b.rows, line, off) && (off < |b.rows[line - 1]| || line < |b.rows|)
    ensures r.Failure? ==> Some(r.error) == CheckCharPosition(b, line, off)
    ensures r.Success? ==> Offset(b.rows, line, off) < |Text(b.rows)| && r.value == Text(b.rows)[Offset(b.rows, line, off)]
  {
    match CheckCharPosition(b, line, off)
    case Some(e) => Failure(e)
    case None =>
      CharAt(b.rows, line, off);
      TextLength(b.rows);
      if off == |b.rows[line - 1]| then Success(LF) else Success(b.rows[line - 1][off])
  }

  /** `TextRow.subSequence` on a row's contents, with the row's range check. */
  function Slice(row: seq<char>, start: int, end: int): (r: Result<seq<char>, ModelError>)
    ensures r.Success? <==> 0 <= start <= end <= |row|
    ensures r.Failure? ==> Some(r.error) == TextRows.CheckRangeIndex(|row|, start, end)
    ensures r.Success? ==> r.value == row[start..end]
  {
    match TextRows.CheckRangeIndex(|row|, start, end)
    case Some(e) => Failure(e)
    case None => Success(row[start..end])
  }

  /** The rows strictly between two lines, each followed by a line feed. */
  function Middle(rows: seq<seq<char>>, startLine: int, endLine: int): seq<char>
    requires 1 <= startLine <= |rows| && 1 <= endLine <= |rows|
  {
    if startLine < endLine then Terminated(rows[startLine..endLine - 1], [LF]) else []
  }

  /** `subSequenceInternal`: on one line the row's slice; across lines the
      start row's tail, a line feed, each middle row with a line feed, and the
      end row's head. The offsets are checked by the row slices. */
  function SubSequenceInternal(b: Buffer, startLine: int, startOff: int, endLine: int, endOff: int): (r: Result<seq<char>, ModelError>)
    requires Valid(b) && 1 <= startLine <= |b.rows| && 1 <= endLine <= |b.rows|
    ensures startLine == endLine ==> (r.Success? <==> 0 <= startOff <= endOff <= |b.rows[startLine - 1]|)
    ensures startLine == endLine && r.Failure? ==>
      Some(r.error) == TextRows.CheckRangeIndex(|b.rows[startLine - 1]|, startOff, endOff)
    ensures startLine != endLine ==>
      (r.Success? <==> ValidPos(b.rows, startLine, startOff) && ValidPos(b.rows, endLine, endOff))
    ensures startLine != endLine && !ValidPos(b.rows, startLine, startOff) ==> r == Failure(IndexOutOfBounds(startOff))
    ensures startLine != endLine && ValidPos(b.rows, startLine, startOff) && !ValidPos(b.rows, endLine, endOff) ==>
      r == Failure(IndexOutOfBounds(endOff))
    ensures startLine > endLine && r.Success? ==>
      r.value == b.rows[startLine - 1][startOff..] + [LF] + b.rows[endLine - 1][..endOff]
    ensures startLine <= endLine && r.Success? ==>
      ValidPos(b.rows, startLine, startOff) && ValidPos(b.rows, endLine, endOff) &&
      Offset(b.rows, startLine, startOff) <= Offset(b.rows, endLine, endOff) <= |Text(b.rows)| &&
      r.value == Text(b.rows)[Offset(b.rows, startLine, startOff)..Offset(b.rows, endLine, endOff)]
  {
    var rows := b.rows;
    if startLine == endLine then
      var r := Slice(rows[startLine - 1], startOff, endOff);
      if r.Success? then
        SliceOneLine(rows, startLine, startOff, endOff);
        r
      else r
    else SubSequenceAcross(b, startLine, startOff, endLine, endOff)
  }

  /** `subSequenceInternal` across lines: the start row's tail, a line feed,
      the rows strictly between the two lines each followed by a line feed,
      and the end row's head. */
  function SubSequenceAcross(b: Buffer, startLine: int, startOff: int, endLine: int, endOff: int): (r: Result<seq<char>, ModelError>)
    requires Valid(b) && 1 <= startLine <= |b.rows| && 1 <= endLine <= |b.rows| && startLine != endLine
    ensures r.Success? <==> ValidPos(b.rows, startLine, startOff) && ValidPos(b.rows, endLine, endOff)
    ensures !ValidPos(b.rows, startLine, startOff) ==> r == Failure(IndexOutOfBounds(startOff))
    ensures ValidPos(b.rows, startLine, startOff) && !ValidPos(b.rows, endLine, endOff) ==>
      r == Failure(IndexOutOfBounds(endOff))
    ensures startLine > endLine && r.Success? ==>
      r.value == b.rows[startLine - 1][startOff..] + [LF] + b.rows[endLine - 1][..endOff]
    ensures startLine < endLine && r.Success? ==>
      ValidPos(b.rows, startLine, startOff) && ValidPos(b.rows, endLine, endOff) &&
      Offset(b.rows, startLine, startOff) <= Offset(b.rows, endLine, endOff) <= |Text(b.rows)| &&
      r.value == Text(b.rows)[Offset(b.rows, startLine, startOff)..Offset(b.rows, endLine, endOff)]
  {
    var rows := b.rows;
    match Slice(rows[startLine - 1], startOff, |rows[startLine - 1]|)
    case Failure(e) => Failure(e)
    case Success(head) =>
      match Slice(rows[endLine - 1], 0, endOff)
      case Failure(e) => Failure(e)
      case Success(tail) =>
        assert startLine < endLine ==>
          Offset(rows, startLine, startOff) <= Offset(rows, endLine, endOff) <= |Text(rows)| &&
          Text(rows)[Offset(rows, startLine, startOff)..Offset(rows, endLine, endOff)] ==
            head + ([LF] + Middle(rows, startLine, endLine)) + tail by {
          if startLine < endLine {
            SliceAcross(rows, startLine, startOff, endLine, endOff);
          }
        }
        Success(head + ([LF] + Middle(rows, startLine, endLine)) + tail)
  }

  lemma SliceOneLine(rows: seq<seq<char>>, line: int, startOff: int, endOff: int)
    requires 1 <= line <= |rows| && 0 <= startOff <= endOff <= |rows[line - 1]|
    ensures Offset(rows, line, startOff) <= Offset(rows, line, endOff) <= |Text(rows)|
    ensures Text(rows)[Offset(rows, line, startOff)..Offset(rows, line, endOff)] == rows[line - 1][startOff..endOff]
  {
    Cut(rows, line, startOff);
    Cut(rows, line, endOff);
    var t := Text(rows);
    var p := Offset(rows, line, startOff);
    var q := Offset(rows, line, endOff);
    var pre := Terminated(rows[..line - 1], [LF]);
    assert t[..q] == pre + rows[line - 1][..endOff];
    assert t[p..q] == t[..q][p..];
    assert |pre| + startOff == p by { Decompose(rows, line); }
  }

  /** The sequence-level step of `SliceAcross`. */
  lemma SliceCore(t: seq<char>, q: int, x: seq<char>, pre: seq<char>, s: seq<char>, k: int, rest: seq<char>, head: seq<char>)
    requires 0 <= q <= |t| && t[..q] == x + head
    requires x == pre + s + rest && 0 <= k <= |s|
    ensures |pre| + k <= q
    ensures t[|pre| + k..q] == s[k..] + rest + head
  {
    assert t[..q] == (pre + s[..k]) + (s[k..] + rest + head);
    assert t[|pre| + k..q] == t[..q][|pre| + k..];
  }

  /** The lines before `endLine`, each terminated, seen from `startLine`. */
  lemma TerminatedThrough(rows: seq<seq<char>>, startLine: int, endLine: int)
    requires 1 <= startLine < endLine <= |rows|
    ensures Terminated(rows[..endLine - 1], [LF]) ==
      Terminated(rows[..startLine - 1], [LF]) + rows[startLine - 1] + ([LF] + Middle(rows, startLine, endLine))
  {
    var a := rows[..startLine - 1];
    var s := rows[startLine - 1];
    var m := rows[startLine..endLine - 1];
    assert rows[..endLine - 1] == (a + [s]) + m;
    TerminatedConcat(a + [s], m, [LF]);
    assert (a + [s])[..|a + [s]| - 1] == a;
  }

  /** The flat text between two positions on different lines is the start
      row's tail, a line feed, the middle rows with their line feeds, and the
      end row's head. */
  lemma SliceAcross(rows: seq<seq<char>>, startLine: int, startOff: int, endLine: int, endOff: int)
    requires 1 <= startLine < endLine <= |rows|
    requires ValidPos(rows, startLine, startOff) && ValidPos(rows, endLine, endOff)
    ensures Offset(rows, startLine, startOff) <= Offset(rows, endLine, endOff) <= |Text(rows)|
    ensures Text(rows)[Offset(rows, startLine, startOff)..Offset(rows, endLine, endOff)] ==
      rows[startLine - 1][startOff..] + ([LF] + Middle(rows, startLine, endLine)) + rows[endLine - 1][..endOff]
  {
    Cut(rows, endLine, endOff);
    TerminatedLengthLF(rows[..startLine - 1]);
    TerminatedThrough(rows, startLine, endLine);
    LineStartAfter(rows, startLine, endLine);
    SliceCore(Text(rows), Offset(rows, endLine, endOff), Terminated(rows[..endLine - 1], [LF]),
      Terminated(rows[..startLine - 1], [LF]), rows[startLine - 1], startOff,
      [LF] + Middle(rows, startLine, endLine), rows[endLine - 1][..endOff]);
  }

  /** `subSequence(startColumn, startRow, endColumn, endRow)`: both lines are
      checked, then the rows are read. */
  function SubSequenceLines(b: Buffer, startLine: int, startOff: int, endLine: int, endOff: int): (r: Result<seq<char>, ModelError>)
    requires Valid(b)
    ensures !(1 <= startLine <= |b.rows|) ==> r == Failure(LineOutOfBounds(startLine))
    ensures 1 <= startLine <= |b.rows| && !(1 <= endLine <= |b.rows|) ==> r == Failure(LineOutOfBounds(endLine))
    ensures 1 <= startLine <= |b.rows| && 1 <= endLine <= |b.rows| ==>
      r == SubSequenceInternal(b, startLine, startOff, endLine, endOff)
    ensures startLine <= endLine && r.Success? ==>
      ValidPos(b.rows, startLine, startOff) && ValidPos(b.rows, endLine, endOff) &&
      Offset(b.rows, startLine, startOff) <= Offset(b.rows, endLine, endOff) <= |Text(b.rows)| &&
      r.value == Text(b.rows)[Offset(b.rows, startLine, startOff)..Offset(b.rows, endLine, endOff)]
    ensures (startLine <= endLine && ValidPos(b.rows, startLine, startOff) && ValidPos(b.rows, endLine, endOff) &&
      Offset(b.rows, startLine, startOff) <= Offset(b.rows, endLine, endOff)) ==> r.Success?
  {
    if CheckLine(b, startLine).Some? then Failure(CheckLine(b, startLine).value)
    else if CheckLine(b, endLine).Some? then Failure(CheckLine(b, endLine).value)
    else
      var r := SubSequenceInternal(b, startLine, startOff, endLine, endOff);
      assert (startLine == endLine && ValidPos(b.rows, startLine, startOff) && ValidPos(b.rows, endLine, endOff) &&
        Offset(b.rows, startLine, startOff) <= Offset(b.rows, endLine, endOff)) ==> startOff <= endOff;
      r
  }

  // ---------------------------------------------------------------- insert

  /** The rows after writing text split into `pieces` (at its line feeds) at
      `(line, off)`: the first piece goes into the row at the offset, and each
      later piece becomes a new row right after it. The tail of the starting
      row stays on the starting row. */
  function InsertRows(rows: seq<seq<char>>, line: int, off: int, pieces: seq<seq<char>>): seq<seq<char>>
    requires ValidPos(rows, line, off) && |pieces| >= 1
  {
    rows[..line - 1] + [rows[line - 1][..off] + pieces[0] + rows[line - 1][off..]] + pieces[1..] + rows[line..]
  }

  /** Where writing stops: the line of the last piece, and the offset just
      after the last character written. */
  function InsertEnd(line: int, off: int, pieces: seq<seq<char>>): (int, int)
    requires |pieces| >= 1
  {
    (line + |pieces| - 1, if |pieces| == 1 then off + |pieces[0]| else |pieces[|pieces| - 1]|)
  }

  /** The ordinary-character step of `insertInternal`: one character
      written into row `line` at offset `off`. */
  function PutChar(rows: seq<seq<char>>, line: int, off: int, c: char): seq<seq<char>>
    requires ValidPos(rows, line, off)
  {
    rows[..line - 1] + [rows[line - 1][..off] + [c] + rows[line - 1][off..]] + rows[line..]
  }

  /** The line-feed step of `insertInternal`: a new empty row right after
      row `line`. */
  function OpenRow(rows: seq<seq<char>>, line: int): seq<seq<char>>
    requires 1 <= line <= |rows|
  {
    rows[..line] + [[]] + rows[line..]
  }

  /** Splitting after one more ordinary character extends the last piece. */
  lemma SplitSnocChar(p: seq<char>, c: char)
    requires c != LF
    ensures |Split(p)| >= 1
    ensures Split(p + [c]) == Extend(Split(p), c)
  {
    SplitSnocNoLF(p, c);
  }

  /** Splitting one more character of `text`: an ordinary character extends
      the last piece, a line feed starts an empty one. */
  lemma SplitPrefixStep(text: seq<char>, i: int)
    requires 0 <= i < |text|
    ensures |Split(text[..i])| >= 1
    ensures text[i] != LF ==> Split(text[..i + 1]) == Extend(Split(text[..i]), text[i])
    ensures text[i] == LF ==> Split(text[..i + 1]) == Split(text[..i]) + [[]]
  {
    assert text[..i + 1] == text[..i] + [text[i]];
    SplitNonEmpty(text[..i]);
    if text[i] != LF {
      SplitSnocChar(text[..i], text[i]);
    } else {
      SplitSnocLF(text[..i]);
    }
  }

  /** Opening a row after the last one appends an empty row. */
  lemma OpenRowAtEnd(rows: seq<seq<char>>, line: int)
    requires 1 <= line == |rows|
    ensures OpenRow(rows, line) == rows + [[]]
  {
    assert rows[..line] == rows && rows[line..] == [];
  }

  /** Replacing the element right after a prefix `a`. */
  lemma ReplaceAfter<T>(a: seq<T>, x: T, c: seq<T>, y: T)
    ensures |a| < |a + [x] + c| && (a + [x] + c)[|a|] == x
    ensures (a + [x] + c)[..|a|] + [y] + (a + [x] + c)[|a| + 1..] == a + [y] + c
  {
    var r := a + [x] + c;
    assert r[..|a|] == a;
    assert r[|a| + 1..] == c;
  }

  /** Inserting an element right after a prefix `a`. */
  lemma InsertAfter<T>(a: seq<T>, c: seq<T>, y: T)
    ensures (a + c)[..|a|] + [y] + (a + c)[|a|..] == a + [y] + c
  {
    assert (a + c)[..|a|] == a;
    assert (a + c)[|a|..] == c;
  }

  /** Writing `c` just after `h + m` in `h + m + t`. */
  lemma PutAfter(h: seq<char>, m: seq<char>, t: seq<char>, c: char)
    ensures (h + m + t)[..|h| + |m|] + [c] + (h + m + t)[|h| + |m|..] == h + (m + [c]) + t
  {
    assert (h + m + t)[..|h| + |m|] == h + m;
    assert (h + m + t)[|h| + |m|..] == t;
  }

  /** The row-list shape of `InsertRows` with its parts named. */
  function Placed(a: seq<seq<char>>, h: seq<char>, t: seq<char>, c: seq<seq<char>>, s: seq<seq<char>>): seq<seq<char>>
    requires |s| >= 1
  {
    a + [h + s[0] + t] + s[1..] + c
  }

  lemma InsertRowsPlaced(rows: seq<seq<char>>, line: int, off: int, s: seq<seq<char>>)
    requires ValidPos(rows, line, off) && |s| >= 1
    ensures InsertRows(rows, line, off, s) == Placed(rows[..line - 1], rows[line - 1][..off], rows[line - 1][off..], rows[line..], s)
  {
  }

  /** Where the character after `s` is written, in terms of the named parts. */
  lemma PlacedStepChar(a: seq<seq<char>>, h: seq<char>, t: seq<char>, c: seq<seq<char>>, s: seq<seq<char>>, ch: char)
    requires |s| >= 1
    ensures var r := Placed(a, h, t, c, s);
      var wl := |a| + |s|;
      var wo := if |s| == 1 then |h| + |s[0]| else |s[|s| - 1]|;
      && 1 <= wl <= |r| && 0 <= wo <= |r[wl - 1]|
      && r[..wl - 1] + [r[wl - 1][..wo] + [ch] + r[wl - 1][wo..]] + r[wl..]
        == Placed(a, h, t, c, s[..|s| - 1] + [s[|s| - 1] + [ch]])
  {
    var k := |s|;
    var s' := s[..k - 1] + [s[k - 1] + [ch]];
    var x := h + s[0] + t;
    if k == 1 {
      assert s[1..] == [] && s'[1..] == [] && s'[0] == s[0] + [ch];
      assert Placed(a, h, t, c, s) == a + [x] + c;
      PutAfter(h, s[0], t, ch);
      ReplaceAfter(a, x, c, h + (s[0] + [ch]) + t);
      assert Placed(a, h, t, c, s') == a + [h + (s[0] + [ch]) + t] + c;
    } else {
      var b := a + [x] + s[1..k - 1];
      assert s[1..] == s[1..k - 1] + [s[k - 1]];
      assert Placed(a, h, t, c, s) == b + [s[k - 1]] + c;
      assert |b| == |a| + k - 1;
      var m := s[k - 1];
      assert m[..|m|] + [ch] + m[|m|..] == m + [ch];
      ReplaceAfter(b, m, c, m + [ch]);
      assert s'[0] == s[0];
      assert s'[1..] == s[1..k - 1] + [m + [ch]];
      assert Placed(a, h, t, c, s') == b + [m + [ch]] + c;
    }
  }

  /** Where the empty row after a line feed goes, in terms of the named parts. */
  lemma PlacedStepLF(a: seq<seq<char>>, h: seq<char>, t: seq<char>, c: seq<seq<char>>, s: seq<seq<char>>)
    requires |s| >= 1
    ensures var r := Placed(a, h, t, c, s);
      var wl := |a| + |s|;
      && 1 <= wl <= |r|
      && r[..wl] + [[]] + r[wl..] == Placed(a, h, t, c, s + [[]])
  {
    var b := a + [h + s[0] + t] + s[1..];
    assert Placed(a, h, t, c, s) == b + c;
    InsertAfter(b, c, []);
    var s' := s + [[]];
    assert s'[0] == s[0] && s'[1..] == s[1..] + [[]];
    assert Placed(a, h, t, c, s') == b + [[]] + c;
  }

  /** The last piece extended by one character. */
  function Extend(s: seq<seq<char>>, c: char): seq<seq<char>>
    requires |s| >= 1
  {
    s[..|s| - 1] + [s[|s| - 1] + [c]]
  }

  /** One ordinary character of `insertInternal`: written into the current
      row at the current offset, which then advances. */
  lemma InsertStepChar(rows: seq<seq<char>>, line: int, off: int, s: seq<seq<char>>, c: char)
    requires ValidPos(rows, line, off) && |s| >= 1
    ensures |Extend(s, c)| >= 1
    ensures ValidPos(InsertRows(rows, line, off, s), InsertEnd(line, off, s).0, InsertEnd(line, off, s).1)
    ensures PutChar(InsertRows(rows, line, off, s), InsertEnd(line, off, s).0, InsertEnd(line, off, s).1, c)
      == InsertRows(rows, line, off, Extend(s, c))
    ensures InsertEnd(line, off, Extend(s, c)) == (InsertEnd(line, off, s).0, InsertEnd(line, off, s).1 + 1)
  {
    var s' := Extend(s, c);
    var a, h, t, cs := rows[..line - 1], rows[line - 1][..off], rows[line - 1][off..], rows[line..];
    assert |a| == line - 1 && |h| == off;
    var r := InsertRows(rows, line, off, s);
    InsertRowsPlaced(rows, line, off, s);
    InsertRowsPlaced(rows, line, off, s');
    PlacedStepChar(a, h, t, cs, s, c);
    var wl := line + |s| - 1;
    var wo := if |s| == 1 then off + |s[0]| else |s[|s| - 1]|;
    assert InsertEnd(line, off, s) == (wl, wo);
    assert |s'| == |s|;
    assert |s| == 1 ==> s'[0] == s[0] + [c];
    assert |s| > 1 ==> s'[|s'| - 1] == s[|s| - 1] + [c];
  }

  /** One line feed of `insertInternal`: an empty row is added right after
      the current one and writing moves to its start. */
  lemma InsertStepLF(rows: seq<seq<char>>, line: int, off: int, s: seq<seq<char>>)
    requires ValidPos(rows, line, off) && |s| >= 1
    ensures 1 <= InsertEnd(line, off, s).0 <= |InsertRows(rows, line, off, s)|
    ensures OpenRow(InsertRows(rows, line, off, s), InsertEnd(line, off, s).0)
      == InsertRows(rows, line, off, s + [[]])
    ensures InsertEnd(line, off, s + [[]]) == (InsertEnd(line, off, s).0 + 1, 0)
  {
    var a, h, t, cs := rows[..line - 1], rows[line - 1][..off], rows[line - 1][off..], rows[line..];
    InsertRowsPlaced(rows, line, off, s);
    InsertRowsPlaced(rows, line, off, s + [[]]);
    PlacedStepLF(a, h, t, cs, s);
    assert |a| == line - 1;
  }

  /** Writing split text changes the stored characters by the pieces, the
      row count by the number of pieces beyond the first, and keeps rows free
      of line feeds. */
  lemma InsertRowsShape(rows: seq<seq<char>>, line: int, off: int, text: seq<char>)
    requires ValidPos(rows, line, off) && RowsNoLF(rows)
    ensures |Split(text)| >= 1
    ensures |InsertRows(rows, line, off, Split(text))| == |rows| + CountChar(text, LF)
    ensures Size(InsertRows(rows, line, off, Split(text))) == Size(rows) + |text|
    ensures RowsNoLF(InsertRows(rows, line, off, Split(text)))
  {
    SplitNonEmpty(text);
    SplitCount(text);
    SplitNoLF(text);
    JoinSplit(text);
    var s := Split(text);
    TextLength(s);
    var a, h, t, cs := rows[..line - 1], rows[line - 1][..off], rows[line - 1][off..], rows[line..];
    InsertRowsPlaced(rows, line, off, s);
    InsertRowsAround(rows, line, off, s);
    assert RowsNoLF(a) && RowsNoLF(cs) && NoLF(h) && NoLF(t) by {
      assert NoLF(rows[line - 1]);
    }
    PlacedShape(a, h, t, cs, s);
  }

  /** Counting characters of the named parts of `Placed`. */
  lemma PlacedShape(a: seq<seq<char>>, h: seq<char>, t: seq<char>, c: seq<seq<char>>, s: seq<seq<char>>)
    requires |s| >= 1 && RowsNoLF(a) && RowsNoLF(c) && RowsNoLF(s) && NoLF(h) && NoLF(t)
    ensures |Placed(a, h, t, c, s)| == |a| + |s| + |c|
    ensures SumLen(Placed(a, h, t, c, s)) == SumLen(a) + |h| + |t| + SumLen(s) + SumLen(c)
    ensures SumLen(a + [h + t] + c) == SumLen(a) + |h| + |t| + SumLen(c)
    ensures RowsNoLF(Placed(a, h, t, c, s))
  {
    var x := h + s[0] + t;
    assert s == [s[0]] + s[1..];
    SumLenConcat([s[0]], s[1..]);
    SumLenConcat(a + [x] + s[1..], c);
    SumLenConcat(a + [x], s[1..]);
    SumLenConcat(a, [x]);
    SumLenConcat(a + [h + t], c);
    SumLenConcat(a, [h + t]);
    assert [x][..0] == [] && [s[0]][..0] == [] && [h + t][..0] == [];
    assert SumLen([x]) == |x| && SumLen([s[0]]) == |s[0]| && SumLen([h + t]) == |h + t|;
    NoLFConcat(h, s[0]);
    NoLFConcat(h + s[0], t);
    assert RowsNoLF(s[1..]);
    RowsNoLFConcat(a, [x]);
    RowsNoLFConcat(a + [x], s[1..]);
    RowsNoLFConcat(a + [x] + s[1..], c);
  }

  /** `insertInternal`: walks the text once, writing ordinary characters into
      the current row at an advancing offset and opening a new empty row
      after the current one at each line feed; then the cached length grows by
      the text length and the insert event is produced. No check is made:
      callers validate the position. */
  method InsertInternal(b: Buffer, line: int, off: int, text: seq<char>) returns (b': Buffer, ev: Event)
    requires Valid(b) && ValidPos(b.rows, line, off)
    ensures |Split(text)| >= 1
    ensures b'.rows == InsertRows(b.rows, line, off, Split(text))
    ensures Valid(b') && b'.length == b.length + |text|
    ensures |b'.rows| == |b.rows| + CountChar(text, LF)
    ensures ev == AfterInsert(line, off, InsertEnd(line, off, Split(text)).0, InsertEnd(line, off, Split(text)).1, text)
  {
    var rows := b.rows;
    var workLine := line;
    var workOff := off;
    var i := 0;
    ghost var pieces: seq<seq<char>> := [[]];
    WrittenNothing(b.rows, line, off, text);
    while i < |text|
      invariant 0 <= i <= |text|
      invariant Written(b.rows, line, off, text, i, pieces, rows, workLine, workOff)
    {
      var c := text[i];
      if c != LF {
        WrittenChar(b.rows, line, off, text, i, pieces, rows, workLine, workOff);
        rows := PutChar(rows, workLine, workOff, c);
        workOff := workOff + 1;
        pieces := Extend(pieces, c);
      } else {
        WrittenLF(b.rows, line, off, text, i, pieces, rows, workLine, workOff);
        if workLine + 1 <= |rows| {
          rows := OpenRow(rows, workLine);
        } else {
          OpenRowAtEnd(rows, workLine);
          rows := rows + [[]];
        }
        workLine := workLine + 1;
        workOff := 0;
        pieces := pieces + [[]];
      }
      i := i + 1;
    }
    assert text[..|text|] == text;
    InsertRowsShape(b.rows, line, off, text);
    b' := Buffer(rows, b.length + |text|);
    ev := AfterInsert(line, off, workLine, workOff, text);
  }

  /** The state of `insertInternal` after `i` characters of `text`: the rows
      hold the pieces of that prefix written at `(line, off)`, and writing
      continues where the last piece ends. */
  ghost predicate Written(orig: seq<seq<char>>, line: int, off: int, text: seq<char>, i: int, pieces: seq<seq<char>>,
                          rows: seq<seq<char>>, workLine: int, workOff: int)
    requires ValidPos(orig, line, off) && 0 <= i <= |text|
  {
    && pieces == Split(text[..i]) && |pieces| >= 1
    && rows == InsertRows(orig, line, off, pieces)
    && (workLine, workOff) == InsertEnd(line, off, pieces)
  }

  lemma WrittenNothing(orig: seq<seq<char>>, line: int, off: int, text: seq<char>)
    requires ValidPos(orig, line, off)
    ensures Written(orig, line, off, text, 0, [[]], orig, line, off)
  {
    assert text[..0] == [];
    var row := orig[line - 1];
    assert row[..off] + [] + row[off..] == row;
    assert orig == orig[..line - 1] + [row] + orig[line..];
  }

  lemma WrittenChar(orig: seq<seq<char>>, line: int, off: int, text: seq<char>, i: int, pieces: seq<seq<char>>,
                    rows: seq<seq<char>>, workLine: int, workOff: int)
    requires ValidPos(orig, line, off) && 0 <= i < |text| && text[i] != LF
    requires Written(orig, line, off, text, i, pieces, rows, workLine, workOff)
    ensures ValidPos(rows, workLine, workOff) && |pieces| >= 1
    ensures Written(orig, line, off, text, i + 1, Extend(pieces, text[i]), PutChar(rows, workLine, workOff, text[i]), workLine, workOff + 1)
  {
    SplitPrefixStep(text, i);
    InsertStepChar(orig, line, off, pieces, text[i]);
  }

  lemma WrittenLF(orig: seq<seq<char>>, line: int, off: int, text: seq<char>, i: int, pieces: seq<seq<char>>,
                  rows: seq<seq<char>>, workLine: int, workOff: int)
    requires ValidPos(orig, line, off) && 0 <= i < |text| && text[i] == LF
    requires Written(orig, line, off, text, i, pieces, rows, workLine, workOff)
    ensures 1 <= workLine <= |rows|
    ensures Written(orig, line, off, text, i + 1, pieces + [[]], OpenRow(rows, workLine), workLine + 1, 0)
  {
    SplitPrefixStep(text, i);
    InsertStepLF(orig, line, off, pieces);
  }

  /** `insert(column, row, text)`: the position is checked (the offset may
      equal the row length), then the text is written. */
  method Insert(b: Buffer, line: int, off: int, text: seq<char>) returns (r: Result<(Buffer, Event), ModelError>)
    requires Valid(b)
    ensures r.Success? <==> ValidPos(b.rows, line, off)
    ensures r.Failure? ==> Some(r.error) == CheckLineOffset(b, line, off, true)
    ensures |Split(text)| >= 1
    ensures r.Success? ==> ValidPos(b.rows, line, off) && r.value.0.rows == InsertRows(b.rows, line, off, Split(text))
    ensures r.Success? ==> Valid(r.value.0) && r.value.0.length == b.length + |text|
    ensures r.Success? ==> r.value.1 == AfterInsert(line, off, InsertEnd(line, off, Split(text)).0, InsertEnd(line, off, Split(text)).1, text)
  {
    SplitNonEmpty(text);
    var check := CheckLineOffset(b, line, off, true);
    if check.Some? {
      return Failure(check.value);
    }
    var b', ev := InsertInternal(b, line, off, text);
    r := Success((b', ev));
  }

  /** `append(text)`: writes at the end of the last row; the flat text grows
      by exactly `text`. */
  method Append(b: Buffer, text: seq<char>) returns (b': Buffer, ev: Event)
    requires Valid(b)
    ensures Valid(b') && b'.length == b.length + |text|
    ensures Text(b'.rows) == Text(b.rows) + text
    ensures |b'.rows| == |b.rows| + CountChar(text, LF)
    ensures |Split(text)| >= 1
    ensures b'.rows == InsertRows(b.rows, |b.rows|, |b.rows[|b.rows| - 1]|, Split(text))
    ensures var (endLine, endOff) := InsertEnd(|b.rows|, |b.rows[|b.rows| - 1]|, Split(text));
      ev == AfterInsert(|b.rows|, |b.rows[|b.rows| - 1]|, endLine, endOff, text)
  {
    var last := LastLine(b);
    b', ev := InsertInternal(b, last, |b.rows[last - 1]|, text);
    AppendText(b.rows, text);
  }

  /** Writing at the end of the last row appends to the flat text. */
  /** Writing at the end of the last row stops at the end of the new last
      row. */
  lemma AppendEnd(rows: seq<seq<char>>, pieces: seq<seq<char>>)
    requires |rows| >= 1 && |pieces| >= 1
    ensures var rows' := InsertRows(rows, |rows|, |rows[|rows| - 1]|, pieces);
      |rows'| >= 1 && InsertEnd(|rows|, |rows[|rows| - 1]|, pieces) == (|rows'|, |rows'[|rows'| - 1]|)
  {
    var rows' := InsertRows(rows, |rows|, |rows[|rows| - 1]|, pieces);
    var last := rows[|rows| - 1];
    assert last[..|last|] + pieces[0] + last[|last|..] == last + pieces[0];
    assert rows' == rows[..|rows| - 1] + [last + pieces[0]] + pieces[1..] + [];
  }

  lemma AppendText(rows: seq<seq<char>>, text: seq<char>)
    requires |rows| >= 1
    ensures |Split(text)| >= 1
    ensures Text(InsertRows(rows, |rows|, |rows[|rows| - 1]|, Split(text))) == Text(rows) + text
  {
    var o := Offset(rows, |rows|, |rows[|rows| - 1]|);
    InsertSpliceAtEnd(rows, |rows|, text);
    EndOffset(rows);
    TextLength(rows);
    assert o == |Text(rows)|;
    assert Text(rows)[..o] == Text(rows) && Text(rows)[o..] == [];
  }

  // ---------------------------------------------------------------- insert properties

  /** Inserting text without a line feed is a splice of the flat text. */
  lemma InsertSpliceNoLF(rows: seq<seq<char>>, line: int, off: int, text: seq<char>)
    requires ValidPos(rows, line, off) && NoLF(text)
    ensures Split(text) == [text]
    ensures Offset(rows, line, off) <= |Text(rows)|
    ensures Text(InsertRows(rows, line, off, Split(text))) ==
      Text(rows)[..Offset(rows, line, off)] + text + Text(rows)[Offset(rows, line, off)..]
  {
    SplitOfNoLF(text);
    var row := rows[line - 1];
    var a, h, t, c := rows[..line - 1], row[..off], row[off..], rows[line..];
    Cut(rows, line, off);
    OneRowText(rows, line, off, text);
    SpliceCore(Terminated(a, [LF]), h, text, t, Trailer(c));
  }

  /** The flat text after writing `text` inside row `line` as one piece. */
  lemma OneRowText(rows: seq<seq<char>>, line: int, off: int, text: seq<char>)
    requires ValidPos(rows, line, off)
    ensures var row := rows[line - 1];
      Text(InsertRows(rows, line, off, [text])) ==
        Terminated(rows[..line - 1], [LF]) + (row[..off] + text + row[off..]) + Rest(rows, line)
  {
    var row := rows[line - 1];
    var a, h, t, c := rows[..line - 1], row[..off], row[off..], rows[line..];
    var x := h + text + t;
    InsertRowsPlaced(rows, line, off, [text]);
    assert InsertRows(rows, line, off, [text]) == a + [x] + c;
    TextThree(a, [x], c);
    assert Join([x], [LF]) == x;
  }

  /** Regrouping a five-part concatenation. */
  lemma SpliceCore(p: seq<char>, h: seq<char>, m: seq<char>, t: seq<char>, q: seq<char>)
    ensures p + (h + m + t) + q == (p + h) + m + (t + q)
  {
  }

  /** Inserting at the end of a row, with or without line feeds, is a splice
      of the flat text. */
  lemma InsertSpliceAtEnd(rows: seq<seq<char>>, line: int, text: seq<char>)
    requires 1 <= line <= |rows|
    ensures |Split(text)| >= 1
    ensures Offset(rows, line, |rows[line - 1]|) <= |Text(rows)|
    ensures Text(InsertRows(rows, line, |rows[line - 1]|, Split(text))) ==
      Text(rows)[..Offset(rows, line, |rows[line - 1]|)] + text + Text(rows)[Offset(rows, line, |rows[line - 1]|)..]
  {
    SplitNonEmpty(text);
    var row := rows[line - 1];
    var s := Split(text);
    var m := [row + s[0]] + s[1..];
    var pre, rest := Terminated(rows[..line - 1], [LF]), Rest(rows, line);
    AtEndRows(rows, line, s);
    JoinAfterRow(row, text);
    CutAtEnd(rows, line);
    TextThree(rows[..line - 1], m, rows[line..]);
    assert pre + (row + text) + rest == (pre + row) + text + rest;
  }

  /** Writing pieces at the end of row `line`. */
  lemma AtEndRows(rows: seq<seq<char>>, line: int, s: seq<seq<char>>)
    requires 1 <= line <= |rows| && |s| >= 1
    ensures InsertRows(rows, line, |rows[line - 1]|, s) == rows[..line - 1] + ([rows[line - 1] + s[0]] + s[1..]) + rows[line..]
  {
    var row := rows[line - 1];
    InsertRowsPlaced(rows, line, |row|, s);
    assert row[..|row|] == row && row[|row|..] == [];
    assert row + s[0] + [] == row + s[0];
  }

  /** The pieces of `text` after a row: the row followed by `text`. */
  lemma JoinAfterRow(row: seq<char>, text: seq<char>)
    ensures |Split(text)| >= 1
    ensures Join([row + Split(text)[0]] + Split(text)[1..], [LF]) == row + text
  {
    JoinSplit(text);
    var s := Split(text);
    JoinHead(row, s[0], s[1..], [LF]);
    assert [s[0]] + s[1..] == s;
  }

  /** Cutting the flat text at the end of row `line`. */
  lemma CutAtEnd(rows: seq<seq<char>>, line: int)
    requires 1 <= line <= |rows|
    ensures Offset(rows, line, |rows[line - 1]|) <= |Text(rows)|
    ensures Text(rows)[..Offset(rows, line, |rows[line - 1]|)] == Terminated(rows[..line - 1], [LF]) + rows[line - 1]
    ensures Text(rows)[Offset(rows, line, |rows[line - 1]|)..] == Rest(rows, line)
  {
    var row := rows[line - 1];
    Cut(rows, line, |row|);
    assert row[..|row|] == row && row[|row|..] == [];
  }

  // ---------------------------------------------------------------- positions across an insert

  /** Lines before the start of a write, and the start line up to the
      offset, keep their positions and indices. */
  lemma PlacedKeepsEarlier(a: seq<seq<char>>, h: seq<char>, t: seq<char>, c: seq<seq<char>>, s: seq<seq<char>>, line: int, off: int)
    requires |s| >= 1
    requires ValidPos(a + [h + t] + c, line, off) && (line <= |a| || (line == |a| + 1 && off <= |h|))
    ensures ValidPos(Placed(a, h, t, c, s), line, off)
    ensures Offset(Placed(a, h, t, c, s), line, off) == Offset(a + [h + t] + c, line, off)
  {
    var x := h + s[0] + t;
    assert Placed(a, h, t, c, s) == (a + [x]) + (s[1..] + c);
    assert a + [h + t] + c == (a + [h + t]) + c;
    LineStartPrefix(a + [x], s[1..] + c, line);
    LineStartPrefix(a + [h + t], c, line);
    if line <= |a| {
      LineStartPrefix(a, [x], line);
      LineStartPrefix(a, [h + t], line);
    } else {
      assert (a + [x])[..line - 1] == a && (a + [h + t])[..line - 1] == a;
    }
  }

  /** Two prefixes whose text and separators differ by `d` put every line
      of a common suffix `d` further apart. */
  lemma ShiftCore(p1: seq<seq<char>>, p0: seq<seq<char>>, c: seq<seq<char>>, j: int, off: int, d: int,
                  r1: seq<seq<char>>, r0: seq<seq<char>>, l1: int, l0: int)
    requires 1 <= j <= |c| && 0 <= off <= |c[j - 1]|
    requires SumLen(p1) + |p1| == SumLen(p0) + |p0| + d
    requires r1 == p1 + c && r0 == p0 + c && l1 == |p1| + j && l0 == |p0| + j
    ensures ValidPos(r1, l1, off) && ValidPos(r0, l0, off)
    ensures Offset(r1, l1, off) == Offset(r0, l0, off) + d
  {
    assert r1[..l1 - 1] == p1 + c[..j - 1];
    assert r0[..l0 - 1] == p0 + c[..j - 1];
    SumLenConcat(p1, c[..j - 1]);
    SumLenConcat(p0, c[..j - 1]);
    assert r1[l1 - 1] == c[j - 1] && r0[l0 - 1] == c[j - 1];
  }

  /** Characters stored before the untouched suffix, before and after. */
  lemma PlacedPrefixSum(a: seq<seq<char>>, h: seq<char>, t: seq<char>, s: seq<seq<char>>)
    requires |s| >= 1
    ensures SumLen(a + [h + s[0] + t] + s[1..]) == SumLen(a) + |h| + |t| + SumLen(s)
    ensures SumLen(a + [h + t]) == SumLen(a) + |h| + |t|
  {
    var x := h + s[0] + t;
    SumLenConcat(a + [x], s[1..]);
    SumLenConcat(a, [x]);
    SumLenConcat(a, [h + t]);
    SingleSumLen(x);
    SingleSumLen(h + t);
    SingleSumLen(s[0]);
    assert s == [s[0]] + s[1..];
    SumLenConcat([s[0]], s[1..]);
  }

  lemma SingleSumLen(x: seq<char>)
    ensures SumLen([x]) == |x|
  {
    assert [x][..0] == [];
  }

  /** For a splice (one piece, or written at the end of the row) the
      position just after the written text is the start index plus the
      written amount. */
  lemma PlacedEnd(a: seq<seq<char>>, h: seq<char>, t: seq<char>, c: seq<seq<char>>, s: seq<seq<char>>)
    requires |s| >= 1 && (|s| == 1 || t == [])
    ensures var e := if |s| == 1 then |h| + |s[0]| else |s[|s| - 1]|;
      && ValidPos(Placed(a, h, t, c, s), |a| + |s|, e)
      && Offset(Placed(a, h, t, c, s), |a| + |s|, e) == SumLen(a) + |a| + |h| + SumLen(s) + |s| - 1
  {
    var k := |s|;
    var x := h + s[0] + t;
    var r := Placed(a, h, t, c, s);
    if k == 1 {
      assert r == a + ([x] + s[1..] + c);
      assert r[..|a|] == a;
      assert SumLen([s[0]]) == SumLen([s[0]][..0]) + |s[0]|;
      assert [s[0]][..0] == [];
    } else {
      var p := a + [x] + s[1..k - 1];
      assert s[1..] == s[1..k - 1] + [s[k - 1]];
      assert r == p + ([s[k - 1]] + c);
      assert r[..|a| + k - 1] == p;
      assert r[|a| + k - 1] == s[k - 1];
      SumLenConcat(a + [x], s[1..k - 1]);
      SumLenConcat(a, [x]);
      assert SumLen([x]) == SumLen([x][..0]) + |x|;
      assert [x][..0] == [];
      assert s == [s[0]] + s[1..k - 1] + [s[k - 1]];
      SumLenConcat([s[0]] + s[1..k - 1], [s[k - 1]]);
      SumLenConcat([s[0]], s[1..k - 1]);
      assert SumLen([s[0]]) == SumLen([s[0]][..0]) + |s[0]|;
      assert SumLen([s[k - 1]]) == SumLen([s[k - 1]][..0]) + |s[k - 1]|;
      assert [s[0]][..0] == [] && [s[k - 1]][..0] == [];
    }
  }

  /** Positions before the write position keep their flat index. */
  lemma InsertKeepsEarlier(rows: seq<seq<char>>, line: int, off: int, text: seq<char>, l: int, o: int)
    requires ValidPos(rows, line, off) && ValidPos(rows, l, o) && (l < line || (l == line && o <= off))
    ensures |Split(text)| >= 1
    ensures ValidPos(InsertRows(rows, line, off, Split(text)), l, o)
    ensures Offset(InsertRows(rows, line, off, Split(text)), l, o) == Offset(rows, l, o)
  {
    SplitNonEmpty(text);
    var a, h, t, c := rows[..line - 1], rows[line - 1][..off], rows[line - 1][off..], rows[line..];
    InsertRowsPlaced(rows, line, off, Split(text));
    assert rows == a + [h + t] + c by {
      assert rows[line - 1] == h + t;
      assert rows == a + [rows[line - 1]] + c;
    }
    PlacedKeepsEarlier(a, h, t, c, Split(text), l, o);
  }

  /** Positions on later lines move down by the number of line feeds
      written and their flat index grows by the text length. */
  lemma InsertShiftsLater(rows: seq<seq<char>>, line: int, off: int, text: seq<char>, l: int, o: int)
    requires ValidPos(rows, line, off) && ValidPos(rows, l, o) && l > line
    ensures |Split(text)| >= 1
    ensures ValidPos(InsertRows(rows, line, off, Split(text)), l + CountChar(text, LF), o)
    ensures Offset(InsertRows(rows, line, off, Split(text)), l + CountChar(text, LF), o) == Offset(rows, l, o) + |text|
  {
    SplitCount(text);
    SplitSize(text);
    PiecesShiftLater(rows, line, off, Split(text), l, o, CountChar(text, LF), |text|);
  }

  /** Placing pieces before line `l` moves position `(l, o)` down by the
      pieces beyond the first and forward by the characters and separators
      the pieces add. */
  lemma PiecesShiftLater(rows: seq<seq<char>>, line: int, off: int, s: seq<seq<char>>, l: int, o: int, k: int, n: int)
    requires ValidPos(rows, line, off) && ValidPos(rows, l, o) && l > line && |s| >= 1
    requires k == |s| - 1 && n == Size(s)
    ensures ValidPos(InsertRows(rows, line, off, s), l + k, o)
    ensures Offset(InsertRows(rows, line, off, s), l + k, o) == Offset(rows, l, o) + n
  {
    var a, h, t, c := rows[..line - 1], rows[line - 1][..off], rows[line - 1][off..], rows[line..];
    var p1, p0 := a + [h + s[0] + t] + s[1..], a + [h + t];
    InsertRowsAround(rows, line, off, s);
    assert |p1| == line - 1 + |s| && |p0| == line;
    assert c[l - line - 1] == rows[l - 1];
    assert SumLen(p1) + |p1| == SumLen(p0) + |p0| + n by {
      PlacedPrefixSum(a, h, t, s);
    }
    ShiftCore(p1, p0, c, l - line, o, n, InsertRows(rows, line, off, s), rows, l + k, l);
  }

  /** The rows before and after an insert as a changed prefix followed by
      the untouched rows after the insertion line. */
  lemma InsertRowsAround(rows: seq<seq<char>>, line: int, off: int, s: seq<seq<char>>)
    requires ValidPos(rows, line, off) && |s| >= 1
    ensures var a, h, t := rows[..line - 1], rows[line - 1][..off], rows[line - 1][off..];
      && InsertRows(rows, line, off, s) == (a + [h + s[0] + t] + s[1..]) + rows[line..]
      && rows == (a + [h + t]) + rows[line..]
  {
    var a, h, t := rows[..line - 1], rows[line - 1][..off], rows[line - 1][off..];
    assert rows[line - 1] == h + t;
    assert rows == a + [rows[line - 1]] + rows[line..];
  }

  /** For a splice, the reported end of an insert is the position whose
      flat index is the start index plus the text length. */
  lemma InsertEndOffset(rows: seq<seq<char>>, line: int, off: int, text: seq<char>)
    requires ValidPos(rows, line, off) && (CountChar(text, LF) == 0 || off == |rows[line - 1]|)
    ensures |Split(text)| >= 1
    ensures var (endLine, endOff) := InsertEnd(line, off, Split(text));
      && ValidPos(InsertRows(rows, line, off, Split(text)), endLine, endOff)
      && Offset(InsertRows(rows, line, off, Split(text)), endLine, endOff) == Offset(rows, line, off) + |text|
  {
    SplitCount(text);
    JoinSplit(text);
    TextLength(Split(text));
    var s := Split(text);
    var a, h, t, c := rows[..line - 1], rows[line - 1][..off], rows[line - 1][off..], rows[line..];
    InsertRowsPlaced(rows, line, off, s);
    assert |a| == line - 1 && |h| == off;
    PlacedEnd(a, h, t, c, s);
  }

  // ---------------------------------------------------------------- delete

  /** The rows after removing the span from `(startLine, startOff)` to
      `(endLine, endOff)`: the start row keeps its head and receives the end
      row's tail. In order, the rows after the start up to the end are
      dropped; out of order, only the end row is dropped. */
  function DeleteRows(rows: seq<seq<char>>, startLine: int, startOff: int, endLine: int, endOff: int): seq<seq<char>>
    requires ValidPos(rows, startLine, startOff) && ValidPos(rows, endLine, endOff)
  {
    var joined := rows[startLine - 1][..startOff] + rows[endLine - 1][endOff..];
    if startLine <= endLine then rows[..startLine - 1] + [joined] + rows[endLine..]
    else rows[..endLine - 1] + rows[endLine..startLine - 1] + [joined] + rows[startLine..]
  }

  /** Characters plus separators that a delete removes: the flat distance
      in order; out of order, the start row's tail, one separator and the end
      row's head. */
  function DeletedSize(rows: seq<seq<char>>, startLine: int, startOff: int, endLine: int, endOff: int): int
    requires ValidPos(rows, startLine, startOff) && ValidPos(rows, endLine, endOff)
  {
    if startLine <= endLine then Offset(rows, endLine, endOff) - Offset(rows, startLine, startOff)
    else |rows[startLine - 1]| - startOff + 1 + endOff
  }

  lemma SumLenFive(a: seq<seq<char>>, x: seq<char>, m: seq<seq<char>>, y: seq<char>, c: seq<seq<char>>)
    ensures SumLen(a + [x] + m + [y] + c) == SumLen(a) + |x| + SumLen(m) + |y| + SumLen(c)
    ensures SumLen(a + m + [y] + c) == SumLen(a) + SumLen(m) + |y| + SumLen(c)
    ensures SumLen(a + [x] + c) == SumLen(a) + |x| + SumLen(c)
  {
    assert [x][..0] == [] && [y][..0] == [];
    assert SumLen([x]) == SumLen([x][..0]) + |x|;
    assert SumLen([y]) == SumLen([y][..0]) + |y|;
    SumLenConcat(a + [x] + m + [y], c);
    SumLenConcat(a + [x] + m, [y]);
    SumLenConcat(a + [x], m);
    SumLenConcat(a, [x]);
    SumLenConcat(a + m + [y], c);
    SumLenConcat(a + m, [y]);
    SumLenConcat(a, m);
    SumLenConcat(a + [x], c);
  }

  /** Out of order, the rows are the end row, the rows between and the start
      row, around the untouched prefix and suffix. */
  lemma RowsAround(rows: seq<seq<char>>, first: int, second: int)
    requires 1 <= first < second <= |rows|
    ensures rows == rows[..first - 1] + [rows[first - 1]] + rows[first..second - 1] + [rows[second - 1]] + rows[second..]
  {
    assert rows == rows[..first - 1] + rows[first - 1..];
    assert rows[first - 1..] == [rows[first - 1]] + rows[first..second - 1] + rows[second - 1..];
    assert rows[second - 1..] == [rows[second - 1]] + rows[second..];
  }

  /** Deleting keeps rows free of line feeds, removes the rows the span
      covers, and shrinks the size by exactly the deleted amount. */
  lemma DeleteRowsShape(rows: seq<seq<char>>, startLine: int, startOff: int, endLine: int, endOff: int)
    requires ValidPos(rows, startLine, startOff) && ValidPos(rows, endLine, endOff) && RowsNoLF(rows)
    requires startLine == endLine ==> startOff <= endOff
    ensures 0 <= DeletedSize(rows, startLine, startOff, endLine, endOff)
    ensures RowsNoLF(DeleteRows(rows, startLine, startOff, endLine, endOff))
    ensures |DeleteRows(rows, startLine, startOff, endLine, endOff)| ==
      if startLine <= endLine then |rows| - (endLine - startLine) else |rows| - 1
    ensures Size(DeleteRows(rows, startLine, startOff, endLine, endOff)) ==
      Size(rows) - DeletedSize(rows, startLine, startOff, endLine, endOff)
  {
    var rs, re := rows[startLine - 1], rows[endLine - 1];
    var joined := rs[..startOff] + re[endOff..];
    assert NoLF(rs) && NoLF(re);
    NoLFConcat(rs[..startOff], re[endOff..]);
    var r := DeleteRows(rows, startLine, startOff, endLine, endOff);
    if startLine <= endLine {
      var a, c := rows[..startLine - 1], rows[endLine..];
      assert r == a + [joined] + c;
      RowsNoLFConcat(a, [joined]);
      RowsNoLFConcat(a + [joined], c);
      if startLine < endLine {
        LineStartAfter(rows, startLine, endLine);
      }
      DeleteSplice(rows, startLine, startOff, endLine, endOff);
      TextLength(rows);
      TextLength(r);
    } else {
      var a, m, c := rows[..endLine - 1], rows[endLine..startLine - 1], rows[startLine..];
      assert r == a + m + [joined] + c;
      RowsNoLFConcat(a, m);
      RowsNoLFConcat(a + m, [joined]);
      RowsNoLFConcat(a + m + [joined], c);
      RowsAround(rows, endLine, startLine);
      SumLenFive(a, re, m, rs, c);
      SumLenFive(a, re, m, joined, c);
    }
  }

  /** In order, deleting a span removes exactly its flat text. */
  lemma DeleteSplice(rows: seq<seq<char>>, startLine: int, startOff: int, endLine: int, endOff: int)
    requires ValidPos(rows, startLine, startOff) && ValidPos(rows, endLine, endOff)
    requires startLine <= endLine && (startLine == endLine ==> startOff <= endOff)
    ensures Offset(rows, startLine, startOff) <= Offset(rows, endLine, endOff) <= |Text(rows)|
    ensures |DeleteRows(rows, startLine, startOff, endLine, endOff)| >= 1
    ensures Text(DeleteRows(rows, startLine, startOff, endLine, endOff)) ==
      Text(rows)[..Offset(rows, startLine, startOff)] + Text(rows)[Offset(rows, endLine, endOff)..]
  {
    if startLine < endLine {
      LineStartAfter(rows, startLine, endLine);
    }
    var a, c := rows[..startLine - 1], rows[endLine..];
    var h, t := rows[startLine - 1][..startOff], rows[endLine - 1][endOff..];
    Cut(rows, startLine, startOff);
    Cut(rows, endLine, endOff);
    assert DeleteRows(rows, startLine, startOff, endLine, endOff) == a + [h + t] + c;
    TextOne(a, h + t, c);
    JoinCore(Text(rows), Offset(rows, startLine, startOff), Offset(rows, endLine, endOff), Terminated(a, [LF]), h, t, Trailer(c));
  }

  /** The flat text of rows with one distinguished row. */
  lemma TextOne(a: seq<seq<char>>, x: seq<char>, c: seq<seq<char>>)
    ensures Text(a + [x] + c) == Terminated(a, [LF]) + x + Trailer(c)
  {
    TextThree(a, [x], c);
    assert Join([x], [LF]) == x;
  }

  /** Gluing the part before `p` to the part from `q` on. */
  lemma JoinCore(text: seq<char>, p: int, q: int, pre: seq<char>, h: seq<char>, t: seq<char>, post: seq<char>)
    requires 0 <= p <= |text| && 0 <= q <= |text|
    requires text[..p] == pre + h && text[q..] == t + post
    ensures pre + (h + t) + post == text[..p] + text[q..]
  {
  }

  /** The span an insert reports, for text without line feeds, and the
      rows that deleting it leaves. */
  lemma PlacedDeleteOne(a: seq<seq<char>>, h: seq<char>, t: seq<char>, c: seq<seq<char>>, s: seq<seq<char>>)
    requires |s| == 1
    ensures var r := Placed(a, h, t, c, s);
      ValidPos(r, |a| + 1, |h|) && ValidPos(r, |a| + 1, |h| + |s[0]|) &&
      DeleteRows(r, |a| + 1, |h|, |a| + 1, |h| + |s[0]|) == a + [h + t] + c
  {
    var x := h + s[0] + t;
    assert s[1..] == [];
    assert Placed(a, h, t, c, s) == a + [x] + c;
    ReplaceAfter(a, x, c, h + t);
    assert x[..|h|] == h && x[|h| + |s[0]|..] == t;
  }

  /** The same when the text has line feeds and was written at the end of
      its row. */
  lemma PlacedDeleteMany(a: seq<seq<char>>, h: seq<char>, c: seq<seq<char>>, s: seq<seq<char>>)
    requires |s| > 1
    ensures var r := Placed(a, h, [], c, s);
      ValidPos(r, |a| + 1, |h|) && ValidPos(r, |a| + |s|, |s[|s| - 1]|) &&
      DeleteRows(r, |a| + 1, |h|, |a| + |s|, |s[|s| - 1]|) == a + [h] + c
  {
    var k := |s|;
    var x := h + s[0] + [];
    var b := a + [x] + s[1..k - 1];
    assert s[1..] == s[1..k - 1] + [s[k - 1]];
    var r := Placed(a, h, [], c, s);
    assert r == b + [s[k - 1]] + c;
    assert |b| == |a| + k - 1;
    assert r[..|a|] == a && r[|a|] == x;
    assert r[|a| + k - 1] == s[k - 1];
    assert r[|a| + k..] == c;
    assert x[..|h|] == h;
    assert s[k - 1][|s[k - 1]|..] == [];
    assert h + [] == h;
  }

  /** Deleting the span an insert reports restores the rows, when the text
      has no line feed or was written at the end of its row. */
  lemma InsertThenDelete(rows: seq<seq<char>>, line: int, off: int, text: seq<char>)
    requires ValidPos(rows, line, off)
    requires CountChar(text, LF) == 0 || off == |rows[line - 1]|
    ensures |Split(text)| >= 1
    ensures var r := InsertRows(rows, line, off, Split(text));
      var (endLine, endOff) := InsertEnd(line, off, Split(text));
      ValidPos(r, line, off) && ValidPos(r, endLine, endOff) && DeleteRows(r, line, off, endLine, endOff) == rows
  {
    SplitCount(text);
    if |Split(text)| == 1 {
      PiecesThenDeleteOne(rows, line, off, Split(text));
    } else {
      PiecesThenDeleteMany(rows, line, off, Split(text));
    }
  }

  lemma RowAsPlaced(rows: seq<seq<char>>, line: int, off: int)
    requires ValidPos(rows, line, off)
    ensures rows == rows[..line - 1] + [rows[line - 1][..off] + rows[line - 1][off..]] + rows[line..]
  {
    assert rows[line - 1] == rows[line - 1][..off] + rows[line - 1][off..];
    assert rows == rows[..line - 1] + [rows[line - 1]] + rows[line..];
  }

  lemma PiecesThenDeleteOne(rows: seq<seq<char>>, line: int, off: int, s: seq<seq<char>>)
    requires ValidPos(rows, line, off) && |s| == 1
    ensures var r := InsertRows(rows, line, off, s);
      var (endLine, endOff) := InsertEnd(line, off, s);
      ValidPos(r, line, off) && ValidPos(r, endLine, endOff) && DeleteRows(r, line, off, endLine, endOff) == rows
  {
    var a, h, t, c := rows[..line - 1], rows[line - 1][..off], rows[line - 1][off..], rows[line..];
    InsertRowsPlaced(rows, line, off, s);
    assert |a| == line - 1 && |h| == off;
    RowAsPlaced(rows, line, off);
    PlacedDeleteOne(a, h, t, c, s);
  }

  lemma PiecesThenDeleteMany(rows: seq<seq<char>>, line: int, off: int, s: seq<seq<char>>)
    requires ValidPos(rows, line, off) && off == |rows[line - 1]| && |s| > 1
    ensures var r := InsertRows(rows, line, off, s);
      var (endLine, endOff) := InsertEnd(line, off, s);
      ValidPos(r, line, off) && ValidPos(r, endLine, endOff) && DeleteRows(r, line, off, endLine, endOff) == rows
  {
    var a, h, t, c := rows[..line - 1], rows[line - 1][..off], rows[line - 1][off..], rows[line..];
    InsertRowsPlaced(rows, line, off, s);
    assert |a| == line - 1 && |h| == off;
    RowAsPlaced(rows, line, off);
    assert t == [] && h + t == h;
    PlacedDeleteMany(a, h, c, s);
  }

  /** `delete(startColumn, startRow, endColumn, endRow)`: both lines are
      checked, the deleted text is read with the same rules as
      `subSequenceInternal`, and then the start row keeps its head plus the
      end row's tail. The lines are not required to be in order: when the
      start follows the end, only the end row is removed. */
  function Delete(b: Buffer, startLine: int, startOff: int, endLine: int, endOff: int): (r: Result<(Buffer, Event), ModelError>)
    requires Valid(b)
    ensures !(1 <= startLine <= |b.rows|) ==> r == Failure(LineOutOfBounds(startLine))
    ensures 1 <= startLine <= |b.rows| && !(1 <= endLine <= |b.rows|) ==> r == Failure(LineOutOfBounds(endLine))
    ensures r.Success? <==> (ValidPos(b.rows, startLine, startOff) && ValidPos(b.rows, endLine, endOff) &&
      (startLine == endLine ==> startOff <= endOff))
    ensures 1 <= startLine <= |b.rows| && 1 <= endLine <= |b.rows| && r.Failure? ==>
      r == Failure(SubSequenceInternal(b, startLine, startOff, endLine, endOff).error)
    ensures r.Success? ==> (ValidPos(b.rows, startLine, startOff) && ValidPos(b.rows, endLine, endOff) &&
      r.value.0.rows == DeleteRows(b.rows, startLine, startOff, endLine, endOff) &&
      Valid(r.value.0) && r.value.1.AfterDelete? &&
      r.value.1 == AfterDelete(startLine, startOff, endLine, endOff, r.value.1.text) &&
      r.value.0.length == b.length - |r.value.1.text|)
    ensures r.Success? && startLine <= endLine ==>
      Offset(b.rows, startLine, startOff) <= Offset(b.rows, endLine, endOff) <= |Text(b.rows)| &&
      r.value.1.text == Text(b.rows)[Offset(b.rows, startLine, startOff)..Offset(b.rows, endLine, endOff)] &&
      Text(r.value.0.rows) == Text(b.rows)[..Offset(b.rows, startLine, startOff)] + Text(b.rows)[Offset(b.rows, endLine, endOff)..]
    ensures r.Success? && startLine > endLine ==>
      r.value.1.text == b.rows[startLine - 1][startOff..] + [LF] + b.rows[endLine - 1][..endOff]
  {
    if CheckLine(b, startLine).Some? then Failure(CheckLine(b, startLine).value)
    else if CheckLine(b, endLine).Some? then Failure(CheckLine(b, endLine).value)
    else
      match SubSequenceInternal(b, startLine, startOff, endLine, endOff)
      case Failure(e) => Failure(e)
      case Success(deleted) =>
        DeleteRowsShape(b.rows, startLine, startOff, endLine, endOff);
        assert startLine <= endLine ==>
          Offset(b.rows, startLine, startOff) <= Offset(b.rows, endLine, endOff) <= |Text(b.rows)| &&
          Text(DeleteRows(b.rows, startLine, startOff, endLine, endOff)) ==
            Text(b.rows)[..Offset(b.rows, startLine, startOff)] + Text(b.rows)[Offset(b.rows, endLine, endOff)..] by {
          if startLine <= endLine {
            DeleteSplice(b.rows, startLine, startOff, endLine, endOff);
          }
        }
        Success((Buffer(DeleteRows(b.rows, startLine, startOff, endLine, endOff), b.length - |deleted|),
          AfterDelete(startLine, startOff, endLine, endOff, deleted)))
  }

  /** `deleteCharAt(column, row)`: removes the character at a position, or
      at the end of a non-last row the virtual line feed, merging the next
      row into it. The reported span always ends at `off + 1` on the same
      line, even for a merge. */
  function DeleteCharAt(b: Buffer, line: int, off: int): (r: Result<(Buffer, Event), ModelError>)
    requires Valid(b)
    ensures r.Success? <==> ValidPos(b.rows, line, off) && (off < |b.rows[line - 1]| || line < |b.rows|)
    ensures r.Failure? ==> Some(r.error) == CheckCharPosition(b, line, off)
    ensures r.Success? ==> (ValidPos(b.rows, line, off) && (off < |b.rows[line - 1]| || line < |b.rows|) &&
      Valid(r.value.0) && r.value.0.length == b.length - 1 &&
      Offset(b.rows, line, off) < |Text(b.rows)| &&
      r.value.1 == AfterDelete(line, off, line, off + 1, [Text(b.rows)[Offset(b.rows, line, off)]]) &&
      r.value.0.rows == (if off < |b.rows[line - 1]| then DeleteRows(b.rows, line, off, line, off + 1)
                         else DeleteRows(b.rows, line, off, line + 1, 0)) &&
      Text(r.value.0.rows) == Text(b.rows)[..Offset(b.rows, line, off)] + Text(b.rows)[Offset(b.rows, line, off) + 1..])
  {
    match CheckCharPosition(b, line, off)
    case Some(e) => Failure(e)
    case None =>
      var rows := b.rows;
      var row := rows[line - 1];
      CharAt(rows, line, off);
      if off < |row| then
        DeleteOneInRow(rows, line, off);
        Success((Buffer(rows[..line - 1] + [row[..off] + row[off + 1..]] + rows[line..], b.length - 1),
          AfterDelete(line, off, line, off + 1, [row[off]])))
      else
        DeleteOneMerge(rows, line);
        Success((Buffer(rows[..line - 1] + [row + rows[line]] + rows[line + 1..], b.length - 1),
          AfterDelete(line, off, line, off + 1, [LF])))
  }

  /** Removing one stored character is the delete of the one-character span
      after it. */
  lemma DeleteOneInRow(rows: seq<seq<char>>, line: int, off: int)
    requires 1 <= line <= |rows| && 0 <= off < |rows[line - 1]| && RowsNoLF(rows)
    ensures ValidPos(rows, line, off + 1)
    ensures rows[..line - 1] + [rows[line - 1][..off] + rows[line - 1][off + 1..]] + rows[line..] == DeleteRows(rows, line, off, line, off + 1)
    ensures RowsNoLF(DeleteRows(rows, line, off, line, off + 1))
    ensures |DeleteRows(rows, line, off, line, off + 1)| >= 1
    ensures Size(DeleteRows(rows, line, off, line, off + 1)) == Size(rows) - 1
    ensures Offset(rows, line, off) < |Text(rows)|
    ensures Text(DeleteRows(rows, line, off, line, off + 1)) ==
      Text(rows)[..Offset(rows, line, off)] + Text(rows)[Offset(rows, line, off) + 1..]
  {
    DeleteRowsShape(rows, line, off, line, off + 1);
    DeleteSplice(rows, line, off, line, off + 1);
  }

  /** Removing the line feed after a non-last row merges the next row into
      it; that is the delete of the span from the row's end to the next
      row's start. */
  lemma DeleteOneMerge(rows: seq<seq<char>>, line: int)
    requires 1 <= line < |rows| && RowsNoLF(rows)
    ensures rows[..line - 1] + [rows[line - 1] + rows[line]] + rows[line + 1..] ==
      DeleteRows(rows, line, |rows[line - 1]|, line + 1, 0)
    ensures RowsNoLF(DeleteRows(rows, line, |rows[line - 1]|, line + 1, 0))
    ensures |DeleteRows(rows, line, |rows[line - 1]|, line + 1, 0)| >= 1
    ensures Size(DeleteRows(rows, line, |rows[line - 1]|, line + 1, 0)) == Size(rows) - 1
    ensures Offset(rows, line, |rows[line - 1]|) < |Text(rows)|
    ensures Text(DeleteRows(rows, line, |rows[line - 1]|, line + 1, 0)) ==
      Text(rows)[..Offset(rows, line, |rows[line - 1]|)] + Text(rows)[Offset(rows, line, |rows[line - 1]|) + 1..]
  {
    var row := rows[line - 1];
    LineStartNext(rows, line);
    DeleteRowsShape(rows, line, |row|, line + 1, 0);
    DeleteSplice(rows, line, |row|, line + 1, 0);
    assert row[..|row|] == row && rows[line][0..] == rows[line];
    CharAt(rows, line, |row|);
  }

  // ---------------------------------------------------------------- positions across a delete

  /** In order, lines before the start of a delete, and the start line up
      to the start offset, keep their positions and indices. */
  lemma DeleteKeepsEarlier(rows: seq<seq<char>>, startLine: int, startOff: int, endLine: int, endOff: int, l: int, o: int)
    requires ValidPos(rows, startLine, startOff) && ValidPos(rows, endLine, endOff) && startLine <= endLine
    requires ValidPos(rows, l, o) && (l < startLine || (l == startLine && o <= startOff))
    ensures ValidPos(DeleteRows(rows, startLine, startOff, endLine, endOff), l, o)
    ensures Offset(DeleteRows(rows, startLine, startOff, endLine, endOff), l, o) == Offset(rows, l, o)
  {
    var a := rows[..startLine - 1];
    var x := rows[startLine - 1][..startOff] + rows[endLine - 1][endOff..];
    var r := DeleteRows(rows, startLine, startOff, endLine, endOff);
    assert r == (a + [x]) + rows[endLine..];
    assert rows == (a + [rows[startLine - 1]]) + rows[startLine..];
    LineStartPrefix(a + [x], rows[endLine..], l);
    LineStartPrefix(a + [rows[startLine - 1]], rows[startLine..], l);
    if l < startLine {
      LineStartPrefix(a, [x], l);
      LineStartPrefix(a, [rows[startLine - 1]], l);
    } else {
      assert (a + [x])[..l - 1] == a && (a + [rows[startLine - 1]])[..l - 1] == a;
    }
  }

  /** In order, lines after the end of a delete move up by the number of
      removed lines and their indices drop by the deleted amount. */
  lemma DeleteShiftsLater(rows: seq<seq<char>>, startLine: int, startOff: int, endLine: int, endOff: int, l: int, o: int)
    requires ValidPos(rows, startLine, startOff) && ValidPos(rows, endLine, endOff) && startLine <= endLine
    requires ValidPos(rows, l, o) && l > endLine
    ensures ValidPos(DeleteRows(rows, startLine, startOff, endLine, endOff), l - (endLine - startLine), o)
    ensures Offset(DeleteRows(rows, startLine, startOff, endLine, endOff), l - (endLine - startLine), o) ==
      Offset(rows, l, o) - (Offset(rows, endLine, endOff) - Offset(rows, startLine, startOff))
  {
    var a := rows[..startLine - 1];
    var re := rows[endLine - 1];
    var x := rows[startLine - 1][..startOff] + re[endOff..];
    var c := rows[endLine..];
    var p1, p0 := a + [x], rows[..endLine];
    assert p0 == rows[..endLine - 1] + [re];
    SumLenConcat(a, [x]);
    SingleSumLen(x);
    SumLenConcat(rows[..endLine - 1], [re]);
    SingleSumLen(re);
    var d := -(Offset(rows, endLine, endOff) - Offset(rows, startLine, startOff));
    assert rows == p0 + c;
    var rows', l' := DeleteRows(rows, startLine, startOff, endLine, endOff), l - (endLine - startLine);
    ShiftCore(p1, p0, c, l - endLine, o, d, rows', rows, l', l);
    assert Offset(rows', l', o) == Offset(rows, l, o) + d;
  }

  // ---------------------------------------------------------------- serialisation

  /** The `toString` loop: each row followed by `sep` except the last. */
  method Render(b: Buffer, sep: seq<char>) returns (s: seq<char>)
    requires Valid(b)
    ensures s == Join(b.rows, sep)
    ensures |s| == SumLen(b.rows) + (|b.rows| - 1) * |sep|
  {
    s := [];
    var line := 1;
    while line <= |b.rows|
      invariant 1 <= line <= |b.rows| + 1
      invariant line <= |b.rows| ==> s == Terminated(b.rows[..line - 1], sep)
      invariant line == |b.rows| + 1 ==> s == Join(b.rows, sep)
    {
      assert b.rows[..line] == b.rows[..line - 1] + [b.rows[line - 1]];
      if line < |b.rows| {
        s := s + b.rows[line - 1] + sep;
      } else {
        s := s + b.rows[line - 1];
      }
      line := line + 1;
    }
    JoinLength(b.rows, sep);
  }

  /** `toString`: the flat text, whose length is the cached length and which
      splits back into the rows. */
  method ToString(b: Buffer) returns (s: seq<char>)
    requires Valid(b)
    ensures s == Text(b.rows) && |s| == b.length
    ensures Split(s) == b.rows
  {
    s := Render(b, [LF]);
    TextLength(b.rows);
    SplitJoin(b.rows);
  }

  /** `toCRString`: the flat text with every line feed written as CR. */
  method ToCRString(b: Buffer) returns (s: seq<char>)
    requires Valid(b)
    ensures s == ReplaceLF(Text(b.rows), [CR]) && |s| == b.length
  {
    s := Render(b, [CR]);
    JoinIsReplace(b.rows, [CR]);
  }

  /** `toCRLFString`: the flat text with every line feed written as CR LF,
      one character longer per row boundary. */
  method ToCRLFString(b: Buffer) returns (s: seq<char>)
    requires Valid(b)
    ensures s == ReplaceLF(Text(b.rows), [CR, LF]) && |s| == b.length + |b.rows| - 1
  {
    s := Render(b, [CR, LF]);
    JoinIsReplace(b.rows, [CR, LF]);
  }
}

=== FILE: indexer.dfy ===
/** The cached indexer: converts between `(line, off)` positions and flat
    indices by walking row sizes from the nearest known anchor. Anchors come
    from three places: the zero position, a recency cache of at most
    `CACHE_CAPACITY` entries, and an end anchor refreshed after every edit
    event. The buffer is a parameter of every operation (the indexer reads
    row sizes, the row count and the cached length from it). */
module Indexers {
  import opened Wrappers
  import opened Lines
  import opened Buffers

  const CACHE_CAPACITY: int := 100

  /** `ColumnRowPosition`: a position and its flat index; equality is by
      value, as for the Kotlin data class. */
  datatype Anchor = Anchor(line: int, off: int, index: int)

  /** `ColumnRowPosition.createZero()`. */
  const ZERO: Anchor := Anchor(1, 0, 0)

  datatype Indexer = Indexer(cache: seq<Anchor>, doCache: bool, end: Anchor)

  /** A new indexer: empty cache, caching on, and the end anchor a copy of
      the zero position. */
  function NewIndexer(): (ix: Indexer)
    ensures ix.cache == [] && ix.doCache && ix.end == ZERO
    ensures Coherent(ix, Init())
  {
    Indexer([], true, ZERO)
  }

  /** An anchor is correct for the rows when it names a position of the
      buffer and carries that position's flat index. */
  predicate AnchorOk(rows: seq<seq<char>>, a: Anchor)
  {
    ValidPos(rows, a.line, a.off) && a.index == Offset(rows, a.line, a.off)
  }

  /** `attachEndPos`: the last line, its length, and the buffer length. */
  function EndAnchor(b: Buffer): (a: Anchor)
    requires Valid(b)
    ensures AnchorOk(b.rows, a)
    ensures a.line == |b.rows| && a.index == b.length
  {
    EndOffset(b.rows);
    Anchor(|b.rows|, |b.rows[|b.rows| - 1]|, b.length)
  }

  /** The cache-consistency invariant: every cached anchor is correct, the
      cache is within capacity, and the end anchor is the buffer's end. */
  predicate Coherent(ix: Indexer, b: Buffer)
  {
    && Valid(b)
    && (forall i :: 0 <= i < |ix.cache| ==> AnchorOk(b.rows, ix.cache[i]))
    && |ix.cache| <= CACHE_CAPACITY
    && ix.end == EndAnchor(b)
  }

  /** `getTextRowSize(column)`: the row's length, after the line check. */
  function RowSize(b: Buffer, line: int): (r: Result<int, ModelError>)
    ensures r.Success? <==> 1 <= line <= |b.rows|
    ensures r.Success? ==> r.value == |b.rows[line - 1]|
    ensures r.Failure? ==> r.error == LineOutOfBounds(line)
  {
    match CheckLine(b, line)
    case Some(e) => Failure(e)
    case None => Success(|b.rows[line - 1]|)
  }

  // ---------------------------------------------------------------- cache

  /** The trimming loop of `push`: drops the oldest entries until the
      capacity is respected. */
  function {:tailrecursion} DropOldest(c: seq<Anchor>): (r: seq<Anchor>)
    ensures |r| == if |c| > CACHE_CAPACITY then CACHE_CAPACITY else |c|
    ensures r == c[|c| - |r|..]
  {
    if |c| > CACHE_CAPACITY then DropOldest(c[1..]) else c
  }

  /** `push`: when caching is on, the anchor becomes the newest entry and
      the oldest entries beyond the capacity are dropped. */
  function Push(ix: Indexer, a: Anchor): (ix': Indexer)
    ensures ix'.doCache == ix.doCache && ix'.end == ix.end
    ensures !ix.doCache ==> ix' == ix
    ensures ix.doCache ==> |ix'.cache| >= 1 && ix'.cache[|ix'.cache| - 1] == a
    ensures ix.doCache && |ix.cache| < CACHE_CAPACITY ==> ix'.cache == ix.cache + [a]
    ensures ix.doCache && |ix.cache| >= CACHE_CAPACITY ==>
      |ix'.cache| == CACHE_CAPACITY && ix'.cache == (ix.cache + [a])[|ix.cache| + 1 - CACHE_CAPACITY..]
  {
    if ix.doCache then ix.(cache := DropOldest(ix.cache + [a])) else ix
  }

  /** Pushing a correct anchor keeps the indexer coherent. */
  lemma PushKeepsCoherent(ix: Indexer, b: Buffer, a: Anchor)
    requires Coherent(ix, b) && AnchorOk(b.rows, a)
    ensures Coherent(Push(ix, a), b)
  {
    if ix.doCache {
      var c := ix.cache + [a];
      var r := Push(ix, a).cache;
      assert r == c[|c| - |r|..];
      forall i | 0 <= i < |r|
        ensures AnchorOk(b.rows, r[i])
      {
        var j := |c| - |r| + i;
        assert r[i] == c[j];
        if j < |ix.cache| {
          assert c[j] == ix.cache[j];
        } else {
          assert c[j] == a;
        }
      }
      assert Push(ix, a) == ix.(cache := r);
    }
  }

  /** What a push adds to the cache: the pushed anchor when caching is on,
      and nothing else. */
  lemma PushMembers(ix: Indexer, a: Anchor)
    ensures ix.doCache ==> a in Push(ix, a).cache
    ensures forall x :: x in Push(ix, a).cache ==> x in ix.cache || x == a
  {
    var r := Push(ix, a).cache;
    if ix.doCache {
      var c := ix.cache + [a];
      assert r == c[|c| - |r|..];
      assert r[|r| - 1] == a;
      forall x | x in r
        ensures x in c
      {
        var i :| 0 <= i < |r| && r[i] == x;
        assert c[|c| - |r| + i] == x;
      }
    }
  }

  /** A reordering of the cache keeps the same members. */
  lemma SameMembers(c: seq<Anchor>, c': seq<Anchor>)
    requires multiset(c') == multiset(c)
    ensures forall x :: x in c' <==> x in c
  {
    forall x
      ensures x in c' <==> x in c
    {
      assert x in c' <==> x in multiset(c');
      assert x in c <==> x in multiset(c);
    }
  }

  // ---------------------------------------------------------------- nearest anchor

  /** What `findNearestPositionByColumn` (by line) and
      `findNearestPositionByIndex` (by index) measure an anchor by. */
  function Key(a: Anchor, byIndex: bool): int
  {
    if byIndex then a.index else a.line
  }

  function Dist(a: Anchor, byIndex: bool, target: int): int
  {
    if Key(a, byIndex) >= target then Key(a, byIndex) - target else target - Key(a, byIndex)
  }

  function Swap(c: seq<Anchor>, i: int, j: int): (r: seq<Anchor>)
    requires 0 <= i < |c| && 0 <= j < |c|
    ensures |r| == |c| && r[i] == c[j] && r[j] == c[i]
    ensures forall k :: 0 <= k < |c| && k != i && k != j ==> r[k] == c[k]
    ensures multiset(r) == multiset(c)
  {
    c[i := c[j]][j := c[i]]
  }

  /** `findNearestPositionBy*`: scans the cache for the first entry with the
      strictly smallest distance below the target itself (the distance that
      stands for the zero position), switches to the end anchor when that is
      strictly closer (the end's key minus the target, without absolute
      value), and swaps a chosen cache entry to the front. `found` and `at`
      say which cache entry the scan kept. */
  method Nearest(ix: Indexer, byIndex: bool, target: int) returns (pos: Anchor, ix': Indexer, found: bool, at: int)
    ensures found ==> 0 <= at < |ix.cache| && Dist(ix.cache[at], byIndex, target) < target
    ensures found ==> forall j :: 0 <= j < |ix.cache| ==> Dist(ix.cache[j], byIndex, target) >= Dist(ix.cache[at], byIndex, target)
    ensures found ==> forall j :: 0 <= j < at ==> Dist(ix.cache[j], byIndex, target) > Dist(ix.cache[at], byIndex, target)
    ensures !found ==> at == 0 && forall j :: 0 <= j < |ix.cache| ==> Dist(ix.cache[j], byIndex, target) >= target
    ensures var best := if found then Dist(ix.cache[at], byIndex, target) else target;
      pos == if Key(ix.end, byIndex) - target < best then ix.end else if found then ix.cache[at] else ZERO
    ensures pos == ZERO || pos == ix.end || pos in ix.cache
    ensures ix'.doCache == ix.doCache && ix'.end == ix.end
    ensures ix'.cache == if pos != ZERO && pos != ix.end then Swap(ix.cache, 0, at) else ix.cache
    ensures multiset(ix'.cache) == multiset(ix.cache)
  {
    var best := target;
    pos := ZERO;
    found := false;
    at := 0;
    var i := 0;
    while i < |ix.cache|
      invariant 0 <= i <= |ix.cache|
      invariant found ==> 0 <= at < i && best == Dist(ix.cache[at], byIndex, target) && best < target && pos == ix.cache[at]
      invariant !found ==> at == 0 && best == target && pos == ZERO
      invariant forall j :: 0 <= j < i ==> Dist(ix.cache[j], byIndex, target) >= best
      invariant found ==> forall j :: 0 <= j < at ==> Dist(ix.cache[j], byIndex, target) > best
    {
      var d := Dist(ix.cache[i], byIndex, target);
      if d < best {
        best := d;
        pos := ix.cache[i];
        at := i;
        found := true;
      }
      i := i + 1;
    }
    if Key(ix.end, byIndex) - target < best {
      pos := ix.end;
    }
    if pos != ZERO && pos != ix.end {
      ix' := ix.(cache := Swap(ix.cache, 0, at));
    } else {
      ix' := ix;
    }
  }

  /** The nearest anchor of a coherent indexer is correct. */
  lemma NearestIsCorrect(ix: Indexer, b: Buffer, pos: Anchor)
    requires Coherent(ix, b)
    requires pos == ZERO || pos == ix.end || pos in ix.cache
    ensures AnchorOk(b.rows, pos)
  {
    if pos == ZERO {
      assert LineStart(b.rows, 1) == 0 by {
        assert b.rows[..0] == [];
      }
    }
  }

  /** A reordering of the cache keeps the indexer coherent. */
  lemma ReorderKeepsCoherent(ix: Indexer, ix': Indexer, b: Buffer)
    requires Coherent(ix, b) && ix'.end == ix.end && multiset(ix'.cache) == multiset(ix.cache)
    ensures Coherent(ix', b)
  {
    forall i | 0 <= i < |ix'.cache|
      ensures AnchorOk(b.rows, ix'.cache[i])
    {
      assert ix'.cache[i] in multiset(ix.cache);
    }
    assert |ix'.cache| == |multiset(ix'.cache)|;
  }

  // ---------------------------------------------------------------- line walks

  /** `LineStartNext` in a form that needs no precondition, for use inside
      walks that may also run on buffers where it does not apply. */
  lemma LineStartStep(rows: seq<seq<char>>, line: int)
    ensures 1 <= line < |rows| ==> LineStart(rows, line + 1) == LineStart(rows, line) + |rows[line - 1]| + 1
  {
    if 1 <= line < |rows| {
      LineStartNext(rows, line);
    }
  }

  /** `findPositionByColumnRowForward`'s loop: from flat index `start` of the
      start of line `from`, adds each row's size plus one until `line`. */
  function LineStartForward(b: Buffer, from: int, start: int, line: int): (r: Result<int, ModelError>)
    ensures Valid(b) && 1 <= from <= line <= |b.rows| && start == LineStart(b.rows, from) ==>
      r == Success(LineStart(b.rows, line))
    decreases line - from
  {
    if from >= line then Success(start)
    else
      var size :- RowSize(b, from);
      LineStartStep(b.rows, from);
      LineStartForward(b, from + 1, start + size + 1, line)
  }

  /** `findPositionByColumnRowBackward`'s loop: from the start of line
      `from`, subtracts the previous row's size plus one until `line`. */
  function LineStartBackward(b: Buffer, from: int, start: int, line: int): (r: Result<int, ModelError>)
    ensures Valid(b) && 1 <= line <= from <= |b.rows| && start == LineStart(b.rows, from) ==>
      r == Success(LineStart(b.rows, line))
    decreases from - line
  {
    if from <= line then Success(start)
    else
      var size :- RowSize(b, from - 1);
      LineStartStep(b.rows, from - 1);
      LineStartBackward(b, from - 1, start - size - 1, line)
  }

  /** `findPositionInColumn`: an anchor on the same line gives the index of
      any offset on it. */
  function InColumn(a: Anchor, line: int, off: int): Anchor
  {
    Anchor(line, off, a.index - a.off + off)
  }

  lemma InColumnCorrect(rows: seq<seq<char>>, a: Anchor, off: int)
    requires AnchorOk(rows, a) && ValidPos(rows, a.line, off)
    ensures AnchorOk(rows, InColumn(a, a.line, off))
    ensures InColumn(a, a.line, off).index == Offset(rows, a.line, off)
  {
  }

  /** From an anchor, the line walk toward `line` in the direction the
      anchor lies, ending with the line-start anchor of `line`. */
  function LineWalk(b: Buffer, a: Anchor, line: int): (r: Result<Anchor, ModelError>)
    ensures Valid(b) && AnchorOk(b.rows, a) && 1 <= line <= |b.rows| ==>
      r == Success(Anchor(line, 0, LineStart(b.rows, line)))
  {
    var start := a.index - a.off;
    var s :- if a.line < line then LineStartForward(b, a.line, start, line) else LineStartBackward(b, a.line, start, line);
    Success(Anchor(line, 0, s))
  }

  // ---------------------------------------------------------------- index walks

  /** `findPositionByIndexForward`'s loop: `i` is the flat index of the end
      of `line`, whose size is `size`; while it is below the target the walk
      moves to the end of the next line. */
  function ForwardToIndex(b: Buffer, line: int, size: int, i: int, index: int): (r: Result<(int, int, int), ModelError>)
    ensures (Valid(b) && 1 <= line <= |b.rows| && size == |b.rows[line - 1]| && i == Offset(b.rows, line, size) &&
      LineStart(b.rows, line) <= index <= b.length) ==>
      && r.Success?
      && 1 <= r.value.0 <= |b.rows| && r.value.1 == |b.rows[r.value.0 - 1]|
      && r.value.2 == Offset(b.rows, r.value.0, r.value.1)
      && LineStart(b.rows, r.value.0) <= index <= r.value.2
    decreases index - i
  {
    if i >= index then Success((line, size, i))
    else
      EndStep(b, line);
      var next :- RowSize(b, line + 1);
      LineStartStep(b.rows, line);
      ForwardToIndex(b, line + 1, next, i + next + 1, index)
  }

  /** The end of the last line is the buffer length. */
  lemma EndStep(b: Buffer, line: int)
    ensures Valid(b) && line == |b.rows| ==> Offset(b.rows, line, |b.rows[line - 1]|) == b.length
  {
    if Valid(b) && line == |b.rows| {
      EndOffset(b.rows);
    }
  }

  /** `findPositionByIndexForward`: moves to the end of the anchor's line,
      walks forward, and steps back from the end of the line reached. */
  function IndexWalkForward(b: Buffer, index: int, a: Anchor): (r: Result<Anchor, ModelError>)
    ensures Valid(b) && AnchorOk(b.rows, a) && a.index <= index <= b.length ==>
      r.Success? && AnchorOk(b.rows, r.value) && r.value.index == index
  {
    var size :- RowSize(b, a.line);
    var (line, rowSize, i) :- ForwardToIndex(b, a.line, size, a.index + size - a.off, index);
    Success(Anchor(line, if i > index then rowSize - (i - index) else rowSize, index))
  }

  /** `(line, off)` is the end of a non-last line and `index` lies no
      further than the end of the next line. */
  predicate WithinNextLine(rows: seq<seq<char>>, line: int, off: int, index: int)
  {
    1 <= line < |rows| && off == |rows[line - 1]| && index <= Offset(rows, line + 1, |rows[line]|)
  }

  /** `findPositionByIndexBackward`'s loop: while the flat index is beyond
      the target, steps to the end of the previous line. When the line
      number reaches `guard` the walk gives up (`None`) and the caller
      restarts forward from the zero position; any other line number is
      looked up, so line 0 fails. */
  function BackToIndex(b: Buffer, line: int, off: int, i: int, index: int, guard: int): (r: Result<Option<(int, int, int)>, ModelError>)
    requires guard <= 0
    ensures (Valid(b) && ValidPos(b.rows, line, off) && i == Offset(b.rows, line, off) && 0 <= index &&
      (index <= i || WithinNextLine(b.rows, line, off, index))) ==>
      && (r.Success? && r.value.Some? ==>
        var (l, o, j) := r.value.value;
        && ValidPos(b.rows, l, o) && j == Offset(b.rows, l, o) && j <= index
        && (j < index ==> WithinNextLine(b.rows, l, o, index)))
      && (guard == 0 ==> r.Success?)
      && (r.Failure? ==> r.error == LineOutOfBounds(0))
    decreases line
  {
    if i <= index then Success(Some((line, off, i)))
    else if line - 1 == guard then Success(None)
    else
      var size :- RowSize(b, line - 1);
      LineStartStep(b.rows, line - 1);
      BackToIndex(b, line - 1, size, i - off - 1, index, guard)
  }

  /** `findPositionByIndexBackward` with the given guard: after the walk, a
      target beyond the end of the line reached lies on the next line. */
  function IndexWalkBackwardWith(b: Buffer, index: int, a: Anchor, guard: int): (r: Result<Anchor, ModelError>)
    requires guard <= 0
  {
    var s :- BackToIndex(b, a.line, a.off, a.index, index, guard);
    match s
    case None => IndexWalkForward(b, index, ZERO)
    case Some((line, off, i)) =>
      var next := index - i;
      if next > 0 then Success(Anchor(line + 1, next - 1, index)) else Success(Anchor(line, off, index))
  }

  /** The backward index walk as the code writes it: the loop's guard is
      line `-1`, which a 1-based line number never reaches before line 0 is
      looked up, so any walk that must pass line 1 fails. */
  function IndexWalkBackwardAsWritten(b: Buffer, index: int, a: Anchor): (r: Result<Anchor, ModelError>)
    ensures Valid(b) && AnchorOk(b.rows, a) && 0 <= index <= a.index ==>
      && (r.Success? ==> AnchorOk(b.rows, r.value) && r.value.index == index)
      && (r.Failure? ==> r.error == LineOutOfBounds(0))
  {
    var r := IndexWalkBackwardWith(b, index, a, -1);
    if Valid(b) && AnchorOk(b.rows, a) && 0 <= index <= a.index then
      BackwardResult(b, index, a, -1);
      r
    else r
  }

  /** The backward index walk with the guard the restart branch is written
      for: reaching line 0 restarts forward from the zero position. From a
      correct anchor it always finds the target. */
  function IndexWalkBackward(b: Buffer, index: int, a: Anchor): (r: Result<Anchor, ModelError>)
    ensures Valid(b) && AnchorOk(b.rows, a) && 0 <= index <= a.index ==>
      r.Success? && AnchorOk(b.rows, r.value) && r.value.index == index
  {
    var r := IndexWalkBackwardWith(b, index, a, 0);
    if Valid(b) && AnchorOk(b.rows, a) && 0 <= index <= a.index then
      BackwardResult(b, index, a, 0);
      r
    else r
  }

  lemma BackwardResult(b: Buffer, index: int, a: Anchor, guard: int)
    requires guard <= 0 && Valid(b) && AnchorOk(b.rows, a) && 0 <= index <= a.index
    ensures var r := IndexWalkBackwardWith(b, index, a, guard);
      && (r.Success? ==> AnchorOk(b.rows, r.value) && r.value.index == index)
      && (guard == 0 ==> r.Success?)
      && (guard < 0 && r.Failure? ==> r.error == LineOutOfBounds(0))
  {
    AnchorWithin(b, a);
    var s := BackToIndex(b, a.line, a.off, a.index, index, guard);
    if s.Success? {
      match s.value
      case None =>
        NearestIsCorrect(Indexer([], true, EndAnchor(b)), b, ZERO);
      case Some((line, off, i)) =>
        if index - i > 0 {
          LineStartNext(b.rows, line);
        }
    }
  }

  /** A correct anchor's index is at most the buffer length. */
  lemma AnchorWithin(b: Buffer, a: Anchor)
    requires Valid(b) && AnchorOk(b.rows, a)
    ensures 0 <= a.index <= b.length
  {
    Cut(b.rows, a.line, a.off);
    TextLength(b.rows);
  }

  /** Where the code's walk succeeds, it agrees with the corrected one. */
  lemma BackwardAgreement(b: Buffer, index: int, a: Anchor)
    requires Valid(b) && AnchorOk(b.rows, a) && 0 <= index <= a.index
    requires IndexWalkBackwardAsWritten(b, index, a).Success?
    ensures IndexWalkBackwardAsWritten(b, index, a) == IndexWalkBackward(b, index, a)
  {
    var r1 := IndexWalkBackwardAsWritten(b, index, a).value;
    var r2 := IndexWalkBackward(b, index, a).value;
    PositionUnique(b.rows, r1.line, r1.off, r2.line, r2.off);
  }

  /** The code's walk fails on a one-row buffer `abcdef` from the cached
      anchor `(1, 5, 5)` toward index 3, a valid index the corrected walk
      resolves to `(1, 3)`. */
  lemma BackwardWalkFailsOnLineOne()
    ensures var b := Buffer(["abcdef"], 6);
      && Valid(b) && AnchorOk(b.rows, Anchor(1, 5, 5))
      && IndexWalkBackwardAsWritten(b, 3, Anchor(1, 5, 5)) == Failure(LineOutOfBounds(0))
      && IndexWalkBackward(b, 3, Anchor(1, 5, 5)) == Success(Anchor(1, 3, 3))
  {
    OneRowValid();
    OneRowAsWritten();
    OneRowCorrected();
  }

  lemma OneRowValid()
    ensures Valid(Buffer(["abcdef"], 6)) && AnchorOk(["abcdef"], Anchor(1, 5, 5))
  {
    var rows: seq<seq<char>> := ["abcdef"];
    assert rows[..0] == [];
    assert SumLen(rows) == SumLen(rows[..0]) + 6;
    assert Text(rows) == rows[0];
  }

  lemma OneRowAsWritten()
    ensures IndexWalkBackwardAsWritten(Buffer(["abcdef"], 6), 3, Anchor(1, 5, 5)) == Failure(LineOutOfBounds(0))
  {
    var b := Buffer(["abcdef"], 6);
    assert BackToIndex(b, 1, 5, 5, 3, -1) == Failure(LineOutOfBounds(0));
  }

  lemma OneRowCorrected()
    ensures IndexWalkBackward(Buffer(["abcdef"], 6), 3, Anchor(1, 5, 5)) == Success(Anchor(1, 3, 3))
  {
    var b := Buffer(["abcdef"], 6);
    assert BackToIndex(b, 1, 5, 5, 3, 0) == Success(None);
    assert ForwardToIndex(b, 1, 6, 6, 3) == Success((1, 6, 6));
  }

  // ---------------------------------------------------------------- conversions

  /** `columnRowToPosition`: checks the position (the offset may equal the
      row length), takes the nearest anchor by line, returns it unchanged on
      an exact hit, and otherwise resolves within its line or walks to the
      target line first; a resolved position is pushed to the cache. */
  method LineOffsetToPosition(ix: Indexer, b: Buffer, line: int, off: int) returns (r: Result<Anchor, ModelError>, ix': Indexer)
    ensures CheckLineOffset(b, line, off, true).Some? ==> r == Failure(CheckLineOffset(b, line, off, true).value) && ix' == ix
    ensures Coherent(ix, b) && ValidPos(b.rows, line, off) ==>
      r == Success(Anchor(line, off, Offset(b.rows, line, off))) && Coherent(ix', b)
    ensures ix'.doCache == ix.doCache && ix'.end == ix.end
    ensures r.Success? && ix.doCache ==> r.value == ZERO || r.value == ix.end || r.value in ix'.cache
    ensures forall a :: a in ix'.cache ==> a in ix.cache || (r.Success? && a == r.value)
  {
    var check := CheckLineOffset(b, line, off, true);
    if check.Some? {
      return Failure(check.value), ix;
    }
    var pos, ix1, found, at := Nearest(ix, false, line);
    SameMembers(ix.cache, ix1.cache);
    if Coherent(ix, b) {
      NearestIsCorrect(ix, b, pos);
      ReorderKeepsCoherent(ix, ix1, b);
    }
    if pos.line == line {
      if pos.off == off {
        return Success(pos), ix1;
      }
      var a := InColumn(pos, line, off);
      if Coherent(ix, b) {
        ResolvedInLine(ix1, b, pos, line, off);
      }
      PushMembers(ix1, a);
      return Success(a), Push(ix1, a);
    }
    var walked := LineWalk(b, pos, line);
    if walked.Failure? {
      return Failure(walked.error), ix1;
    }
    var a := InColumn(walked.value, line, off);
    if Coherent(ix, b) {
      ResolvedInLine(ix1, b, walked.value, line, off);
    }
    PushMembers(ix1, a);
    return Success(a), Push(ix1, a);
  }

  /** Moving a correct anchor along its own line to a valid offset gives the
      position's anchor, which may then be cached. */
  lemma ResolvedInLine(ix: Indexer, b: Buffer, a: Anchor, line: int, off: int)
    requires Coherent(ix, b) && AnchorOk(b.rows, a) && a.line == line && ValidPos(b.rows, line, off)
    ensures InColumn(a, line, off) == Anchor(line, off, Offset(b.rows, line, off))
    ensures Coherent(Push(ix, InColumn(a, line, off)), b)
  {
    InColumnCorrect(b.rows, a, off);
    PushKeepsCoherent(ix, b, InColumn(a, line, off));
  }

  /** `indexToPosition`: checks `0 <= index <= length`, takes the nearest
      anchor by index, returns it on an exact hit, and otherwise walks
      forward or backward from it; a walked position is pushed. */
  method IndexToPosition(ix: Indexer, b: Buffer, index: int) returns (r: Result<Anchor, ModelError>, ix': Indexer)
    ensures CheckIndex(b, index, true).Some? ==> r == Failure(CheckIndex(b, index, true).value) && ix' == ix
    ensures Coherent(ix, b) && 0 <= index <= b.length ==>
      r.Success? && AnchorOk(b.rows, r.value) && r.value.index == index && Coherent(ix', b)
    ensures ix'.doCache == ix.doCache && ix'.end == ix.end
    ensures r.Success? && ix.doCache ==> r.value == ZERO || r.value == ix.end || r.value in ix'.cache
    ensures forall a :: a in ix'.cache ==> a in ix.cache || (r.Success? && a == r.value)
  {
    var check := CheckIndex(b, index, true);
    if check.Some? {
      return Failure(check.value), ix;
    }
    var pos, ix1, found, at := Nearest(ix, true, index);
    SameMembers(ix.cache, ix1.cache);
    if Coherent(ix, b) {
      NearestIsCorrect(ix, b, pos);
      ReorderKeepsCoherent(ix, ix1, b);
    }
    if pos.index == index {
      return Success(pos), ix1;
    }
    var walked := if pos.index < index then IndexWalkForward(b, index, pos) else IndexWalkBackward(b, index, pos);
    if walked.Failure? {
      return Failure(walked.error), ix1;
    }
    if Coherent(ix, b) {
      PushKeepsCoherent(ix1, b, walked.value);
    }
    PushMembers(ix1, walked.value);
    return walked, Push(ix1, walked.value);
  }

  /** A flat index names one position: two correct anchors with the same
      index are the same anchor, so the two conversions are inverse. */
  lemma AnchorUnique(rows: seq<seq<char>>, a1: Anchor, a2: Anchor)
    requires AnchorOk(rows, a1) && AnchorOk(rows, a2) && a1.index == a2.index
    ensures a1 == a2
  {
    PositionUnique(rows, a1.line, a1.off, a2.line, a2.off);
  }

  // ---------------------------------------------------------------- edit events

  /** `afterInsert` on one anchor. An anchor on the start line at or after
      the start offset moves to the end line with offset
      `endOff - off + startOff` (the source's formula); an anchor on a later
      line moves down by the number of added lines; both grow by `n`. */
  function ShiftForInsert(a: Anchor, sL: int, sO: int, eL: int, eO: int, n: int): Anchor
  {
    if a.line == sL then
      if a.off >= sO then Anchor(a.line + (eL - sL), eO - a.off + sO, a.index + n) else a
    else if a.line > sL then Anchor(a.line + (eL - sL), a.off, a.index + n)
    else a
  }

  /** The indexer's `afterInsert` handler: every cached anchor is shifted in
      place and the end anchor is re-read from the edited buffer. */
  function OnInsert(ix: Indexer, b: Buffer, sL: int, sO: int, eL: int, eO: int, n: int): (ix': Indexer)
    requires Valid(b)
    ensures |ix'.cache| == |ix.cache| && ix'.doCache == ix.doCache && ix'.end == EndAnchor(b)
    ensures forall i :: 0 <= i < |ix.cache| && (ix.cache[i].line < sL || (ix.cache[i].line == sL && ix.cache[i].off < sO)) ==>
      ix'.cache[i] == ix.cache[i]
    ensures forall i :: 0 <= i < |ix.cache| && ix.cache[i].line > sL ==>
      ix'.cache[i] == Anchor(ix.cache[i].line + (eL - sL), ix.cache[i].off, ix.cache[i].index + n)
  {
    Indexer(seq(|ix.cache|, i requires 0 <= i < |ix.cache| => ShiftForInsert(ix.cache[i], sL, sO, eL, eO, n)), ix.doCache, EndAnchor(b))
  }

  /** The condition under which `afterInsert` is right for every cached
      anchor: each anchor on the start line lies before the insertion point,
      or exactly at it when the buffer performs the insert as a splice (the
      text has no line feed, or the point is the row's end). */
  predicate InsertSafe(ix: Indexer, rows: seq<seq<char>>, line: int, off: int, text: seq<char>)
    requires 1 <= line <= |rows|
  {
    forall i :: 0 <= i < |ix.cache| && ix.cache[i].line == line ==>
      ix.cache[i].off < off || (ix.cache[i].off == off && (CountChar(text, LF) == 0 || off == |rows[line - 1]|))
  }

  /** An insert keeps the indexer coherent whenever `InsertSafe` holds; the
      insert need not be a splice when no anchor sits at the point. */
  lemma InsertKeepsCoherent(ix: Indexer, b: Buffer, b': Buffer, line: int, off: int, text: seq<char>)
    requires Coherent(ix, b) && ValidPos(b.rows, line, off)
    requires InsertSafe(ix, b.rows, line, off, text)
    requires Valid(b') && |Split(text)| >= 1
    requires b'.rows == InsertRows(b.rows, line, off, Split(text)) && b'.length == b.length + |text|
    ensures var (eL, eO) := InsertEnd(line, off, Split(text));
      Coherent(OnInsert(ix, b', line, off, eL, eO, |text|), b')
  {
    var (eL, eO) := InsertEnd(line, off, Split(text));
    var ix' := OnInsert(ix, b', line, off, eL, eO, |text|);
    forall i | 0 <= i < |ix'.cache|
      ensures AnchorOk(b'.rows, ix'.cache[i])
    {
      ShiftedAnchorOk(b.rows, line, off, text, ix.cache[i], eL, eO);
    }
  }

  /** Any insert, including a multi-line one in the middle of a row, keeps
      the indexer coherent when every cached anchor on the start line lies
      strictly before the insertion point. */
  lemma InsertBeforeAnchorsKeepsCoherent(ix: Indexer, b: Buffer, b': Buffer, line: int, off: int, text: seq<char>)
    requires Coherent(ix, b) && ValidPos(b.rows, line, off)
    requires forall i :: 0 <= i < |ix.cache| && ix.cache[i].line == line ==> ix.cache[i].off < off
    requires Valid(b') && |Split(text)| >= 1
    requires b'.rows == InsertRows(b.rows, line, off, Split(text)) && b'.length == b.length + |text|
    ensures var (eL, eO) := InsertEnd(line, off, Split(text));
      Coherent(OnInsert(ix, b', line, off, eL, eO, |text|), b')
  {
    InsertKeepsCoherent(ix, b, b', line, off, text);
  }

  /** One anchor through `ShiftForInsert`: still correct for the inserted
      rows when it lies before the insertion point, on a later line, or at
      the point of a splice insert. */
  lemma ShiftedAnchorOk(rows: seq<seq<char>>, line: int, off: int, text: seq<char>, a: Anchor, eL: int, eO: int)
    requires ValidPos(rows, line, off) && AnchorOk(rows, a)
    requires a.line == line ==> a.off < off || (a.off == off && (CountChar(text, LF) == 0 || off == |rows[line - 1]|))
    requires |Split(text)| >= 1 && (eL, eO) == InsertEnd(line, off, Split(text))
    ensures AnchorOk(InsertRows(rows, line, off, Split(text)), ShiftForInsert(a, line, off, eL, eO, |text|))
  {
    if a.line < line || (a.line == line && a.off < off) {
      EarlierAnchorOk(rows, line, off, text, a, eL, eO);
    } else if a.line > line {
      LaterAnchorOk(rows, line, off, text, a, eL, eO);
    } else {
      PointAnchorOk(rows, line, off, text, a, eL, eO);
    }
  }

  lemma EarlierAnchorOk(rows: seq<seq<char>>, line: int, off: int, text: seq<char>, a: Anchor, eL: int, eO: int)
    requires ValidPos(rows, line, off) && AnchorOk(rows, a) && (a.line < line || (a.line == line && a.off < off))
    requires |Split(text)| >= 1
    ensures AnchorOk(InsertRows(rows, line, off, Split(text)), ShiftForInsert(a, line, off, eL, eO, |text|))
  {
    InsertKeepsEarlier(rows, line, off, text, a.line, a.off);
    assert ShiftForInsert(a, line, off, eL, eO, |text|) == a;
  }

  lemma LaterAnchorOk(rows: seq<seq<char>>, line: int, off: int, text: seq<char>, a: Anchor, eL: int, eO: int)
    requires ValidPos(rows, line, off) && AnchorOk(rows, a) && a.line > line
    requires |Split(text)| >= 1 && (eL, eO) == InsertEnd(line, off, Split(text))
    ensures AnchorOk(InsertRows(rows, line, off, Split(text)), ShiftForInsert(a, line, off, eL, eO, |text|))
  {
    SplitCount(text);
    InsertShiftsLater(rows, line, off, text, a.line, a.off);
    assert ShiftForInsert(a, line, off, eL, eO, |text|) == Anchor(a.line + CountChar(text, LF), a.off, a.index + |text|);
  }

  lemma PointAnchorOk(rows: seq<seq<char>>, line: int, off: int, text: seq<char>, a: Anchor, eL: int, eO: int)
    requires ValidPos(rows, line, off) && AnchorOk(rows, a) && a.line == line && a.off == off
    requires CountChar(text, LF) == 0 || off == |rows[line - 1]|
    requires |Split(text)| >= 1 && (eL, eO) == InsertEnd(line, off, Split(text))
    ensures AnchorOk(InsertRows(rows, line, off, Split(text)), ShiftForInsert(a, line, off, eL, eO, |text|))
  {
    InsertEndOffset(rows, line, off, text);
    assert ShiftForInsert(a, line, off, eL, eO, |text|) == Anchor(eL, eO, a.index + |text|);
  }

  /** The offset formula of `afterInsert` mirrors anchors after the
      insertion point: `"x"` typed at the start of `"ab"` sends the cached
      end-of-line anchor `(1, 2, 2)` to offset -1 rather than 3. */
  lemma InsertMisplacesLaterAnchor()
    ensures var ix' := OnInsert(Indexer([Anchor(1, 2, 2)], true, Anchor(1, 2, 2)), Buffer(["xab"], 3), 1, 0, 1, 1, 1);
      ix'.cache[0] == Anchor(1, -1, 3) && !AnchorOk(["xab"], ix'.cache[0])
  {
  }

  /** `afterDelete`'s eviction test. An anchor on the start line is evicted
      when its offset is at least the start LINE number (the source compares
      `row` with `startColumn`); an anchor after the start line up to the end
      line is evicted. */
  predicate EvictedByDelete(a: Anchor, sL: int, eL: int)
  {
    (a.line == sL && a.off >= sL) || (sL < a.line <= eL)
  }

  /** `afterDelete` on an anchor it keeps: lines after both the start and
      the end line move up by the removed lines and lose `n` indices. */
  function ShiftForDelete(a: Anchor, sL: int, eL: int, n: int): Anchor
  {
    if a.line > sL && a.line > eL then Anchor(a.line - (eL - sL), a.off, a.index - n) else a
  }

  /** The cache's `removeAll` in `afterDelete`: every element equal to a
      listed one goes, the rest keep their order. */
  function RemoveAll(c: seq<Anchor>, gone: set<Anchor>): (r: seq<Anchor>)
    ensures |r| <= |c|
    ensures forall a :: a in r <==> a in c && a !in gone
  {
    if c == [] then []
    else (if c[0] in gone then [] else [c[0]]) + RemoveAll(c[1..], gone)
  }

  /** `a` is the shifted value of some anchor the eviction test keeps. */
  predicate ShiftedKept(c: seq<Anchor>, a: Anchor, sL: int, eL: int, n: int)
  {
    exists i :: 0 <= i < |c| && !EvictedByDelete(c[i], sL, eL) && a == ShiftForDelete(c[i], sL, eL, n)
  }

  /** Anchor `i` is kept by `afterDelete`: it is not evicted, and its
      shifted value equals no evicted anchor (`removeAll` compares values). */
  predicate Survives(c: seq<Anchor>, i: int, sL: int, eL: int, n: int)
    requires 0 <= i < |c|
  {
    && !EvictedByDelete(c[i], sL, eL)
    && forall j :: 0 <= j < |c| && EvictedByDelete(c[j], sL, eL) ==> c[j] != ShiftForDelete(c[i], sL, eL, n)
  }

  /** The indexer's `afterDelete` handler: anchors are shifted in place,
      then every cached value equal to an evicted anchor is removed, and the
      end anchor is re-read from the edited buffer. */
  function OnDelete(ix: Indexer, b: Buffer, sL: int, sO: int, eL: int, eO: int, n: int): (ix': Indexer)
    requires Valid(b)
    ensures |ix'.cache| <= |ix.cache| && ix'.doCache == ix.doCache && ix'.end == EndAnchor(b)
    ensures forall a :: a in ix'.cache ==> ShiftedKept(ix.cache, a, sL, eL, n)
    ensures forall i :: 0 <= i < |ix.cache| && Survives(ix.cache, i, sL, eL, n) ==> ShiftForDelete(ix.cache[i], sL, eL, n) in ix'.cache
    ensures forall i :: 0 <= i < |ix.cache| && EvictedByDelete(ix.cache[i], sL, eL) ==> ix.cache[i] !in ix'.cache
  {
    var gone := set i | 0 <= i < |ix.cache| && EvictedByDelete(ix.cache[i], sL, eL) :: ix.cache[i];
    var shifted := seq(|ix.cache|, i requires 0 <= i < |ix.cache| => ShiftForDelete(ix.cache[i], sL, eL, n));
    var c := RemoveAll(shifted, gone);
    forall a | a in c
      ensures ShiftedKept(ix.cache, a, sL, eL, n)
    {
      var i :| 0 <= i < |shifted| && shifted[i] == a;
      assert !EvictedByDelete(ix.cache[i], sL, eL);
    }
    forall i | 0 <= i < |ix.cache| && Survives(ix.cache, i, sL, eL, n)
      ensures ShiftForDelete(ix.cache[i], sL, eL, n) in c
    {
      assert shifted[i] in shifted;
    }
    Indexer(c, ix.doCache, EndAnchor(b))
  }

  /** One kept anchor through `ShiftForDelete`: still correct for the rows
      an in-order delete leaves, unless it sat on the start line after the
      start offset without being evicted. */
  lemma DeletedAnchorOk(rows: seq<seq<char>>, sL: int, sO: int, eL: int, eO: int, x: Anchor, n: int, a: Anchor)
    requires ValidPos(rows, sL, sO) && ValidPos(rows, eL, eO) && sL <= eL && (sL == eL ==> sO <= eO)
    requires AnchorOk(rows, x) && !EvictedByDelete(x, sL, eL)
    requires x.line == sL ==> x.off <= sO
    requires n == Offset(rows, eL, eO) - Offset(rows, sL, sO) && a == ShiftForDelete(x, sL, eL, n)
    ensures AnchorOk(DeleteRows(rows, sL, sO, eL, eO), a)
  {
    if x.line <= sL {
      DeletedEarlierOk(rows, sL, sO, eL, eO, x, n, a);
    } else {
      DeletedLaterOk(rows, sL, sO, eL, eO, x, n, a);
    }
  }

  lemma DeletedEarlierOk(rows: seq<seq<char>>, sL: int, sO: int, eL: int, eO: int, x: Anchor, n: int, a: Anchor)
    requires ValidPos(rows, sL, sO) && ValidPos(rows, eL, eO) && sL <= eL && (sL == eL ==> sO <= eO)
    requires AnchorOk(rows, x) && (x.line < sL || (x.line == sL && x.off <= sO))
    requires a == ShiftForDelete(x, sL, eL, n)
    ensures AnchorOk(DeleteRows(rows, sL, sO, eL, eO), a)
  {
    DeleteKeepsEarlier(rows, sL, sO, eL, eO, x.line, x.off);
    assert a == x;
  }

  lemma DeletedLaterOk(rows: seq<seq<char>>, sL: int, sO: int, eL: int, eO: int, x: Anchor, n: int, a: Anchor)
    requires ValidPos(rows, sL, sO) && ValidPos(rows, eL, eO) && sL <= eL
    requires AnchorOk(rows, x) && x.line > eL
    requires n == Offset(rows, eL, eO) - Offset(rows, sL, sO) && a == ShiftForDelete(x, sL, eL, n)
    ensures AnchorOk(DeleteRows(rows, sL, sO, eL, eO), a)
  {
    var rows', l' := DeleteRows(rows, sL, sO, eL, eO), x.line - (eL - sL);
    DeleteShiftsLater(rows, sL, sO, eL, eO, x.line, x.off);
    assert ValidPos(rows', l', x.off) && Offset(rows', l', x.off) == x.index - n;
    assert a == Anchor(l', x.off, x.index - n);
  }

  /** An in-order delete keeps the indexer coherent, provided every anchor
      the eviction test keeps on the start line lies at or before the start
      offset. */
  lemma DeleteKeepsCoherent(ix: Indexer, b: Buffer, b': Buffer, sL: int, sO: int, eL: int, eO: int, text: seq<char>)
    requires Coherent(ix, b) && ValidPos(b.rows, sL, sO) && ValidPos(b.rows, eL, eO)
    requires sL <= eL && (sL == eL ==> sO <= eO)
    requires forall i :: 0 <= i < |ix.cache| && ix.cache[i].line == sL && !EvictedByDelete(ix.cache[i], sL, eL) ==> ix.cache[i].off <= sO
    requires Valid(b') && b'.rows == DeleteRows(b.rows, sL, sO, eL, eO)
    requires |text| == Offset(b.rows, eL, eO) - Offset(b.rows, sL, sO)
    ensures Coherent(OnDelete(ix, b', sL, sO, eL, eO, |text|), b')
  {
    var c' := OnDelete(ix, b', sL, sO, eL, eO, |text|).cache;
    forall k | 0 <= k < |c'|
      ensures AnchorOk(b'.rows, c'[k])
    {
      assert c'[k] in c';
      KeptAnchorOk(ix.cache, b.rows, sL, sO, eL, eO, c'[k]);
    }
  }

  /** A value the delete handler keeps came from a correct anchor, so it is
      correct for the rows the delete leaves. */
  lemma KeptAnchorOk(c: seq<Anchor>, rows: seq<seq<char>>, sL: int, sO: int, eL: int, eO: int, a: Anchor)
    requires ValidPos(rows, sL, sO) && ValidPos(rows, eL, eO) && sL <= eL && (sL == eL ==> sO <= eO)
    requires forall i :: 0 <= i < |c| ==> AnchorOk(rows, c[i])
    requires forall i :: 0 <= i < |c| && c[i].line == sL && !EvictedByDelete(c[i], sL, eL) ==> c[i].off <= sO
    requires ShiftedKept(c, a, sL, eL, Offset(rows, eL, eO) - Offset(rows, sL, sO))
    ensures AnchorOk(DeleteRows(rows, sL, sO, eL, eO), a)
  {
    var n := Offset(rows, eL, eO) - Offset(rows, sL, sO);
    var i := KeptWitness(c, a, sL, eL, n);
    var x := c[i];
    assert AnchorOk(rows, x);
    assert x.line == sL ==> x.off <= sO;
    DeletedAnchorOk(rows, sL, sO, eL, eO, x, n, a);
  }

  lemma KeptWitness(c: seq<Anchor>, a: Anchor, sL: int, eL: int, n: int) returns (i: int)
    requires ShiftedKept(c, a, sL, eL, n)
    ensures 0 <= i < |c| && !EvictedByDelete(c[i], sL, eL) && a == ShiftForDelete(c[i], sL, eL, n)
  {
    i :| 0 <= i < |c| && !EvictedByDelete(c[i], sL, eL) && a == ShiftForDelete(c[i], sL, eL, n);
  }

  /** The merge `deleteCharAt` performs at the end of a non-last row keeps
      the indexer coherent when no anchor lies below that row (anchors on
      later lines keep their line numbers, as the reported span is one
      line). */
  lemma MergeKeepsCoherent(ix: Indexer, b: Buffer, b': Buffer, line: int)
    requires Coherent(ix, b) && 1 <= line < |b.rows|
    requires forall i :: 0 <= i < |ix.cache| ==> ix.cache[i].line <= line
    requires Valid(b') && b'.rows == DeleteRows(b.rows, line, |b.rows[line - 1]|, line + 1, 0)
    ensures Coherent(OnDelete(ix, b', line, |b.rows[line - 1]|, line, |b.rows[line - 1]| + 1, 1), b')
  {
    var n := |b.rows[line - 1]|;
    var c' := OnDelete(ix, b', line, n, line, n + 1, 1).cache;
    forall k | 0 <= k < |c'|
      ensures AnchorOk(b'.rows, c'[k])
    {
      assert c'[k] in c';
      assert ShiftedKept(ix.cache, c'[k], line, line, 1);
      var i :| 0 <= i < |ix.cache| && !EvictedByDelete(ix.cache[i], line, line) && c'[k] == ShiftForDelete(ix.cache[i], line, line, 1);
      assert c'[k] == ix.cache[i];
      assert AnchorOk(b.rows, ix.cache[i]);
      MergedAnchorOk(b.rows, line, ix.cache[i]);
    }
  }

  lemma MergedAnchorOk(rows: seq<seq<char>>, line: int, a: Anchor)
    requires 1 <= line < |rows| && AnchorOk(rows, a) && a.line <= line
    ensures AnchorOk(DeleteRows(rows, line, |rows[line - 1]|, line + 1, 0), a)
  {
    DeleteKeepsEarlier(rows, line, |rows[line - 1]|, line + 1, 0, a.line, a.off);
  }

  /** The eviction test compares the offset with the start line number:
      deleting the only character of line 2 of `["", "a"]` (the span from
      `(2, 0)` to `(2, 1)`) keeps the cached anchor `(2, 1, 2)`, which no
      longer names a position of `["", ""]`. */
  lemma DeleteKeepsStaleAnchor()
    ensures Valid(Buffer(["", "a"], 2)) && Valid(Buffer(["", ""], 1))
    ensures var ix := Indexer([Anchor(2, 1, 2)], true, Anchor(2, 1, 2));
      && Coherent(ix, Buffer(["", "a"], 2))
      && DeleteRows(["", "a"], 2, 0, 2, 1) == ["", ""]
      && Offset(["", "a"], 2, 1) - Offset(["", "a"], 2, 0) == 1
      && OnDelete(ix, Buffer(["", ""], 1), 2, 0, 2, 1, 1).cache == [Anchor(2, 1, 2)]
      && !AnchorOk(["", ""], Anchor(2, 1, 2))
  {
    StaleDeleteRows();
    StaleDeleteCache();
  }

  lemma StaleDeleteRows()
    ensures Valid(Buffer(["", "a"], 2)) && Valid(Buffer(["", ""], 1))
    ensures Coherent(Indexer([Anchor(2, 1, 2)], true, Anchor(2, 1, 2)), Buffer(["", "a"], 2))
    ensures DeleteRows(["", "a"], 2, 0, 2, 1) == ["", ""]
    ensures Offset(["", "a"], 2, 1) - Offset(["", "a"], 2, 0) == 1
  {
    var rows: seq<seq<char>> := ["", "a"];
    assert rows[..1] == [""] && [""][..0] == [];
    assert SumLen(rows) == 1;
    assert rows[1][..0] + rows[1][1..] == [];
    assert rows[..1] + [[]] + rows[2..] == ["", ""];
    var after: seq<seq<char>> := ["", ""];
    assert after[..1] == [""];
    assert SumLen(after) == 0;
  }

  lemma StaleDeleteCache()
    ensures Valid(Buffer(["", ""], 1))
    ensures OnDelete(Indexer([Anchor(2, 1, 2)], true, Anchor(2, 1, 2)), Buffer(["", ""], 1), 2, 0, 2, 1, 1).cache == [Anchor(2, 1, 2)]
    ensures !AnchorOk(["", ""], Anchor(2, 1, 2))
  {
    var after: seq<seq<char>> := ["", ""];
    assert after[..1] == [""] && [""][..0] == [];
    assert SumLen(after) == 0;
    var ix := Indexer([Anchor(2, 1, 2)], true, Anchor(2, 1, 2));
    var c := OnDelete(ix, Buffer(after, 1), 2, 0, 2, 1, 1).cache;
    assert Survives(ix.cache, 0, 2, 2, 1);
    assert Anchor(2, 1, 2) in c;
    forall a | a in c
      ensures a == Anchor(2, 1, 2)
    {
      assert ShiftedKept(ix.cache, a, 2, 2, 1);
    }
    SingletonCache(c, Anchor(2, 1, 2));
  }

  /** `deleteCharAt` reports a merge of two rows as a one-line span, so the
      handler does not move anchors of the merged row up: removing the line
      feed of `["a", "b"]` reports `(1, 1)` to `(1, 2)`, and the cached
      `(2, 1, 3)` becomes `(2, 1, 2)` in the one-row `["ab"]`. */
  lemma MergeKeepsStaleAnchor()
    ensures Valid(Buffer(["a", "b"], 3)) && Valid(Buffer(["ab"], 2))
    ensures var ix := Indexer([Anchor(2, 1, 3)], true, Anchor(2, 1, 3));
      && Coherent(ix, Buffer(["a", "b"], 3))
      && DeleteCharAt(Buffer(["a", "b"], 3), 1, 1) == Success((Buffer(["ab"], 2), AfterDelete(1, 1, 1, 2, [LF])))
      && OnDelete(ix, Buffer(["ab"], 2), 1, 1, 1, 2, 1).cache == [Anchor(2, 1, 2)]
      && !AnchorOk(["ab"], Anchor(2, 1, 2))
  {
    MergeRows();
    MergeCache();
  }

  lemma MergeRows()
    ensures Valid(Buffer(["a", "b"], 3)) && Valid(Buffer(["ab"], 2))
    ensures Coherent(Indexer([Anchor(2, 1, 3)], true, Anchor(2, 1, 3)), Buffer(["a", "b"], 3))
    ensures DeleteCharAt(Buffer(["a", "b"], 3), 1, 1) == Success((Buffer(["ab"], 2), AfterDelete(1, 1, 1, 2, [LF])))
  {
    var rows: seq<seq<char>> := ["a", "b"];
    assert rows[..1] == ["a"] && ["a"][..0] == [];
    assert SumLen(rows) == 2;
    assert ["ab"][..0] == [];
    assert SumLen(["ab"]) == 2;
    assert rows[0] + rows[1] == "ab";
    assert rows[..0] + ["ab"] + rows[2..] == ["ab"];
    assert CheckCharPosition(Buffer(rows, 3), 1, 1).None?;
  }

  lemma MergeCache()
    ensures Valid(Buffer(["ab"], 2))
    ensures OnDelete(Indexer([Anchor(2, 1, 3)], true, Anchor(2, 1, 3)), Buffer(["ab"], 2), 1, 1, 1, 2, 1).cache == [Anchor(2, 1, 2)]
    ensures !AnchorOk(["ab"], Anchor(2, 1, 2))
  {
    assert ["ab"][..0] == [];
    assert SumLen(["ab"]) == 2;
    var ix := Indexer([Anchor(2, 1, 3)], true, Anchor(2, 1, 3));
    var c := OnDelete(ix, Buffer(["ab"], 2), 1, 1, 1, 2, 1).cache;
    assert Survives(ix.cache, 0, 1, 1, 1);
    assert Anchor(2, 1, 2) in c;
    forall a | a in c
      ensures a == Anchor(2, 1, 2)
    {
      assert ShiftedKept(ix.cache, a, 1, 1, 1);
    }
    SingletonCache(c, Anchor(2, 1, 2));
  }

  lemma SingletonCache(c: seq<Anchor>, a: Anchor)
    requires |c| <= 1 && a in c && forall x | x in c :: x == a
    ensures c == [a]
  {
  }
}

=== FILE: lines.dfy ===
/** The flat view of a buffer: its rows joined by one separator between
    neighbours, the 1-based line numbering and 0-based offsets into it, and
    splitting flat text back into rows. */
module Lines {

  const LF: char := '\n'
  const CR: char := '\r'

  /** Total number of characters stored in the rows (separators excluded). */
  function SumLen(rows: seq<seq<char>>): nat
  {
    if |rows| == 0 then 0 else SumLen(rows[..|rows| - 1]) + |rows[|rows| - 1]|
  }

  /** Every row followed by `sep`. */
  function Terminated(rows: seq<seq<char>>, sep: seq<char>): seq<char>
  {
    if |rows| == 0 then [] else Terminated(rows[..|rows| - 1], sep) + rows[|rows| - 1] + sep
  }

  /** The rows with `sep` between adjacent ones and none at the end. */
  function Join(rows: seq<seq<char>>, sep: seq<char>): seq<char>
    requires |rows| >= 1
  {
    Terminated(rows[..|rows| - 1], sep) + rows[|rows| - 1]
  }

  /** The flat text: rows joined with line feeds. */
  function Text(rows: seq<seq<char>>): seq<char>
    requires |rows| >= 1
  {
    Join(rows, [LF])
  }

  /** The buffer length: stored characters plus one virtual separator per
      boundary between rows. */
  function Size(rows: seq<seq<char>>): nat
    requires |rows| >= 1
  {
    SumLen(rows) + |rows| - 1
  }

  /** Flat index of the first character of 1-based line `line`: the sum of
      `|row| + 1` over the lines before it. */
  function LineStart(rows: seq<seq<char>>, line: int): nat
    requires 1 <= line <= |rows|
  {
    SumLen(rows[..line - 1]) + line - 1
  }

  /** Flat index of `(line, off)`. */
  function Offset(rows: seq<seq<char>>, line: int, off: int): int
    requires 1 <= line <= |rows|
  {
    LineStart(rows, line) + off
  }

  /** Whether `(line, off)` addresses a character or the end of a line. */
  predicate ValidPos(rows: seq<seq<char>>, line: int, off: int)
  {
    1 <= line <= |rows| && 0 <= off <= |rows[line - 1]|
  }

  predicate NoLF(s: seq<char>)
  {
    forall i :: 0 <= i < |s| ==> s[i] != LF
  }

  predicate RowsNoLF(rows: seq<seq<char>>)
  {
    forall i :: 0 <= i < |rows| ==> NoLF(rows[i])
  }

  /** The flat text contributed by rows that follow others: a line feed and
      their join, or nothing when there are none. */
  function Trailer(rows: seq<seq<char>>): seq<char>
  {
    if |rows| == 0 then [] else [LF] + Join(rows, [LF])
  }

  /** What follows line `line` in the flat text. */
  function Rest(rows: seq<seq<char>>, line: int): seq<char>
    requires 1 <= line <= |rows|
  {
    Trailer(rows[line..])
  }

  /** Splits text at every line feed; the result always has one more piece
      than the text has line feeds. */
  function Split(s: seq<char>): seq<seq<char>>
  {
    if |s| == 0 then [[]]
    else
      var p := Split(s[..|s| - 1]);
      if s[|s| - 1] == LF then p + [[]]
      else if |p| == 0 then [[s[|s| - 1]]]
      else p[..|p| - 1] + [p[|p| - 1] + [s[|s| - 1]]]
  }

  function CountChar(s: seq<char>, c: char): nat
  {
    if |s| == 0 then 0 else CountChar(s[..|s| - 1], c) + (if s[|s| - 1] == c then 1 else 0)
  }

  /** The text with every line feed replaced by `sep`. */
  function ReplaceLF(s: seq<char>, sep: seq<char>): seq<char>
  {
    if |s| == 0 then []
    else ReplaceLF(s[..|s| - 1], sep) + (if s[|s| - 1] == LF then sep else [s[|s| - 1]])
  }

  lemma {:induction false} SumLenConcat(a: seq<seq<char>>, b: seq<seq<char>>)
    ensures SumLen(a + b) == SumLen(a) + SumLen(b)
    decreases |b|
  {
    if |b| == 0 {
      assert a + b == a;
    } else {
      var b' := b[..|b| - 1];
      assert (a + b)[..|a + b| - 1] == a + b';
      SumLenConcat(a, b');
    }
  }

  lemma {:induction false} TerminatedLength(rows: seq<seq<char>>, sep: seq<char>)
    ensures |Terminated(rows, sep)| == SumLen(rows) + |rows| * |sep|
    decreases |rows|
  {
    if |rows| > 0 {
      TerminatedLength(rows[..|rows| - 1], sep);
    }
  }

  /** With a one-character separator, the terminated rows are one character
      longer per row than their contents. */
  lemma TerminatedLengthLF(rows: seq<seq<char>>)
    ensures |Terminated(rows, [LF])| == SumLen(rows) + |rows|
  {
    TerminatedLength(rows, [LF]);
  }

  lemma {:induction false} TerminatedConcat(a: seq<seq<char>>, b: seq<seq<char>>, sep: seq<char>)
    ensures Terminated(a + b, sep) == Terminated(a, sep) + Terminated(b, sep)
    decreases |b|
  {
    if |b| == 0 {
      assert a + b == a;
    } else {
      var b' := b[..|b| - 1];
      assert (a + b)[..|a + b| - 1] == a + b';
      TerminatedConcat(a, b', sep);
    }
  }

  /** The joined text is `Σ|row|` characters plus one separator per boundary. */
  lemma JoinLength(rows: seq<seq<char>>, sep: seq<char>)
    requires |rows| >= 1
    ensures |Join(rows, sep)| == SumLen(rows) + (|rows| - 1) * |sep|
  {
    TerminatedLength(rows[..|rows| - 1], sep);
  }

  /** The flat text is exactly as long as the buffer length formula says. */
  lemma TextLength(rows: seq<seq<char>>)
    requires |rows| >= 1
    ensures |Text(rows)| == Size(rows)
  {
    JoinLength(rows, [LF]);
  }

  /** Moving to the next line adds the current line's length plus one. */
  lemma LineStartNext(rows: seq<seq<char>>, line: int)
    requires 1 <= line < |rows|
    ensures LineStart(rows, line + 1) == LineStart(rows, line) + |rows[line - 1]| + 1
  {
    assert rows[..line][..line - 1] == rows[..line - 1];
  }

  /** Lines inside a prefix start where they start in the prefix alone. */
  lemma LineStartPrefix(p: seq<seq<char>>, c: seq<seq<char>>, line: int)
    requires 1 <= line <= |p|
    ensures LineStart(p + c, line) == LineStart(p, line) && (p + c)[line - 1] == p[line - 1]
  {
    assert (p + c)[..line - 1] == p[..line - 1];
  }

  /** The flat text around line `line`: the earlier lines each followed by a
      line feed, then the line itself, then the rest. */
  lemma Decompose(rows: seq<seq<char>>, line: int)
    requires 1 <= line <= |rows|
    ensures Text(rows) == Terminated(rows[..line - 1], [LF]) + rows[line - 1] + Rest(rows, line)
    ensures |Terminated(rows[..line - 1], [LF])| == LineStart(rows, line)
  {
    TerminatedLengthLF(rows[..line - 1]);
    if line < |rows| {
      assert rows == rows[..line - 1] + [rows[line - 1]] + rows[line..];
      DecomposeMiddle(rows, rows[..line - 1], rows[line - 1], rows[line..]);
    }
  }

  /** `Decompose` for a line that has lines after it. */
  lemma DecomposeMiddle(rows: seq<seq<char>>, a: seq<seq<char>>, r: seq<char>, tail: seq<seq<char>>)
    requires rows == a + [r] + tail && |tail| >= 1
    ensures Text(rows) == Terminated(a, [LF]) + r + ([LF] + Join(tail, [LF]))
  {
    var n := |rows|;
    var m := tail[..|tail| - 1];
    var last := tail[|tail| - 1];
    assert rows[..n - 1] == (a + [r]) + m;
    assert rows[n - 1] == last;
    TerminatedConcat(a + [r], m, [LF]);
    assert (a + [r])[..|a + [r]| - 1] == a;
    var ta := Terminated(a, [LF]);
    var tm := Terminated(m, [LF]);
    assert Terminated(a + [r], [LF]) == ta + r + [LF];
    assert Text(rows) == (ta + r + [LF]) + tm + last;
    assert Join(tail, [LF]) == tm + last;
    assert (ta + r + [LF]) + tm + last == ta + r + ([LF] + (tm + last));
  }

  /** Cutting the flat text at the flat index of `(line, off)`. */
  lemma Cut(rows: seq<seq<char>>, line: int, off: int)
    requires ValidPos(rows, line, off)
    ensures Offset(rows, line, off) <= |Text(rows)|
    ensures Text(rows)[..Offset(rows, line, off)] == Terminated(rows[..line - 1], [LF]) + rows[line - 1][..off]
    ensures Text(rows)[Offset(rows, line, off)..] == rows[line - 1][off..] + Rest(rows, line)
  {
    Decompose(rows, line);
    var pre := Terminated(rows[..line - 1], [LF]);
    var row := rows[line - 1];
    assert Text(rows) == (pre + row[..off]) + (row[off..] + Rest(rows, line));
  }

  /** The character at flat index `Offset(line, off)` is the row's character,
      or the virtual line feed at the end of a non-last line. */
  lemma CharAt(rows: seq<seq<char>>, line: int, off: int)
    requires ValidPos(rows, line, off)
    requires off < |rows[line - 1]| || line < |rows|
    ensures Offset(rows, line, off) < |Text(rows)|
    ensures Text(rows)[Offset(rows, line, off)] == if off < |rows[line - 1]| then rows[line - 1][off] else LF
  {
    Cut(rows, line, off);
    var t := Text(rows)[Offset(rows, line, off)..];
    assert t == rows[line - 1][off..] + Rest(rows, line);
    assert |t| > 0 && t[0] == Text(rows)[Offset(rows, line, off)];
  }

  /** Line starts grow strictly: every position of an earlier line lies
      before the start of a later one. */
  lemma {:induction false} LineStartAfter(rows: seq<seq<char>>, l1: int, l2: int)
    requires 1 <= l1 < l2 <= |rows|
    ensures LineStart(rows, l2) >= LineStart(rows, l1) + |rows[l1 - 1]| + 1
    decreases l2 - l1
  {
    LineStartNext(rows, l1);
    if l1 + 1 < l2 {
      LineStartAfter(rows, l1 + 1, l2);
    }
  }

  /** A flat index names at most one position: `(line, off)` is determined
      by its flat offset. */
  lemma PositionUnique(rows: seq<seq<char>>, l1: int, o1: int, l2: int, o2: int)
    requires ValidPos(rows, l1, o1) && ValidPos(rows, l2, o2)
    requires Offset(rows, l1, o1) == Offset(rows, l2, o2)
    ensures l1 == l2 && o1 == o2
  {
    if l1 < l2 {
      LineStartAfter(rows, l1, l2);
    } else if l2 < l1 {
      LineStartAfter(rows, l2, l1);
    }
  }

  /** Flat indices order positions as lines first, then offsets. */
  lemma PositionOrder(rows: seq<seq<char>>, l1: int, o1: int, l2: int, o2: int)
    requires ValidPos(rows, l1, o1) && ValidPos(rows, l2, o2)
    ensures Offset(rows, l1, o1) <= Offset(rows, l2, o2) <==> (l1 < l2 || (l1 == l2 && o1 <= o2))
  {
    if l1 < l2 {
      LineStartAfter(rows, l1, l2);
    } else if l2 < l1 {
      LineStartAfter(rows, l2, l1);
    }
  }

  /** The last position of the buffer has flat index `Size`. */
  lemma EndOffset(rows: seq<seq<char>>)
    requires |rows| >= 1
    ensures Offset(rows, |rows|, |rows[|rows| - 1]|) == Size(rows)
  {
    assert rows[..|rows| - 1 + 1] == rows;
  }

  lemma {:induction false} SplitNonEmpty(s: seq<char>)
    ensures |Split(s)| >= 1
    decreases |s|
  {
    if |s| > 0 {
      SplitNonEmpty(s[..|s| - 1]);
    }
  }

  /** Joining the pieces of a split with line feeds gives the text back. */
  lemma {:induction false} JoinSplit(s: seq<char>)
    ensures |Split(s)| >= 1
    ensures Text(Split(s)) == s
    decreases |s|
  {
    SplitNonEmpty(s);
    if |s| > 0 {
      var s' := s[..|s| - 1];
      var p := Split(s');
      JoinSplit(s');
      var c := s[|s| - 1];
      if c == LF {
        var q := p + [[]];
        assert q[..|q| - 1] == p;
        assert Text(q) == Terminated(p, [LF]);
        assert Terminated(p, [LF]) == Terminated(p[..|p| - 1], [LF]) + p[|p| - 1] + [LF];
      } else {
        var q := p[..|p| - 1] + [p[|p| - 1] + [c]];
        assert q[..|q| - 1] == p[..|p| - 1];
      }
      assert s == s' + [c];
    }
  }

  /** No piece of a split contains a line feed. */
  lemma {:induction false} SplitNoLF(s: seq<char>)
    ensures RowsNoLF(Split(s))
    decreases |s|
  {
    if |s| > 0 {
      SplitNoLF(s[..|s| - 1]);
      SplitNonEmpty(s[..|s| - 1]);
    }
  }

  /** The pieces of `s` hold its characters apart from the line feeds
      between them. */
  lemma SplitSize(s: seq<char>)
    ensures |Split(s)| >= 1 && Size(Split(s)) == |s|
  {
    JoinSplit(s);
    TextLength(Split(s));
  }

  /** A split has one more piece than the text has line feeds. */
  lemma {:induction false} SplitCount(s: seq<char>)
    ensures |Split(s)| == CountChar(s, LF) + 1
    decreases |s|
  {
    if |s| > 0 {
      SplitCount(s[..|s| - 1]);
    }
  }

  /** Text without a line feed splits into itself. */
  lemma SplitOfNoLF(s: seq<char>)
    requires NoLF(s)
    ensures Split(s) == [s]
  {
    SplitAppendNoLF([], s);
    assert [] + s == s;
  }

  /** Appending line-feed-free text only extends the last piece. */
  lemma {:induction false} SplitAppendNoLF(a: seq<char>, b: seq<char>)
    requires NoLF(b)
    ensures |Split(a)| >= 1
    ensures Split(a + b) == Split(a)[..|Split(a)| - 1] + [Split(a)[|Split(a)| - 1] + b]
    decreases |b|
  {
    SplitNonEmpty(a);
    var p := Split(a);
    if |b| == 0 {
      assert a + b == a;
      assert p[|p| - 1] + b == p[|p| - 1];
      assert p == p[..|p| - 1] + [p[|p| - 1]];
    } else {
      SplitAppendNoLF(a, b[..|b| - 1]);
      SplitAppendStep(a, b);
    }
  }

  /** The step of `SplitAppendNoLF`: from the claim for all but the last
      character of `b` to the claim for `b`. */
  lemma SplitAppendStep(a: seq<char>, b: seq<char>)
    requires |b| > 0 && b[|b| - 1] != LF
    requires |Split(a)| >= 1
    requires Split(a + b[..|b| - 1]) == Split(a)[..|Split(a)| - 1] + [Split(a)[|Split(a)| - 1] + b[..|b| - 1]]
    ensures Split(a + b) == Split(a)[..|Split(a)| - 1] + [Split(a)[|Split(a)| - 1] + b]
  {
    var b', c := b[..|b| - 1], b[|b| - 1];
    SnocParts(a, b);
    SplitSnocNoLF(a + b', c);
    ExtendLast(Split(a), Split(a + b'), Split(a + b), b', c, b);
  }

  lemma SnocParts(a: seq<char>, b: seq<char>)
    requires |b| > 0
    ensures a + b == (a + b[..|b| - 1]) + [b[|b| - 1]]
    ensures b[..|b| - 1] + [b[|b| - 1]] == b
  {
    assert b == b[..|b| - 1] + [b[|b| - 1]];
  }

  /** Extending the last piece twice is extending it once by both parts. */
  lemma ExtendLast(p: seq<seq<char>>, q: seq<seq<char>>, r: seq<seq<char>>, b': seq<char>, c: char, b: seq<char>)
    requires |p| >= 1 && q == p[..|p| - 1] + [p[|p| - 1] + b'] && r == q[..|q| - 1] + [q[|q| - 1] + [c]]
    requires b == b' + [c]
    ensures r == p[..|p| - 1] + [p[|p| - 1] + b]
  {
    assert q[..|q| - 1] == p[..|p| - 1];
    assert p[|p| - 1] + b' + [c] == p[|p| - 1] + b;
  }

  /** One more character that is not a line feed extends the last piece. */
  lemma SplitSnocNoLF(x: seq<char>, c: char)
    requires c != LF
    ensures |Split(x)| >= 1
    ensures Split(x + [c]) == Split(x)[..|Split(x)| - 1] + [Split(x)[|Split(x)| - 1] + [c]]
  {
    SplitNonEmpty(x);
    assert (x + [c])[..|x + [c]| - 1] == x;
  }

  /** Splitting the flat text of line-feed-free rows gives the rows back. */
  lemma {:induction false} SplitJoin(rows: seq<seq<char>>)
    requires |rows| >= 1 && RowsNoLF(rows)
    ensures Split(Text(rows)) == rows
    decreases |rows|
  {
    var n := |rows|;
    var last := rows[n - 1];
    if n == 1 {
      SplitOfNoLF(last);
      assert Text(rows) == last;
    } else {
      SplitJoin(rows[..n - 1]);
      SplitJoinStep(rows);
    }
  }

  /** The step of `SplitJoin`: from the rows but the last to all rows. */
  lemma SplitJoinStep(rows: seq<seq<char>>)
    requires |rows| >= 2 && RowsNoLF(rows)
    requires Split(Text(rows[..|rows| - 1])) == rows[..|rows| - 1]
    ensures Split(Text(rows)) == rows
  {
    var n := |rows|;
    var init, last := rows[..n - 1], rows[n - 1];
    var a := Text(init) + [LF];
    TextSnoc(rows);
    SplitSnocLF(Text(init));
    assert NoLF(last);
    SplitAppendNoLF(a, last);
    LastPieceGrows(init, last, rows);
  }

  /** The flat text of two or more rows: the text of all but the last, a
      line feed, and the last row. */
  lemma TextSnoc(rows: seq<seq<char>>)
    requires |rows| >= 2
    ensures Text(rows) == (Text(rows[..|rows| - 1]) + [LF]) + rows[|rows| - 1]
  {
    var n := |rows|;
    var init := rows[..n - 1];
    assert Terminated(init, [LF]) == Text(init) + [LF] by {
      assert init[..|init| - 1] == rows[..n - 2];
    }
  }

  /** Splitting after one more line feed opens an empty last piece. */
  lemma SplitSnocLF(p: seq<char>)
    ensures Split(p + [LF]) == Split(p) + [[]]
  {
    assert (p + [LF])[..|p|] == p;
  }

  lemma LastPieceGrows(init: seq<seq<char>>, last: seq<char>, rows: seq<seq<char>>)
    requires |rows| >= 1 && init == rows[..|rows| - 1] && last == rows[|rows| - 1]
    ensures (init + [[]])[..|init + [[]]| - 1] + [(init + [[]])[|init + [[]]| - 1] + last] == rows
  {
    assert (init + [[]])[..|init|] == init;
    assert [] + last == last;
  }

  /** Replacement distributes over concatenation. */
  lemma {:induction false} ReplaceConcat(a: seq<char>, b: seq<char>, sep: seq<char>)
    ensures ReplaceLF(a + b, sep) == ReplaceLF(a, sep) + ReplaceLF(b, sep)
    decreases |b|
  {
    if |b| == 0 {
      assert a + b == a;
    } else {
      var b' := b[..|b| - 1];
      assert (a + b)[..|a + b| - 1] == a + b';
      ReplaceConcat(a, b', sep);
    }
  }

  lemma {:induction false} ReplaceNoLF(s: seq<char>, sep: seq<char>)
    requires NoLF(s)
    ensures ReplaceLF(s, sep) == s
    decreases |s|
  {
    if |s| > 0 {
      ReplaceNoLF(s[..|s| - 1], sep);
    }
  }

  lemma {:induction false} TerminatedReplace(rows: seq<seq<char>>, sep: seq<char>)
    requires RowsNoLF(rows)
    ensures Terminated(rows, sep) == ReplaceLF(Terminated(rows, [LF]), sep)
    decreases |rows|
  {
    if |rows| > 0 {
      var init := rows[..|rows| - 1];
      var last := rows[|rows| - 1];
      TerminatedReplace(init, sep);
      ReplaceConcat(Terminated(init, [LF]) + last, [LF], sep);
      ReplaceConcat(Terminated(init, [LF]), last, sep);
      ReplaceNoLF(last, sep);
      assert ReplaceLF([LF], sep) == ReplaceLF([], sep) + sep by {
        assert [LF][..0] == [];
      }
    }
  }

  /** Joining line-feed-free rows with another separator is the flat text
      with each line feed replaced by that separator. */
  lemma JoinIsReplace(rows: seq<seq<char>>, sep: seq<char>)
    requires |rows| >= 1 && RowsNoLF(rows)
    ensures Join(rows, sep) == ReplaceLF(Text(rows), sep)
  {
    var init := rows[..|rows| - 1];
    TerminatedReplace(init, sep);
    ReplaceConcat(Terminated(init, [LF]), rows[|rows| - 1], sep);
    ReplaceNoLF(rows[|rows| - 1], sep);
  }

  /** A terminated list is its join followed by one more separator. */
  lemma TerminatedIsJoin(rows: seq<seq<char>>, sep: seq<char>)
    requires |rows| >= 1
    ensures Terminated(rows, sep) == Join(rows, sep) + sep
  {
  }

  /** The flat text of two consecutive groups of rows, the second one
      non-empty. */
  lemma TextTwo(a: seq<seq<char>>, m: seq<seq<char>>)
    requires |m| >= 1
    ensures Text(a + m) == Terminated(a, [LF]) + Join(m, [LF])
  {
    var all := a + m;
    var m' := m[..|m| - 1];
    assert all[..|all| - 1] == a + m';
    TerminatedConcat(a, m', [LF]);
    assert all[|all| - 1] == m[|m| - 1];
    assert Text(all) == Terminated(a + m', [LF]) + m[|m| - 1];
  }

  /** The flat text of three consecutive groups of rows, the middle one
      non-empty. */
  lemma TextThree(a: seq<seq<char>>, m: seq<seq<char>>, c: seq<seq<char>>)
    requires |m| >= 1
    ensures Text(a + m + c) == Terminated(a, [LF]) + Join(m, [LF]) + Trailer(c)
  {
    if |c| == 0 {
      assert a + m + c == a + m;
      TextTwo(a, m);
    } else {
      TextTwo(a + m, c);
      TerminatedConcat(a, m, [LF]);
      TerminatedIsJoin(m, [LF]);
      var ta, jm, jc := Terminated(a, [LF]), Join(m, [LF]), Join(c, [LF]);
      assert Text(a + m + c) == (ta + (jm + [LF])) + jc;
      assert Trailer(c) == [LF] + jc;
      assert (ta + (jm + [LF])) + jc == ta + jm + ([LF] + jc);
    }
  }

  /** A prefix of the first row can be pulled out of a join. */
  lemma JoinHead(x: seq<char>, y: seq<char>, r: seq<seq<char>>, sep: seq<char>)
    ensures Join([x + y] + r, sep) == x + Join([y] + r, sep)
  {
    if |r| > 0 {
      var r' := r[..|r| - 1];
      assert ([x + y] + r)[..|r|] == [x + y] + r';
      assert ([y] + r)[..|r|] == [y] + r';
      TerminatedConcat([x + y], r', sep);
      TerminatedConcat([y], r', sep);
      assert [x + y][..0] == [] && [y][..0] == [];
    }
  }

  lemma NoLFConcat(a: seq<char>, b: seq<char>)
    requires NoLF(a) && NoLF(b)
    ensures NoLF(a + b)
  {
    forall i | 0 <= i < |a + b|
      ensures (a + b)[i] != LF
    {
      if i < |a| {
        assert (a + b)[i] == a[i];
      } else {
        assert (a + b)[i] == b[i - |a|];
      }
    }
  }

  lemma RowsNoLFConcat(a: seq<seq<char>>, b: seq<seq<char>>)
    requires RowsNoLF(a) && RowsNoLF(b)
    ensures RowsNoLF(a + b)
  {
    forall i | 0 <= i < |a + b|
      ensures NoLF((a + b)[i])
    {
      if i < |a| {
        assert (a + b)[i] == a[i];
      } else {
        assert (a + b)[i] == b[i - |a|];
      }
    }
  }
}

=== FILE: scenarios.dfy ===
/** Concrete runs on the three-line document `"aa\nbcc\na"` that the
    repository's own driver builds. */
module Scenarios {
  import opened Wrappers
  import opened Lines
  import opened Buffers

  const DOC: seq<char> := "aa\nbcc\na"
  const ROWS: seq<seq<char>> := ["aa", "bcc", "a"]

  /** Building a model from the document gives three rows, a length of 8,
      and a second row of length 3. */
  lemma DocumentRows()
    ensures Split(DOC) == ROWS && Text(ROWS) == DOC
    ensures Valid(Buffer(ROWS, |DOC|)) && |DOC| == 8 && |ROWS[1]| == 3
  {
    assert ROWS[..2] == ["aa", "bcc"] && ROWS[..1] == ["aa"] && ROWS[..0] == [];
    assert Join(ROWS[..1], [LF]) == "aa";
    assert Join(ROWS[..2], [LF]) == "aa" + [LF] + "bcc";
    assert Text(ROWS) == "aa" + [LF] + "bcc" + [LF] + "a";
    assert Text(ROWS) == DOC;
    assert ROWS[..1][..0] == [] && ROWS[..2][..1] == ROWS[..1];
    assert SumLen(ROWS[..1]) == 2;
    assert SumLen(ROWS[..2]) == 5;
    assert SumLen(ROWS) == 6;
    assert RowsNoLF(ROWS) by {
      assert NoLF(ROWS[0]) && NoLF(ROWS[1]) && NoLF(ROWS[2]);
    }
    SplitJoin(ROWS);
  }

  /** Deleting from `(2, 1)` to `(3, 1)` removes `"cc\na"` and leaves
      `"aa\nb"`: two rows and a length of 4. */
  lemma DeleteAcrossLines()
    ensures Valid(Buffer(ROWS, 8))
    ensures var r := Delete(Buffer(ROWS, 8), 2, 1, 3, 1);
      && r.Success? && r.value.0.rows == ["aa", "b"] && r.value.0.length == 4
      && r.value.1 == AfterDelete(2, 1, 3, 1, "cc\na")
      && Text(r.value.0.rows) == "aa\nb"
  {
    DocumentRows();
    var r := Delete(Buffer(ROWS, 8), 2, 1, 3, 1);
    assert ROWS[..1] + ["b"] + ROWS[3..] == ["aa", "b"];
    assert ROWS[1][..1] + ROWS[2][1..] == "b";
    assert r.value.0.rows == ["aa", "b"];
    assert LineStart(ROWS, 2) == 3 by {
      assert ROWS[..1] == ["aa"] && ["aa"][..0] == [];
    }
    assert LineStart(ROWS, 3) == 7 by {
      assert ROWS[..2] == ["aa", "bcc"] && ["aa", "bcc"][..1] == ["aa"] && ["aa"][..0] == [];
    }
    assert DOC[4..8] == "cc\na";
    assert Text(["aa", "b"]) == "aa\nb" by {
      assert ["aa", "b"][..1] == ["aa"];
    }
  }

  /** Writing a line feed at the end of line 1 adds exactly one row and
      leaves the rows around it as they were. */
  lemma LineFeedAtEnd()
    ensures Split([LF]) == [[], []]
    ensures InsertRows(ROWS, 1, 2, Split([LF])) == ["aa", "", "bcc", "a"]
  {
    assert [LF][..0] == [];
    assert Split([LF]) == [[], []];
    assert ROWS[0][..2] == "aa" && ROWS[0][2..] == [];
    assert "aa" + [] + [] == "aa";
    assert ROWS[..0] == [] && ROWS[1..] == ["bcc", "a"];
    var pieces: seq<seq<char>> := [[], []];
    assert pieces[1..] == [[]];
  }

  /** Deleting at the end of line 1 merges line 2 into it: one row fewer. */
  lemma MergeAtLineEnd()
    ensures Valid(Buffer(ROWS, 8))
    ensures var r := DeleteCharAt(Buffer(ROWS, 8), 1, 2);
      && r.Success? && r.value.0.rows == ["aabcc", "a"] && r.value.0.length == 7
  {
    DocumentRows();
    assert ROWS[0] + ROWS[1] == "aabcc";
    assert ROWS[..0] + ["aabcc"] + ROWS[2..] == ["aabcc", "a"];
  }
}

=== FILE: text_model.dfy ===
/** The text model as callers use it: a buffer together with the cached
    indexer the buffer creates and registers as an observer. Every edit
    applies the buffer operation and delivers the resulting event to the
    indexer; every flat-index read goes through the indexer first. Other
    observers see the same events and are not modelled. */
module TextModels {
  import opened Wrappers
  import opened Lines
  import opened Buffers
  import opened Indexers

  datatype TextModel = TextModel(buf: Buffer, ix: Indexer)

  /** The buffer is well formed and every anchor the indexer holds is right. */
  predicate Sound(m: TextModel)
  {
    Coherent(m.ix, m.buf)
  }

  /** `TextModel()`: one empty row, length zero, a fresh indexer. */
  function New(): (m: TextModel)
    ensures Sound(m) && Text(m.buf.rows) == [] && m.buf.length == 0 && |m.buf.rows| == 1
  {
    TextModel(Init(), NewIndexer())
  }

  /** `insert(column, row, text)` followed by the indexer's `afterInsert`. */
  method Insert(m: TextModel, line: int, off: int, text: seq<char>) returns (r: Result<TextModel, ModelError>)
    requires Valid(m.buf)
    ensures r.Success? <==> ValidPos(m.buf.rows, line, off)
    ensures r.Failure? ==> Some(r.error) == CheckLineOffset(m.buf, line, off, true)
    ensures r.Success? ==> (|Split(text)| >= 1 && ValidPos(m.buf.rows, line, off) && Valid(r.value.buf) &&
      r.value.buf.rows == InsertRows(m.buf.rows, line, off, Split(text)) &&
      r.value.buf.length == m.buf.length + |text|)
    ensures r.Success? && (NoLF(text) || off == |m.buf.rows[line - 1]|) ==>
      Offset(m.buf.rows, line, off) <= |Text(m.buf.rows)| &&
      Text(r.value.buf.rows) == Text(m.buf.rows)[..Offset(m.buf.rows, line, off)] + text + Text(m.buf.rows)[Offset(m.buf.rows, line, off)..]
    ensures (Sound(m) && ValidPos(m.buf.rows, line, off) && InsertSafe(m.ix, m.buf.rows, line, off, text)) ==>
      r.Success? && Sound(r.value)
    ensures r.Success? ==> var (eL, eO) := InsertEnd(line, off, Split(text));
      r.value.ix == OnInsert(m.ix, r.value.buf, line, off, eL, eO, |text|)
  {
    SplitNonEmpty(text);
    var res := Buffers.Insert(m.buf, line, off, text);
    if res.Failure? {
      return Failure(res.error);
    }
    var (b', ev) := res.value;
    var ix' := OnInsert(m.ix, b', ev.startLine, ev.startOff, ev.endLine, ev.endOff, |ev.text|);
    r := Success(TextModel(b', ix'));
    if NoLF(text) {
      InsertSpliceNoLF(m.buf.rows, line, off, text);
      SplitOfNoLF(text);
      SplitCount(text);
    } else if off == |m.buf.rows[line - 1]| {
      InsertSpliceAtEnd(m.buf.rows, line, text);
    }
    if Sound(m) && InsertSafe(m.ix, m.buf.rows, line, off, text) {
      InsertKeepsCoherent(m.ix, m.buf, b', line, off, text);
    }
  }

  /** `append(text)`: an insert at the end of the last row, which grows the
      flat text by exactly `text` and keeps the indexer sound. */
  method Append(m: TextModel, text: seq<char>) returns (m': TextModel)
    requires Valid(m.buf)
    ensures Valid(m'.buf) && m'.buf.length == m.buf.length + |text|
    ensures Text(m'.buf.rows) == Text(m.buf.rows) + text
    ensures Sound(m) ==> Sound(m')
    ensures m'.ix == OnInsert(m.ix, m'.buf, |m.buf.rows|, |m.buf.rows[|m.buf.rows| - 1]|,
      |m'.buf.rows|, |m'.buf.rows[|m'.buf.rows| - 1]|, |text|)
  {
    var b', ev := Buffers.Append(m.buf, text);
    AppendEnd(m.buf.rows, Split(text));
    m' := TextModel(b', OnInsert(m.ix, b', ev.startLine, ev.startOff, ev.endLine, ev.endOff, |ev.text|));
    if Sound(m) {
      var last := |m.buf.rows|;
      assert InsertSafe(m.ix, m.buf.rows, last, |m.buf.rows[last - 1]|, text) by {
        forall i | 0 <= i < |m.ix.cache| && m.ix.cache[i].line == last
          ensures m.ix.cache[i].off <= |m.buf.rows[last - 1]|
        {
          assert AnchorOk(m.buf.rows, m.ix.cache[i]);
        }
      }
      InsertKeepsCoherent(m.ix, m.buf, b', last, |m.buf.rows[last - 1]|, text);
    }
  }

  /** `TextModel(text)`: a new model with `text` appended; its rows are the
      text's line-feed-separated pieces. */
  method FromText(text: seq<char>) returns (m: TextModel)
    ensures Sound(m) && Text(m.buf.rows) == text && m.buf.length == |text|
    ensures m.buf.rows == Split(text)
    ensures m.ix.cache == [] && m.ix.doCache
  {
    m := Append(New(), text);
    SplitJoin(m.buf.rows);
  }

  /** Loading a text and then inserting anywhere in it keeps the model
      sound: the loaded model caches no anchor, so no anchor can sit on the
      insert's line. */
  method InsertIntoLoaded(text: seq<char>, line: int, off: int, more: seq<char>) returns (r: Result<TextModel, ModelError>)
    ensures r.Success? <==> 1 <= line <= |Split(text)| && 0 <= off <= |Split(text)[line - 1]|
    ensures r.Success? ==> r.value.buf.length == |text| + |more| && Sound(r.value)
  {
    var m := FromText(text);
    r := Insert(m, line, off, more);
  }

  /** The kept anchors on the start line of a delete lie at or before its
      start offset. */
  predicate DeleteSafe(ix: Indexer, sL: int, sO: int, eL: int)
  {
    forall i :: 0 <= i < |ix.cache| && ix.cache[i].line == sL && !EvictedByDelete(ix.cache[i], sL, eL) ==> ix.cache[i].off <= sO
  }

  /** `delete(startColumn, startRow, endColumn, endRow)` followed by the
      indexer's `afterDelete`. */
  function Delete(m: TextModel, sL: int, sO: int, eL: int, eO: int): (r: Result<TextModel, ModelError>)
    requires Valid(m.buf)
    ensures r.Success? <==> (ValidPos(m.buf.rows, sL, sO) && ValidPos(m.buf.rows, eL, eO) && (sL == eL ==> sO <= eO))
    ensures !(1 <= sL <= |m.buf.rows|) ==> r == Failure(LineOutOfBounds(sL))
    ensures 1 <= sL <= |m.buf.rows| && !(1 <= eL <= |m.buf.rows|) ==> r == Failure(LineOutOfBounds(eL))
    ensures r.Success? ==> (ValidPos(m.buf.rows, sL, sO) && ValidPos(m.buf.rows, eL, eO) &&
      Valid(r.value.buf) && r.value.buf.rows == DeleteRows(m.buf.rows, sL, sO, eL, eO))
    ensures r.Success? && sL <= eL ==>
      Offset(m.buf.rows, sL, sO) <= Offset(m.buf.rows, eL, eO) <= |Text(m.buf.rows)| &&
      Text(r.value.buf.rows) == Text(m.buf.rows)[..Offset(m.buf.rows, sL, sO)] + Text(m.buf.rows)[Offset(m.buf.rows, eL, eO)..]
    ensures Sound(m) && r.Success? && sL <= eL && DeleteSafe(m.ix, sL, sO, eL) ==> Sound(r.value)
  {
    match Buffers.Delete(m.buf, sL, sO, eL, eO)
    case Failure(e) => Failure(e)
    case Success((b', ev)) =>
      var ix' := OnDelete(m.ix, b', ev.startLine, ev.startOff, ev.endLine, ev.endOff, |ev.text|);
      assert Sound(m) && sL <= eL && DeleteSafe(m.ix, sL, sO, eL) ==> Coherent(ix', b') by {
        if Sound(m) && sL <= eL && DeleteSafe(m.ix, sL, sO, eL) {
          DeleteKeepsCoherent(m.ix, m.buf, b', sL, sO, eL, eO, ev.text);
        }
      }
      Success(TextModel(b', ix'))
  }

  /** `deleteCharAt(column, row)` followed by the indexer's `afterDelete`.
      The indexer stays sound when the kept anchors on the line lie at or
      before the offset and, for a merge of two rows, no anchor lies below
      the line. */
  function DeleteCharAt(m: TextModel, line: int, off: int): (r: Result<TextModel, ModelError>)
    requires Valid(m.buf)
    ensures r.Success? <==> ValidPos(m.buf.rows, line, off) && (off < |m.buf.rows[line - 1]| || line < |m.buf.rows|)
    ensures r.Failure? ==> Some(r.error) == CheckCharPosition(m.buf, line, off)
    ensures r.Success? ==> (ValidPos(m.buf.rows, line, off) && Offset(m.buf.rows, line, off) < |Text(m.buf.rows)| &&
      Valid(r.value.buf) && r.value.buf.length == m.buf.length - 1 &&
      Text(r.value.buf.rows) == Text(m.buf.rows)[..Offset(m.buf.rows, line, off)] + Text(m.buf.rows)[Offset(m.buf.rows, line, off) + 1..])
    ensures (Sound(m) && r.Success? && DeleteSafe(m.ix, line, off, line) &&
      (off == |m.buf.rows[line - 1]| ==> forall i :: 0 <= i < |m.ix.cache| ==> m.ix.cache[i].line <= line))
      ==> Sound(r.value)
  {
    match Buffers.DeleteCharAt(m.buf, line, off)
    case Failure(e) => Failure(e)
    case Success((b', ev)) =>
      var ix' := OnDelete(m.ix, b', ev.startLine, ev.startOff, ev.endLine, ev.endOff, |ev.text|);
      assert Sound(m) && DeleteSafe(m.ix, line, off, line) && off < |m.buf.rows[line - 1]| ==> Coherent(ix', b') by {
        if Sound(m) && DeleteSafe(m.ix, line, off, line) && off < |m.buf.rows[line - 1]| {
          DeleteOneInRow(m.buf.rows, line, off);
          DeleteKeepsCoherent(m.ix, m.buf, b', line, off, line, off + 1, ev.text);
        }
      }
      assert Sound(m) && off == |m.buf.rows[line - 1]| && (forall i :: 0 <= i < |m.ix.cache| ==> m.ix.cache[i].line <= line) ==>
        Coherent(ix', b') by {
        if Sound(m) && off == |m.buf.rows[line - 1]| && (forall i :: 0 <= i < |m.ix.cache| ==> m.ix.cache[i].line <= line) {
          MergeKeepsCoherent(m.ix, m.buf, b', line);
        }
      }
      Success(TextModel(b', ix'))
  }

  /** `get(index)`: checks `0 <= index < length`, converts the index with
      the indexer, and reads the character there (a line feed at the end of
      a non-last row). */
  method Get(m: TextModel, index: int) returns (r: Result<char, ModelError>, m': TextModel)
    requires Valid(m.buf)
    ensures CheckIndex(m.buf, index, false).Some? ==> r == Failure(CheckIndex(m.buf, index, false).value) && m' == m
    ensures m'.buf == m.buf
    ensures Sound(m) && 0 <= index < m.buf.length ==>
      |Text(m.buf.rows)| == m.buf.length && r == Success(Text(m.buf.rows)[index]) && Sound(m')
    ensures Sound(m) ==> forall a :: a in m'.ix.cache ==> a in m.ix.cache || a.index == index
  {
    var check := CheckIndex(m.buf, index, false);
    if check.Some? {
      return Failure(check.value), m;
    }
    var pos, ix' := IndexToPosition(m.ix, m.buf, index);
    m' := TextModel(m.buf, ix');
    if pos.Failure? {
      return Failure(pos.error), m';
    }
    var a := pos.value;
    if Sound(m) {
      TextLength(m.buf.rows);
      EndOffset(m.buf.rows);
    }
    r := GetAt(m.buf, a.line, a.off);
  }

  /** `subSequence(startIndex, endIndex)`: checks the range, converts both
      ends with the indexer, and slices between the two positions. */
  method SubSequence(m: TextModel, start: int, end: int) returns (r: Result<seq<char>, ModelError>, m': TextModel)
    requires Valid(m.buf)
    ensures CheckRangeIndex(m.buf, start, end).Some? ==> r == Failure(CheckRangeIndex(m.buf, start, end).value) && m' == m
    ensures m'.buf == m.buf
    ensures Sound(m) && 0 <= start < m.buf.length && start <= end <= m.buf.length ==>
      |Text(m.buf.rows)| == m.buf.length && r == Success(Text(m.buf.rows)[start..end]) && Sound(m')
    ensures Sound(m) ==> forall a :: a in m'.ix.cache ==> a in m.ix.cache || a.index == start || a.index == end
  {
    var check := CheckRangeIndex(m.buf, start, end);
    if check.Some? {
      return Failure(check.value), m;
    }
    var p, ix1 := IndexToPosition(m.ix, m.buf, start);
    var q, ix2 := IndexToPosition(ix1, m.buf, end);
    m' := TextModel(m.buf, ix2);
    if p.Failure? {
      return Failure(p.error), m';
    }
    if q.Failure? {
      return Failure(q.error), m';
    }
    var a, z := p.value, q.value;
    if CheckLine(m.buf, a.line).Some? {
      return Failure(CheckLine(m.buf, a.line).value), m';
    }
    if CheckLine(m.buf, z.line).Some? {
      return Failure(CheckLine(m.buf, z.line).value), m';
    }
    if Sound(m) {
      TextLength(m.buf.rows);
      PositionOrder(m.buf.rows, a.line, a.off, z.line, z.off);
    }
    r := SubSequenceInternal(m.buf, a.line, a.off, z.line, z.off);
  }

  /** `clear()`: the buffer is reset without raising an event, so the
      indexer keeps its anchors. */
  function Clear(m: TextModel): (m': TextModel)
    ensures m'.ix == m.ix && Valid(m'.buf) && Text(m'.buf.rows) == [] && m'.buf.length == 0
  {
    TextModel(Buffers.Clear(m.buf), m.ix)
  }

  /** After `clear()` on non-empty text the end anchor still carries the old
      length, so the indexer no longer matches the buffer. */
  lemma ClearLeavesStaleEnd(m: TextModel)
    requires Sound(m) && m.buf.length > 0
    ensures !Sound(Clear(m))
  {
  }
}

=== FILE: text_row.dfy ===
/** One line of text: a growable array of nullable character slots with a
    logical length. Every operation is proved to act on the row's contents as
    the corresponding sequence splice. */
module TextRows {
  import opened Wrappers

  /** Smallest capacity of a row, and the step used when growth is asked for
      without a larger target. */
  const DEFAULT_CAPACITY: int := 16

  /** `value` is the backing array (its size is the capacity); `length` is the
      number of slots in use. */
  datatype TextRow = TextRow(value: seq<Option<char>>, length: int) {

    function Capacity(): nat {
      |value|
    }

    /** Capacity never drops below the default, the logical length fits in the
        array, and every slot below the length holds a character. */
    predicate Valid() {
      && DEFAULT_CAPACITY <= |value|
      && 0 <= length <= |value|
      && forall i :: 0 <= i < length ==> value[i].Some?
    }

    /** The characters of the row: the abstract view every operation is
        specified against. */
    function Contents(): (cs: seq<char>)
      requires Valid()
      ensures |cs| == length
    {
      seq(length, i requires 0 <= i < length => value[i].value)
    }
  }

  function MaxInt(a: int, b: int): int {
    if a < b then b else a
  }

  /** A slots row of the given capacity hint; hints below the default are
      raised to it. */
  function Empty(capacity: int): (row: TextRow)
    ensures row.Valid() && row.Contents() == []
    ensures row.Capacity() == MaxInt(DEFAULT_CAPACITY, capacity)
  {
    TextRow(seq(MaxInt(DEFAULT_CAPACITY, capacity), _ => None), 0)
  }

  /** The index check: `allowEnd` admits `index == length` (an insertion point). */
  function CheckIndex(length: int, index: int, allowEnd: bool): (r: Option<ModelError>)
    ensures r.None? <==> 0 <= index && (if allowEnd then index <= length else index < length)
    ensures r.Some? ==> r.value == IndexOutOfBounds(index)
  {
    if index < 0 then Some(IndexOutOfBounds(index))
    else if allowEnd && index > length then Some(IndexOutOfBounds(index))
    else if !allowEnd && index > length - 1 then Some(IndexOutOfBounds(index))
    else None
  }

  /** The range check: both ends may equal the length; the start is checked
      first, then the end, then their order (reported as `end - start`). */
  function CheckRangeIndex(length: int, start: int, end: int): (r: Option<ModelError>)
    ensures r.None? <==> 0 <= start <= end <= length
    ensures (start < 0 || start > length) ==> r == Some(IndexOutOfBounds(start))
    ensures 0 <= start <= length && (end < 0 || end > length) ==> r == Some(IndexOutOfBounds(end))
    ensures 0 <= start <= length && 0 <= end <= length && start > end ==> r == Some(IndexOutOfBounds(end - start))
  {
    match CheckIndex(length, start, true)
    case Some(e) => Some(e)
    case None =>
      match CheckIndex(length, end, true)
      case Some(e) => Some(e)
      case None => if start > end then Some(IndexOutOfBounds(end - start)) else None
  }

  /** Builds a row holding exactly `cs`, with capacity `max(16, |cs|)`. */
  method FromChars(cs: seq<char>) returns (row: TextRow)
    ensures row.Valid() && row.Contents() == cs
    ensures row.Capacity() == MaxInt(DEFAULT_CAPACITY, |cs|)
  {
    var v := Empty(|cs|).value;
    var k := 0;
    while k < |cs|
      invariant 0 <= k <= |cs|
      invariant |v| == MaxInt(DEFAULT_CAPACITY, |cs|)
      invariant forall j :: 0 <= j < k ==> v[j] == Some(cs[j])
    {
      v := v[k := Some(cs[k])];
      k := k + 1;
    }
    row := TextRow(v, |cs|);
  }

  /** Reads one character. The slot read is always written, so the gap error
      is never produced for a valid row. */
  function Get(row: TextRow, index: int): (r: Result<char, ModelError>)
    requires row.Valid()
    ensures r.Success? <==> 0 <= index < row.length
    ensures r.Success? ==> r.value == row.Contents()[index]
    ensures r.Failure? ==> r.error == IndexOutOfBounds(index)
  {
    match CheckIndex(row.length, index, false)
    case Some(e) => Failure(e)
    case None =>
      match row.value[index]
      case Some(c) => Success(c)
      case None => Failure(TouchedGap(index))
  }

  /** Overwrites one character; only that slot changes. */
  function Set(row: TextRow, index: int, c: char): (r: Result<TextRow, ModelError>)
    requires row.Valid()
    ensures r.Success? <==> 0 <= index < row.length
    ensures r.Failure? ==> r.error == IndexOutOfBounds(index)
    ensures r.Success? ==> r.value.Valid() && r.value.Contents() == row.Contents()[index := c]
    ensures r.Success? ==> r.value.Capacity() == row.Capacity()
  {
    match CheckIndex(row.length, index, false)
    case Some(e) => Failure(e)
    case None =>
      var row' := TextRow(row.value[index := Some(c)], row.length);
      assert row'.Contents() == row.Contents()[index := c];
      Success(row')
  }

  /** Copies the characters in `[start, end)` into a new sequence. */
  method SubSequence(row: TextRow, start: int, end: int) returns (r: Result<seq<char>, ModelError>)
    requires row.Valid()
    ensures r.Success? <==> 0 <= start <= end <= row.length
    ensures r.Failure? ==> Some(r.error) == CheckRangeIndex(row.length, start, end)
    ensures r.Success? ==> r.value == row.Contents()[start..end]
  {
    var check := CheckRangeIndex(row.length, start, end);
    if check.Some? {
      return Failure(check.value);
    }
    if start == end {
      return Success([]);
    }
    var builder: seq<char> := [];
    var k := start;
    while k < end
      invariant start <= k <= end
      invariant builder == row.Contents()[start..k]
    {
      builder := builder + [row.value[k].value];
      k := k + 1;
    }
    r := Success(builder);
  }

  /** `subSequence(0, index)`. */
  method SubSequenceBefore(row: TextRow, index: int) returns (r: Result<seq<char>, ModelError>)
    requires row.Valid()
    ensures r.Success? <==> 0 <= index <= row.length
    ensures r.Failure? ==> r.error == IndexOutOfBounds(index)
    ensures r.Success? ==> r.value == row.Contents()[..index]
  {
    r := SubSequence(row, 0, index);
  }

  /** `subSequence(index, length)`. */
  method SubSequenceAfter(row: TextRow, index: int) returns (r: Result<seq<char>, ModelError>)
    requires row.Valid()
    ensures r.Success? <==> 0 <= index <= row.length
    ensures r.Failure? ==> r.error == IndexOutOfBounds(index)
    ensures r.Success? ==> r.value == row.Contents()[index..]
  {
    r := SubSequence(row, index, row.length);
  }

  /** Reallocates the array: to `minimumCapacity` when that exceeds the
      capacity, otherwise to the capacity plus the default step. All slots are
      copied, so the contents are unchanged. */
  method EnsureCapacity(row: TextRow, minimumCapacity: int) returns (grown: TextRow)
    requires row.Valid()
    ensures grown.Valid()
    ensures grown.length == row.length && grown.Contents() == row.Contents()
    ensures row.Capacity() < grown.Capacity()
    ensures minimumCapacity > row.Capacity() ==> grown.Capacity() == minimumCapacity
    ensures minimumCapacity <= row.Capacity() ==> grown.Capacity() == row.Capacity() + DEFAULT_CAPACITY
  {
    var target := if minimumCapacity <= row.Capacity() then row.Capacity() + DEFAULT_CAPACITY else minimumCapacity;
    var slots: seq<Option<char>> := seq(target, _ => None);
    var k := 0;
    while k < |row.value|
      invariant 0 <= k <= |row.value|
      invariant |slots| == target
      invariant forall j :: 0 <= j < k ==> slots[j] == row.value[j]
    {
      slots := slots[k := row.value[k]];
      k := k + 1;
    }
    grown := TextRow(slots, row.length);
    assert grown.Contents() == row.Contents();
  }

  /** The in-place shift of an insertion: walking down from the last used
      slot, each slot `j >= index` is copied to `j + n`. */
  method ShiftTailRight(v: seq<Option<char>>, index: int, length: int, n: nat) returns (w: seq<Option<char>>)
    requires 0 <= index <= length && length + n <= |v|
    ensures |w| == |v|
    ensures forall j :: 0 <= j < index ==> w[j] == v[j]
    ensures forall m :: index + n <= m < length + n ==> w[m] == v[m - n]
  {
    w := v;
    var k := length - 1;
    while k >= index
      invariant index - 1 <= k <= length - 1
      invariant |w| == |v|
      invariant forall j :: 0 <= j <= k ==> w[j] == v[j]
      invariant forall j :: k < j < length ==> w[j + n] == v[j]
    {
      w := w[k + n := w[k]];
      k := k - 1;
    }
    forall m | index + n <= m < length + n
      ensures w[m] == v[m - n]
    {
      var j := m - n;
      assert w[j + n] == v[j];
    }
  }

  /** Writes `cs` into the slots from `index` on, leaving all other slots. */
  method WriteChars(v: seq<Option<char>>, index: int, cs: seq<char>) returns (w: seq<Option<char>>)
    requires 0 <= index && index + |cs| <= |v|
    ensures |w| == |v|
    ensures forall j :: 0 <= j < index ==> w[j] == v[j]
    ensures forall m :: index <= m < index + |cs| ==> w[m] == Some(cs[m - index])
    ensures forall j :: index + |cs| <= j < |v| ==> w[j] == v[j]
  {
    w := v;
    var k := 0;
    while k < |cs|
      invariant 0 <= k <= |cs|
      invariant |w| == |v|
      invariant forall j :: 0 <= j < index ==> w[j] == v[j]
      invariant forall m :: index <= m < index + k ==> w[m] == Some(cs[m - index])
      invariant forall j :: index + |cs| <= j < |v| ==> w[j] == v[j]
    {
      w := w[index + k := Some(cs[k])];
      k := k + 1;
    }
  }

  /** Inserts `cs` before position `index`: the tail is shifted right in
      place, starting from the last character, then `cs` is written into the
      opened gap. When the row is full the capacity grows by `2 * |cs|`. */
  method Insert(row: TextRow, index: int, cs: seq<char>) returns (r: Result<TextRow, ModelError>)
    requires row.Valid()
    ensures r.Success? <==> 0 <= index <= row.length
    ensures r.Failure? ==> r.error == IndexOutOfBounds(index)
    ensures r.Success? ==> r.value.Valid()
    ensures r.Success? ==> r.value.Contents() == row.Contents()[..index] + cs + row.Contents()[index..]
    ensures r.Success? && row.length + |cs| > row.Capacity() ==> r.value.Capacity() == row.Capacity() + 2 * |cs|
    ensures r.Success? && row.length + |cs| <= row.Capacity() ==> r.value.Capacity() == row.Capacity()
  {
    var check := CheckIndex(row.length, index, true);
    if check.Some? {
      return Failure(check.value);
    }
    var n := |cs|;
    var spent := row.length + n;
    var cur := row;
    if spent > cur.Capacity() {
      cur := EnsureCapacity(cur, cur.Capacity() + n * 2);
    }
    var shifted := ShiftTailRight(cur.value, index, cur.length, n);
    var v := WriteChars(shifted, index, cs);
    SplicedRow(cur, v, index, cs);
    r := Success(TextRow(v, spent));
  }

  /** Inserts one character; when the row is full the capacity grows by one. */
  method InsertChar(row: TextRow, index: int, c: char) returns (r: Result<TextRow, ModelError>)
    requires row.Valid()
    ensures r.Success? <==> 0 <= index <= row.length
    ensures r.Failure? ==> r.error == IndexOutOfBounds(index)
    ensures r.Success? ==> r.value.Valid()
    ensures r.Success? ==> r.value.Contents() == row.Contents()[..index] + [c] + row.Contents()[index..]
    ensures r.Success? && row.length + 1 > row.Capacity() ==> r.value.Capacity() == row.Capacity() + 1
    ensures r.Success? && row.length + 1 <= row.Capacity() ==> r.value.Capacity() == row.Capacity()
  {
    var check := CheckIndex(row.length, index, true);
    if check.Some? {
      return Failure(check.value);
    }
    var spent := row.length + 1;
    var cur := row;
    if spent > cur.Capacity() {
      cur := EnsureCapacity(cur, cur.Capacity() + 1);
    }
    var shifted := ShiftTailRight(cur.value, index, cur.length, 1);
    var v := shifted[index := Some(c)];
    SplicedRow(cur, v, index, [c]);
    r := Success(TextRow(v, spent));
  }

  /** Slots that hold the row's head, then `cs`, then the row's tail make a
      valid row whose contents are the splice. */
  lemma SplicedRow(cur: TextRow, v: seq<Option<char>>, index: int, cs: seq<char>)
    requires cur.Valid() && 0 <= index <= cur.length && cur.length + |cs| <= |v| && |v| == |cur.value|
    requires forall j :: 0 <= j < index ==> v[j] == cur.value[j]
    requires forall m :: index <= m < index + |cs| ==> v[m] == Some(cs[m - index])
    requires forall m :: index + |cs| <= m < cur.length + |cs| ==> v[m] == cur.value[m - |cs|]
    ensures TextRow(v, cur.length + |cs|).Valid()
    ensures TextRow(v, cur.length + |cs|).Contents() == cur.Contents()[..index] + cs + cur.Contents()[index..]
  {
    var row' := TextRow(v, cur.length + |cs|);
    assert row'.Valid();
    var want := cur.Contents()[..index] + cs + cur.Contents()[index..];
    forall m | 0 <= m < row'.length
      ensures row'.Contents()[m] == want[m]
    {
      if m < index {
      } else if m < index + |cs| {
      } else {
        assert want[m] == cur.Contents()[m - |cs|];
      }
    }
  }

  /** `insert(length, cs)`. */
  method Append(row: TextRow, cs: seq<char>) returns (row': TextRow)
    requires row.Valid()
    ensures row'.Valid() && row'.Contents() == row.Contents() + cs
  {
    var r := Insert(row, row.length, cs);
    row' := r.value;
    assert row.Contents()[..row.length] == row.Contents();
  }

  /** Removes `[start, end)`: the range is cleared, then the tail is shifted
      left in place. An empty range leaves the row as it is. */
  method Delete(row: TextRow, start: int, end: int) returns (r: Result<TextRow, ModelError>)
    requires row.Valid()
    ensures r.Success? <==> 0 <= start <= end <= row.length
    ensures r.Failure? ==> Some(r.error) == CheckRangeIndex(row.length, start, end)
    ensures r.Success? ==> r.value.Valid() && r.value.Capacity() == row.Capacity()
    ensures r.Success? ==> r.value.Contents() == row.Contents()[..start] + row.Contents()[end..]
    ensures start == end && r.Success? ==> r.value == row
  {
    var check := CheckRangeIndex(row.length, start, end);
    if check.Some? {
      return Failure(check.value);
    }
    if start == end {
      assert row.Contents()[..start] + row.Contents()[end..] == row.Contents();
      return Success(row);
    }
    var cleared := ClearSlots(row.value, start, end);
    var v := ShiftSlotsLeft(cleared, start, end, row.length);
    var gap := end - start;
    var row' := TextRow(v, row.length - gap);
    assert row'.Valid();
    assert row'.Contents() == row.Contents()[..start] + row.Contents()[end..];
    r := Success(row');
  }

  /** The first loop of `delete`: the slots of `[start, end)` are emptied. */
  method ClearSlots(v: seq<Option<char>>, start: int, end: int) returns (v': seq<Option<char>>)
    requires 0 <= start <= end <= |v|
    ensures |v'| == |v|
    ensures forall j :: 0 <= j < |v| && (j < start || end <= j) ==> v'[j] == v[j]
    ensures forall j :: start <= j < end ==> v'[j].None?
  {
    v' := v;
    var k := start;
    while k < end
      invariant start <= k <= end && |v'| == |v|
      invariant forall j :: 0 <= j < |v| && (j < start || k <= j) ==> v'[j] == v[j]
      invariant forall j :: start <= j < k ==> v'[j].None?
    {
      v' := v'[k := None];
      k := k + 1;
    }
  }

  /** The second loop of `delete`: each slot from `end` up to `length` is
      copied `end - start` places to the left; slots from `length - (end -
      start)` on keep what they held. */
  method ShiftSlotsLeft(v: seq<Option<char>>, start: int, end: int, length: int) returns (v': seq<Option<char>>)
    requires 0 <= start <= end <= length <= |v|
    ensures |v'| == |v|
    ensures forall j :: 0 <= j < start ==> v'[j] == v[j]
    ensures forall j :: start <= j < length - (end - start) ==> v'[j] == v[j + (end - start)]
    ensures forall j :: length - (end - start) <= j < |v| ==> v'[j] == v[j]
  {
    var gap := end - start;
    v' := v;
    var o := end;
    while o < length
      invariant end <= o <= length && |v'| == |v|
      invariant forall j :: 0 <= j < start ==> v'[j] == v[j]
      invariant forall j :: start <= j < o - gap ==> v'[j] == v[j + gap]
      invariant forall j :: o - gap <= j < |v| ==> v'[j] == v[j]
    {
      var target := start + o - end;
      assert target == o - gap && v'[o] == v[target + gap];
      v' := v'[target := v'[o]];
      o := o + 1;
    }
  }

  /** Removes the character at `index`, moving each later slot one step left. */
  method DeleteCharAt(row: TextRow, index: int) returns (r: Result<TextRow, ModelError>)
    requires row.Valid()
    ensures r.Success? <==> 0 <= index < row.length
    ensures r.Failure? ==> r.error == IndexOutOfBounds(index)
    ensures r.Success? ==> r.value.Valid() && r.value.Capacity() == row.Capacity()
    ensures r.Success? ==> r.value.Contents() == row.Contents()[..index] + row.Contents()[index + 1..]
  {
    var check := CheckIndex(row.length, index, false);
    if check.Some? {
      return Failure(check.value);
    }
    var v := row.value[index := None];
    var o := index + 1;
    while o < row.length
      invariant index + 1 <= o <= row.length
      invariant |v| == |row.value|
      invariant forall j :: 0 <= j < index ==> v[j] == row.value[j]
      invariant forall j :: index <= j < o - 1 ==> v[j] == row.value[j + 1]
      invariant forall j :: o <= j < row.length ==> v[j] == row.value[j]
    {
      v := v[o - 1 := v[o]];
      v := v[o := None];
      o := o + 1;
    }
    var row' := TextRow(v, row.length - 1);
    assert row'.Valid();
    assert row'.Contents() == row.Contents()[..index] + row.Contents()[index + 1..];
    r := Success(row');
  }

  /** Keeps only the characters from `index` on. */
  method DeleteBefore(row: TextRow, index: int) returns (r: Result<TextRow, ModelError>)
    requires row.Valid()
    ensures r.Success? <==> 0 <= index <= row.length
    ensures r.Failure? ==> r.error == IndexOutOfBounds(index)
    ensures r.Success? ==> r.value.Valid() && r.value.Contents() == row.Contents()[index..]
  {
    var check := CheckIndex(row.length, index, true);
    if check.Some? {
      return Failure(check.value);
    }
    r := Delete(row, 0, index);
    assert row.Contents()[..0] + row.Contents()[index..] == row.Contents()[index..];
  }

  /** Keeps only the characters before `index`. */
  method DeleteAfter(row: TextRow, index: int) returns (r: Result<TextRow, ModelError>)
    requires row.Valid()
    ensures r.Success? <==> 0 <= index <= row.length
    ensures r.Failure? ==> r.error == IndexOutOfBounds(index)
    ensures r.Success? ==> r.value.Valid() && r.value.Contents() == row.Contents()[..index]
  {
    var check := CheckIndex(row.length, index, true);
    if check.Some? {
      return Failure(check.value);
    }
    r := Delete(row, index, row.length);
    assert row.Contents()[..index] + row.Contents()[row.length..] == row.Contents()[..index];
  }

  /** Empties the row, clearing every used slot; the capacity is kept. */
  method Clear(row: TextRow) returns (row': TextRow)
    requires row.Valid()
    ensures row'.Valid() && row'.Contents() == []
    ensures row'.Capacity() == row.Capacity()
    ensures forall j :: 0 <= j < row.length ==> row'.value[j].None?
  {
    var v := row.value;
    var k := 0;
    while k < row.length
      invariant 0 <= k <= row.length
      invariant |v| == |row.value|
      invariant forall j :: 0 <= j < k ==> v[j].None?
    {
      v := v[k := None];
      k := k + 1;
    }
    row' := TextRow(v, 0);
  }

  /** A slots row with the same characters, sized to them. */
  method Copy(row: TextRow) returns (row': TextRow)
    requires row.Valid()
    ensures row'.Valid() && row'.Contents() == row.Contents()
    ensures row'.Capacity() == MaxInt(DEFAULT_CAPACITY, row.length)
  {
    var chars := SubSequence(row, 0, row.length);
    row' := FromChars(chars.value);
  }

  /** The row's characters as a string. */
  method ToString(row: TextRow) returns (s: seq<char>)
    requires row.Valid()
    ensures s == row.Contents()
  {
    s := [];
    var k := 0;
    while k < row.length
      invariant 0 <= k <= row.length
      invariant s == row.Contents()[..k]
    {
      s := s + [row.value[k].value];
      k := k + 1;
    }
  }
}

=== FILE: wrappers.dfy ===
/** Failure-compatible wrappers and the error kinds the text-storage engine raises. */
module Wrappers {

  /** A nullable storage slot: `None` is a slot that holds no character. */
  datatype Option<+T> = None | Some(value: T)

  /** The outcome of an operation that may fail with a bounds error. */
  datatype Result<+R, +E> = Success(value: R) | Failure(error: E) {

    predicate IsFailure() {
      Failure?
    }

    function PropagateFailure<U>(): Result<U, E>
      requires Failure?
    {
      Failure(error)
    }

    function Extract(): R
      requires Success?
    {
      value
    }
  }

  /** The exceptions of the engine. `LineOutOfBounds` is raised for a bad
      1-based line number (the code calls lines "columns"), `OffsetOutOfBounds`
      for a bad 0-based offset inside a line (the code calls offsets "rows"),
      `IndexOutOfBounds` for a bad flat or in-row index, and `TouchedGap` for a
      read of a storage slot that was never written. */
  datatype ModelError =
    | IndexOutOfBounds(index: int)
    | LineOutOfBounds(line: int)
    | OffsetOutOfBounds(off: int)
    | TouchedGap(slot: int)
}
